=== FILE: README.md ===
# ICFPC 2022 canvas solver and run tracker, modelled in Dafny

This project models two parts of a solver for the ICFP Programming Contest
2022 problems.

**The solver.** It paints a target image by writing an ISL program, a list of
cut, colour, swap and merge moves over a canvas of rectangular blocks. The
model covers:

- ISL itself: block ids, moves, their textual form, and the
  redundant-colour pruning.
- The block-state simulator: `simulate`, `simulate_all`, `merge_block` and
  block rasterisation.
- The program generators ("head AIs"): the grid, merge, swap and
  dynamic-programming AIs.
- The discrete parts of the refinement AI, a chained AI that improves a
  program.
- Parsing of the `--ai` option string that chooses the AIs.

**The run tracker.** This is the web side that starts solver runs and lists
their results. The model covers:

- the submission schema;
- `putRun`, which turns a target list such as "1-3,7" into one worker call
  per problem;
- the DynamoDB single-table key scheme written by the worker;
- the three readers `fetchRun`, `fetchRunList` and `fetchSolutionList`;
- the POST handler of `/api/runs`, with its five-minute rate limit.

**Inputs and outputs.** Images, floating-point colours and similarity
scores, random draws, clocks, uuids, the store and the worker queue are all
inputs. Each operation is a pure function or method over immutable data. A
fallible operation returns an `Option` or `Result` where the source returns
`None`, returns an `Err`, or throws.

**File layout.**

| file | contents |
|---|---|
| `wrappers.dfy` | `Option`, `Result` |
| `strings.dfy` | split, join, decimal digits |
| `arith.dfy` | integer division facts |
| `isl.dfy` | the instruction language |
| `isl_text.dfy` | rendering and parsing of ISL text |
| `simulator.dfy` | the state machine |
| `raster.dfy` | painting a block |
| `refine.dfy` | the refinement AI |
| `merge_ai.dfy` | the merge AI |
| `swap_ai.dfy` | the swap AI |
| `dp_grid.dfy` | the DP AI's grid geometry |
| `dp.dfy` | the dynamic programme and its restoration |
| `grid_ai.dfy` | the grid AI |
| `ai_chain.dfy` | `parse_ai_string` |
| `js.dfy` | JavaScript numbers, `parseInt`, `Math.max` |
| `items.dfy` | DynamoDB items |
| `keys.dfy` | the key scheme and the worker's writes |
| `run_schema.dfy` | the zod schema |
| `put_run.dfy` | `putRun` |
| `readers.dfy` | the three readers |
| `runs_api.dfy` | the API handler |

**Main proved properties.**

- A program that the grid AI generates always executes on a fresh canvas,
  paints every grid cell over exactly its rectangle, and has the expected
  cut lines.
- The DP AI's plan is optimal among its candidates. The program restored
  from the plan executes, and its effects stay inside the chosen block.
- The merge AI ends with a single active block. It uses exactly one merge
  per extra block when ids are fresh. Each merge joins the first pair, in
  (x, y) order, that `merge_block` accepts, and it gives up only in a state
  where no active block merges with a later one.
- The swap AI's colour assignment stays a permutation, and every swap it
  applies is that round's first least, negative cost delta.
- The refinement AI returns the least of the initial score and the scores
  of the candidates it accepted, with the first candidate that reached it.
- The simulator and the merge AI use `merge_block` as the source writes it.
  A corrected merge sits beside it (see Findings).
- `remove_redundant_color_move` keeps exactly the last colour move per
  block and is idempotent.
- Rendering a block id and parsing it back gives the same id.
- `parse_ai_string` and the rendering of an AI chain are inverses.
- Every record written by `putRun` or by the worker reads back through the
  readers as written, for run ids without '#', as the v4 uuids of `uuidv4()` (runs.ts:40) are.
- A run blocks new submissions for five minutes, to the millisecond.

## Model

| member | source | states |
|---|---|---|
| Isl.IsChild | solver/core/src/isl.rs:26-36 | `a.is_child(b)` holds exactly when a is a strict prefix of b |
| Isl.IsChildIrreflexive | solver/core/src/isl.rs:26-36 | no id is its own child |
| Isl.IsChildTransitive | solver/core/src/isl.rs:26-36 | a child of a child is a child |
| Isl.IsChildOfExtension | solver/core/src/isl.rs:26-36 | appending at least one component gives a child |
| Isl.ConvertBlockId | solver/core/src/isl.rs:96-104 | re-addressing a cut or colour move changes only its block id; it is defined only for those three kinds of move, as the source panics on swap and merge |
| Isl.ConvertBlockIdLastWins | solver/core/src/isl.rs:96-104 | re-addressing twice equals re-addressing once to the second id, and re-addressing to the move's own id changes nothing |
| Isl.RemoveRedundantColorMove | solver/core/src/isl.rs:193-210 | the backward scan with a set of coloured ids yields the reference filter `Survivors`, which keeps a colour move only if no later colour move targets the same block |
| Isl.ColorIdsOfSurvivors | solver/core/src/isl.rs:193-210 | the blocks that receive a colour move are the same before and after pruning |
| Isl.SurvivorsLastColor | solver/core/src/isl.rs:193-210 | after pruning, every coloured block has exactly one colour move: the last one of the input |
| Isl.SurvivorsKeepsOtherMoves | solver/core/src/isl.rs:193-210 | the non-colour moves are kept in order, and the result is a subsequence of the input |
| Isl.SurvivorsIdempotent | solver/core/src/isl.rs:193-210 | pruning twice equals pruning once |
| Isl.LastColorOnNone | solver/core/src/isl.rs:193-210 | a block has a last colour move iff some colour move targets it |
| IslText.BlockIdRoundTrip | solver/core/src/isl.rs:7-18 | parsing the "[a.b.c]" rendering of any id gives the id back; the parser is the model's own inverse of the renderer, as the source has none |
| IslText.BlockIdParseExact | solver/core/src/isl.rs:7-18 | any text the model's id parser accepts is exactly the rendering of the id it returns |
| IslText.ParseComponents | solver/core/src/isl.rs:7-18 | the model's reader of the renderer's dot-separated pieces succeeds iff every piece is a canonical decimal, and each component is that piece's value |
| IslText.SaturateU32 | solver/core/src/isl.rs:45-53 | the float-to-u32 cast of a colour channel lands in 0..2^32-1 and is the identity inside that range |
| IslText.NoNewlineInMove | solver/core/src/isl.rs:106-135 | every move renders on one line |
| IslText.ProgramToStringAppend | solver/core/src/isl.rs:179-187 | the rendering of a concatenation is the concatenation of the renderings |
| IslText.ProgramLines | solver/core/src/isl.rs:179-187 | splitting a rendered program at newlines gives one line per move, then an empty remainder |
| IslText.DisplayExamplePCut | solver/core/src/isl.rs:144-148 | a point cut renders as in the source's display test |
| IslText.DisplayExampleLCut | solver/core/src/isl.rs:150-155 | a horizontal line cut renders with "[Y]" |
| IslText.DisplayExampleColor | solver/core/src/isl.rs:157-161 | a colour move renders its four rounded channels |
| IslText.DisplayExampleSwapMerge | solver/core/src/isl.rs:163-173 | swap and merge render both ids |
| Simulator.NewBlock | solver/core/src/simulator.rs:48-55 | a new block is active and has the given corner, size and colour |
| Simulator.InitialState | solver/core/src/simulator.rs:93-104 | the initial canvas is the single white block [0] of size w x h, and the next global id is 1 |
| Simulator.StateOfBlock | solver/core/src/simulator.rs:106-115 | the one-block state holds only the given block and keeps the global-id counter |
| Simulator.MergeBlockAsWritten | solver/core/src/simulator.rs:128-149 | the source's merge succeeds iff, once ordered, the blocks are stacked with equal widths and touching edges, or have equal heights and touching x-ranges; the result starts at the first block's corner, is active with the invalid colour, and its area is the sum |
| Simulator.MergeBlock | solver/core/src/simulator.rs:128-149 | corrected merge: it succeeds iff the blocks are stacked or side by side and share a full edge; the result starts at the lower corner, has the invalid colour, and its area is the sum |
| Simulator.MergeBlockCoversUnion | solver/core/src/simulator.rs:128-149 | a merged block covers exactly the cells of its two parts |
| Simulator.MergeBlockAsWrittenCounterexample | solver/core/src/simulator.rs:140-145 | the source's side-by-side branch merges two blocks at different heights into a rectangle covering cells that neither block covers |
| Simulator.MergeBlockAgreesWhenAdjacent | solver/core/src/simulator.rs:128-149 | whenever the corrected merge succeeds, the source's merge gives the same block; they disagree only on pairs whose corners differ in both x and y |
| Simulator.Simulate | solver/core/src/simulator.rs:153-277 | a move fails, leaving no new state, exactly when its precondition `CanApply` is false; a merge succeeds exactly when the source's `merge_block` accepts the pair |
| Simulator.PCutEffect | solver/core/src/simulator.rs:155-197 | a point cut deletes the block and adds four active children in the block's colour; they partition its area and its cells |
| Simulator.LCutEffect | solver/core/src/simulator.rs:198-243 | a line cut strictly inside the block deletes it and adds two active children in its colour; they partition its cells |
| Simulator.ColorEffect | solver/core/src/simulator.rs:244-250 | a colour move on an existing block changes only that block's colour |
| Simulator.SwapEffect | solver/core/src/simulator.rs:251-260 | swapping equal-sized blocks exchanges only their corners |
| Simulator.MergeEffect | solver/core/src/simulator.rs:261-274 | a merge marks both blocks merged and adds the merged block under the fresh id [next_global_id], which is then incremented |
| Simulator.ExecuteAppend | solver/core/src/simulator.rs:285-292 | running p followed by q is running p, then q from where p ended; a failure in p stops everything |
| Simulator.SimulatePartialFrom | solver/core/src/simulator.rs:285-292 | when the loop fails, the error names the first failing move, its 1-based line number and the state just before it; otherwise it returns the final state |
| Simulator.SimulateAll | solver/core/src/simulator.rs:279-283 | `simulate_all` succeeds iff the program executes, returning the final state; otherwise the error's line lies within the program and names that line's move |
| Raster.AsUsize | solver/core/src/simulator.rs:69-74 | `as usize` is the identity on non-negative values and wraps negative ones modulo 2^64 |
| Raster.PartialRasterize | solver/core/src/simulator.rs:62-80 | exactly the pixels inside the clipped window take the block's colour, only when the block is neither deleted nor invalid-coloured; all other pixels are unchanged |
| Raster.Rasterize | solver/core/src/simulator.rs:57-61 | full rasterisation is partial rasterisation with the whole image as the window |
| Raster.WindowIsIntersection | solver/core/src/simulator.rs:69-74 | for in-range coordinates, the painted window is the intersection of the block, the window and the image |
| Raster.NegativeCornerPaintsNothing | solver/core/src/simulator.rs:71-72 | a block whose corner has a negative y paints no row, because the cast wraps the top row past the image |
| Refine.RemoveAllChild | solver/core/src/ai/refine.rs:330-374 | the result is `None` iff some swap or merge touches a strict descendant of the block; otherwise it is the program without cut and colour moves on descendants |
| Refine.KeptMovesSubsequence | solver/core/src/ai/refine.rs:330-374 | the kept moves are a subsequence of the input |
| Refine.KeptMovesMembership | solver/core/src/ai/refine.rs:330-374 | a move is kept iff it occurs in the input and does not address a descendant |
| Refine.RemoveAllChildIdempotent | solver/core/src/ai/refine.rs:330-374 | removing the descendants twice equals removing them once |
| Refine.KeptMovesNoDrops | solver/core/src/ai/refine.rs:330-374 | with no descendant moves, the program is kept whole |
| Refine.TweakPCut | solver/core/src/ai/refine.rs:195-204 | shifting a point cut fails iff a shift component is 0; otherwise both coordinates move by exactly the shift |
| Refine.TweakLCut | solver/core/src/ai/refine.rs:236-244 | shifting a line cut fails iff the shift is 0; otherwise the line moves by exactly the shift and nothing else changes |
| Refine.Accept | solver/core/src/ai/refine.rs:101-114 | hill climbing accepts exactly strict improvements; annealing also accepts when the random draw accepts |
| Refine.UpdateBest | solver/core/src/ai/refine.rs:137-140 | the best score only decreases, and it is replaced only by a strictly smaller candidate, together with that candidate's program |
| Refine.StoppedStaysStopped | solver/core/src/ai/refine.rs:54-56 | once the current program is empty the loop has stopped: the current program and score never change again and no later candidate is accepted |
| Refine.Solve | solver/core/src/ai/refine.rs:50-144 | the best score never exceeds the initial score nor any accepted candidate's estimated score; the best program is the initial one, or the first accepted candidate whose score is the best and strictly below the initial score |
| MergeAi.ActiveBlockNum | solver/core/src/ai/merge.rs:58-66 | the count equals the number of active blocks |
| MergeAi.MergedBlockId | solver/core/src/ai/merge.rs:69-80 | there is an answer iff exactly one block is active, and it is that block |
| MergeAi.SortedActive | solver/core/src/ai/merge.rs:17-23 | the listing holds each active block once, sorted by (x, y) |
| MergeAi.FindPair | solver/core/src/ai/merge.rs:24-35 | the search finds a pair iff the source's `merge_block` accepts some pair i < j of the listing, and it returns the first one in (i, j) order |
| MergeAi.MergeLowersActiveCount | solver/core/src/ai/merge.rs:36-38 | merging two distinct active blocks that the source's `merge_block` accepts succeeds and lowers the active count, by exactly one when ids are fresh |
| MergeAi.NoPairMeansStuck | solver/core/src/ai/merge.rs:17-40 | when no pair of a sorted listing merges, the state is stuck: no active block merges with one strictly after it in (x, y) order |
| MergeAi.Solve | solver/core/src/ai/merge.rs:12-48 | on success: merges followed by one white colour move on the single remaining active block; the program executes; it has at most one merge per extra block, and exactly that many when ids are fresh; every merge joins the first pair, in (i, j) order, of a sorted listing of the state reached so far that `merge_block` accepts; the panic is reported only after such merges, in a stuck state; a single active block always succeeds |
| MergeAi.MergeChoicesStep | solver/core/src/ai/merge.rs:24-38 | appending the merge chosen in the state the earlier merges reach keeps every earlier choice recorded against the state it was made in |
| SwapAi.SwapAt | solver/core/src/ai/swap.rs:76 | `color_origin.swap(i, j)` exchanges the two entries and keeps the rest |
| SwapAi.SwapKeepsPermutation | solver/core/src/ai/swap.rs:76 | swapping keeps the colour assignment a permutation |
| SwapAi.SwapTotal | solver/core/src/ai/swap.rs:54-59 | a swap changes the total similarity by exactly the difference between the two blocks' after and before terms |
| SwapAi.BestPair | solver/core/src/ai/swap.rs:36-66 | the round's minimum cost delta is at most every equal-sized pair's delta, and it is attained by the first pair reaching it in (i, j) order |
| SwapAi.GreedyStep | solver/core/src/ai/swap.rs:67-78 | appending the current round's greedy choice keeps every earlier round's choice recorded against the assignment it was made under |
| SwapAi.Solve | solver/core/src/ai/swap.rs:11-82 | at most 10000 swaps, each between two distinct equal-sized blocks; the final colour assignment is the identity permuted by exactly these swaps; every swap is the round's greedy choice under the assignment before it, a negative delta that is the least and the first in (i, j) order to reach it; the total cost falls by at least one per swap; stopping early means no swap of equal-sized blocks would lower it |
| DpGrid.ConvertPointInGrid | solver/core/src/ai/dp.rs:351-362 | inside the grid, the `min` never applies and a grid point maps to corner + x * width / d |
| DpGrid.ConvertPointCorners | solver/core/src/ai/dp.rs:351-362 | grid corner (0, 0) maps to the block's corner and (d, d) to its far corner |
| DpGrid.ConvertPointExample | solver/core/src/ai/dp.rs:392-393 | the unit test's two mapped points |
| DpGrid.ConvertPointMonotone | solver/core/src/ai/dp.rs:351-362 | the mapping is monotone and stays within the block |
| DpGrid.ConvertPointStrict | solver/core/src/ai/dp.rs:351-362 | when d divides into the block, distinct grid lines map to distinct canvas lines |
| DpGrid.CalcSimilarity | solver/core/src/ai/dp.rs:327-350 | the two nested loops compute the sum of the cell similarities over the rectangle |
| DpGrid.SimRectQuadrants | solver/core/src/ai/dp.rs:194-202 | a rectangle's similarity is the sum over the four quadrants of a point cut |
| Dp.PlanChildren | solver/core/src/ai/dp.rs:194-202 | a point cut has four sub-rectangles and a line cut two, each inside the grid and strictly smaller |
| Dp.Calc | solver/core/src/ai/dp.rs:133-293 | the chosen plan is a valid plan for the rectangle, and its score is at most that of keeping the block as it is |
| Dp.CalcOptimal | solver/core/src/ai/dp.rs:143-285 | the chosen score is at most every candidate's cost; the plan is "keep" iff its score is the keep cost; otherwise it is the first candidate, in enumeration order, with the strictly smaller minimum |
| Dp.PointCutPlaced | solver/core/src/ai/dp.rs:178-202 | a grid point cut of a block lies strictly inside it, and the four children are exactly the sub-rectangles' blocks |
| Dp.VerticalCutPlaced | solver/core/src/ai/dp.rs:215-239 | a vertical grid cut lies strictly inside the block, and the two children are the sub-rectangles' blocks |
| Dp.HorizontalCutPlaced | solver/core/src/ai/dp.rs:250-274 | a horizontal grid cut lies strictly inside the block, and the two children are the sub-rectangles' blocks |
| Dp.Restore | solver/core/src/ai/dp.rs:296-325 | every restored move addresses the block or a descendant of it, and the block's own moves come first |
| Dp.RestoreExecutes | solver/core/src/ai/dp.rs:296-325 | the restored program executes from any state in which the block sits where the plan expects it, and it changes nothing outside the block's subtree |
| Dp.RestoreEmpty | solver/core/src/ai/dp.rs:296-325 | the restored program is empty iff the plan keeps the block |
| Dp.Solve | solver/core/src/ai/dp.rs:48-95 | the program extends the merge prefix; nothing is added when the block is smaller than the grid or the plan keeps it; every added move lies in the block's subtree |
| Dp.SolveExecutes | solver/core/src/ai/dp.rs:48-95 | the DP program executes after the prefix and changes nothing outside the block's subtree |
| GridAi.SolveRow | solver/core/src/ai/grid.rs:25-74 | the loop body for one strip emits the reference row program: the strip's cut, then a cut and a colour per cell with the right ids and lines |
| GridAi.Solve | solver/core/src/ai/grid.rs:14-77 | the generated program equals the reference grid program |
| GridAi.ColumnStepExecutes | solver/core/src/ai/grid.rs:40-71 | one cell's moves execute, paint exactly that cell's rectangle, and leave the rest of the strip as the next cell's block |
| GridAi.RowStepExecutes | solver/core/src/ai/grid.rs:25-74 | one strip's moves execute, paint all its cells, and leave the remainder as the next strip's block |
| GridAi.GridExecutes | solver/core/src/ai/grid.rs:14-77 | on a canvas at least rows x cols pixels, the program executes from the initial state and paints every cell on its own rectangle |
| GridAi.GridConsists | solver/core/src/ai/grid.rs:14-77 | the program has only cuts and colours: rows * cols colour moves, horizontal cuts at multiples of height / rows, and vertical cuts at multiples of width / cols in every strip |
| AiChain.ParseChain | solver/core/src/lib.rs:79-98 | the chained names parse iff each does; one AI per name, in order; a failure reports the first bad name |
| AiChain.ParseAiString | solver/core/src/lib.rs:63-100 | an unknown head name is reported by name; on success there is one chained AI per remaining part |
| AiChain.ParseAiStringSucceeds | solver/core/src/lib.rs:63-100 | the string parses iff its first part is a head name and every later part is a chained name, with a valid algorithm for "Refine" |
| AiChain.MergeIsNotHead | solver/core/src/lib.rs:73 | "Merge" is not accepted as a head AI |
| AiChain.ParseThenName | solver/core/src/lib.rs:63-100 | every accepted string is the rendering of the chain it parses to |
| AiChain.NameThenParse | solver/core/src/lib.rs:63-100 | every chain the options can build is parsed back from its rendering |
| Js.Add | www/lib/db.ts:196 | JavaScript addition: NaN if either side is NaN, otherwise the sum |
| Js.MaxFromZero | www/pages/api/runs.ts:30 | `Math.max(0, ...xs)` is NaN iff some x is NaN; otherwise it is at least 0 and every x, and when positive it equals some x |
| Js.ParseInt | www/lib/db.ts:142-143 | `parseInt(s, 10)` is NaN iff no digit follows the leading white space and sign |
| Js.ParseIntOfNat | www/lib/db.ts:142 | `parseInt` reads back the decimal rendering of every natural number |
| Js.ParseIntOfNumberToString | www/lib/db.ts:101 | `parseInt` inverts the template-string rendering of every integer, and of NaN |
| Items.Get | www/lib/db.ts:136-148 | a found attribute is in the item under that name; a missing one has no entry of that name |
| Items.SetAttr | solver/lambda/src/db.rs:45-54 | `SET` overwrites in place when the attribute exists (same length), otherwise appends it; other entries are unchanged |
| Items.GetSetAttr | solver/lambda/src/db.rs:45-54 | after `SET`, the name reads the new value and every other name reads as before |
| Items.SetAttrTwice | solver/lambda/src/db.rs:45-54 | setting the same attribute twice equals setting it once to the second value |
| Items.SetAttrDistinct | solver/lambda/src/db.rs:45-54 | `SET` keeps attribute names distinct |
| Items.Field | www/lib/db.ts:180 | reading a property of an absent attribute fails, and otherwise gives the attribute |
| RunKeys.SolutionItemFields | solver/lambda/src/db.rs:26-42 | the worker's item has distinct names, and every attribute reads back as written |
| RunKeys.SaveScore | solver/lambda/src/db.rs:45-54 | the header's "S#<problem>" attribute holds the score afterwards, and nothing else changes |
| RunKeys.SaveScoreAgain | solver/lambda/src/db.rs:45-54 | saving a problem again replaces its score and adds no attribute |
| RunKeys.ObjectKeysDistinct | solver/lambda/src/db.rs:60-69 | program and image object keys never collide, and each key determines its run and problem when run ids have no '/' |
| RunKeys.SecondFieldOfKey | www/lib/db.ts:139 | `key.split("#")[1]` of "<tag>#<id>" gives the id back iff the id has no '#' |
| RunSchema.RangeTokenShape | www/lib/schema/run.ts:25-30 | a range token is two positive numerals around one '-' |
| RunSchema.TargetRejections | www/lib/schema/run.ts:25-30 | the empty string, "0", "01" and "1 2" are rejected |
| RunSchema.TargetAcceptances | www/lib/schema/run.ts:25-30 | the descending range "5-3" and the number "12" are accepted |
| RunSchema.TrailingCommaRejected | www/lib/schema/run.ts:25-30 | a target ending in a comma is rejected |
| RunSchema.TargetConcat | www/lib/schema/run.ts:25-30 | two valid targets joined by a comma form a valid target |
| PutRun.SetAdd | www/lib/db.ts:73 | `Set.add` appends a new element and ignores a present one, keeping insertion order and no duplicates |
| PutRun.AddRange | www/lib/db.ts:72-74 | the range loop adds exactly the integers from `from` to `to`, and nothing when to < from |
| PutRun.TargetIdsSpec | www/lib/db.ts:67-78 | the id set has no duplicates, and an id is in it iff some comma-separated token names it |
| PutRun.ValidTargetIds | www/lib/db.ts:67-78 | a target the schema accepts yields only numeric ids of at least 1 |
| PutRun.TargetIdsExample | www/lib/db.ts:67-78 | "5,5,2-2" yields 5 then 2, each once |
| PutRun.DescendingRangeIsEmpty | www/lib/db.ts:72 | a range whose end is below its start adds nothing |
| PutRun.RunHeaderFields | www/lib/db.ts:81-95 | the header has PK = SK = "R#<uuid>", the submission as given, and the creation second on the "R.Time" index |
| PutRun.RunHeaderHasNoScores | www/lib/db.ts:86-93 | a new header has no "S#" attributes |
| PutRun.PutRunPayloads | www/lib/db.ts:98-113 | for a valid target: one worker payload per distinct id, in set order, with the run's args and uuid, and a decimal problem id that parses back to the id |
| Readers.SortByProblem | www/lib/db.ts:201 | sorting permutes the rows |
| Readers.SortByProblemSorted | www/lib/db.ts:201 | when every problem id is a number, the rows come out in ascending order |
| Readers.SortKeepsScoreSum | www/lib/db.ts:201 | sorting keeps the total score |
| Readers.FetchRunScore | www/lib/db.ts:155-203 | a missing item list throws; an empty one gives the initial result; otherwise the run's score is the sum of its rows' scores |
| Readers.FetchRunSorted | www/lib/db.ts:155-203 | the rows `fetchRun` returns are in problem order whenever every id is a number |
| Readers.FoldRunHeader | www/lib/db.ts:182-186 | reading back the header that `putRun` wrote sets the creation second, the args and the target, and adds no row |
| Readers.FoldSolutionItem | www/lib/db.ts:188-198 | reading back a worker's solution item appends its problem id, score, commit, date and time, and adds the score to the total |
| Readers.FetchNewRun | www/lib/db.ts:155-203 | a run just created reads back with its creation second, its submission, no rows and score 0 |
| Readers.Summaries | www/lib/db.ts:222-241 | `fetchRunList` succeeds iff every header reads, giving one summary per header in index order |
| Readers.SaveScoreCounts | www/lib/db.ts:225-231 | after the worker saves a new problem, the run lists one more problem and that score added; re-saving keeps the count |
| Readers.NewRunSummary | www/lib/db.ts:222-241 | a header written by `putRun` lists with its id, creation second, submission, zero problems and score 0 |
| Readers.Solutions | www/lib/db.ts:134-151 | `fetchSolutionList` succeeds iff every item reads, giving one solution per item in index order |
| Readers.SolutionRoundTrip | www/lib/db.ts:135-150 | a worker's solution item reads back with its run id, commit, numeric problem id, score, AI and timings |
| RunsApi.TooSoonExact | www/pages/api/runs.ts:30-32 | the fractional check `last > now/1000 - 300` holds exactly when 1000 * last > nowMs - 300000 |
| RunsApi.TooSoonBoundary | www/pages/api/runs.ts:30-32 | 299.999 seconds after a run's second is refused, and exactly 300 seconds after is allowed |
| RunsApi.TooSoonSome | www/pages/api/runs.ts:29-36 | with numeric times, the maximum is too recent iff some run's start is, or the clock is within five minutes of the epoch |
| RunsApi.NaNTimeLiftsLimit | www/pages/api/runs.ts:30-32 | one non-numeric listed time makes the maximum NaN and lets every submission through |
| RunsApi.HandleStartsRun | www/pages/api/runs.ts:15-48 | `putRun` is called iff the request is a POST with a valid body and no run is too recent (or some time is NaN), and it is called with the submitted fields, the uuid and the clock |
| RunsApi.HandleResponses | www/pages/api/runs.ts:15-50 | non-POST gets 405 and an invalid body gets 400, neither calling `putRun`; a failing run-list read throws; status 200 means `putRun` was called, with success iff it did not throw |
| RunsApi.RecentRunBlocks | www/pages/api/runs.ts:29-36 | once a run's header is in the index, no submission starts a run until five minutes after the start of its creation second |

## Left out

- Image processing and floating point: pixels, colour averages, k-means colour sampling, similarity, move cost and score are not computed. Where an AI uses them, they enter as integer inputs: a per-cell similarity table, a per-block swap cost, a move-cost function, candidate scores.
- Colours are already-rounded 0..255 channels. The `(c * 255).round()` step before the `u32` cast is not modelled.
- Annealing draws its acceptance from `exp(-delta / T)` and a random float. In the model the draw is a boolean input per step. The temperature schedule is left out.
- The neighbour generator of the refinement AI (`make_neighbor`, `solve_by_dp_ai_one_block`) is left out. Its random choices of move, block and DP size have no model. Its steps enter `Refine.Solve` as a sequence of candidates, and `RemoveAllChild` and the two tweaks are modelled as its building blocks.
- Simulator.Simulate: coordinates, sizes and global ids are unbounded integers. The `i32` overflow panics of the cut, swap and merge arithmetic (simulator.rs:161, 184, 206-207, 230) and the `u32` `next_global_id` increment (simulator.rs:269) are not modelled.
- Refine.Solve: incremental partial-image rescoring (refine.rs:81-135) is not modelled. The candidate's score is an input.
- Random block sampling (`sample_active_block`) is left out, because it needs a random source.
- Hash-map iteration order is left out. The merge AI's sort ties and the swap AI's block order are inputs that any order satisfies. The DP AI's choice of its first block is given.
- Dp.Calc: the memo tables are not modelled, because they only cache the pure recursion. The `1 << 30` sentinel and `i32` overflow of costs are not modelled. Costs are unbounded integers. Every Dp member requires a grid of at least one division (`frame.d >= 1`): with `DpAI::new(0, ...)` (dp.rs:98-116) the source's memo tables are empty and the first lookup panics, and that panic is not modelled.
- Dp.Solve: requires the block to be well formed and its grid to come from the block, as the source's callers provide. The k-means colours are an input whose first entry is the block's colour, as the source arranges by pushing it and reversing.
- The `as i32` and `as usize` conversions of the grid and DP AIs are not modelled, so sizes are unbounded naturals. Only `partial_rasterize` models its `as usize` wrap-around, where it changes behaviour.
- The swap AI: `std::i64::MAX` is modelled as the constant `I64_MAX`. Overflow of `i64` sums is not modelled.
- The dynamically dispatched AIs that `parse_ai_string` builds (OneColor, Cross, ChangeColor, Rect, Annealing) are not part of this model. It names them without modelling what they do.
- The solver's CLI (`run` in lib.rs) is not modelled. The program's output, the image files and logging are also left out.
- JavaScript numbers are exact integers or NaN. Precision loss above 2^53, negative zero and infinities are left out.
- `parseInt` without a radix is modelled as decimal at db.ts:183. The model does not read a leading "0x" as hexadecimal.
- Readers.SortByProblem: the model is a stable insertion sort. `Array.prototype.sort` with an inconsistent comparator is implementation-defined. Sortedness is therefore claimed only when every id is a number.
- Attribute order within an item is as the store returns it. The model takes it as given.
- The store and worker calls are inputs or outputs: DynamoDB queries, `PutItem`, `UpdateItem`, S3 uploads and Lambda invocations. `Promise.all`'s concurrent invocations are modelled as the list of payloads in set order. A partial failure inside `putRun` is modelled only as the "registration failed" response.
- RunsApi.Handle: the clock, the uuid and whether `putRun` throws are parameters. The two clock readings in the handler and in `putRun` are one value. The race between two concurrent submissions is not modelled. The response messages are named by meaning rather than by their Japanese text.
- `Math.max(0, ...times)` with too many arguments to spread is left out, and so is the engine limit it hits.
- The lambda's `main.rs` calls `db::save` with fewer arguments than `db.rs` declares. The model follows `db.rs`.

## Findings

| source | as written | input that shows it | evidently intended | confidence | as-written member | corrected member |
|---|---|---|---|---|---|---|
| solver/core/src/simulator.rs:140-145 | for blocks at different x, `merge_block` checks only equal heights and x-adjacency, not that the two blocks start at the same y | block1 at (0, 0) and block2 at (2, 5), both of size 2 x 3: merged into a 4 x 3 block at (0, 0) that covers (3, 1), which neither input covers | side-by-side blocks merge only when `block1.p.y == block2.p.y`, mirroring the stacked branch's x check | high (not executed) | Simulator.MergeBlockAsWrittenCounterexample | Simulator.MergeBlockCoversUnion |

`Simulator.Simulate` and the merge AI keep the source's behaviour and call
`MergeBlockAsWritten`. `Simulator.MergeBlock` is the corrected merge, and
`Simulator.MergeBlockAgreesWhenAdjacent` shows that the two agree on every
pair the corrected merge accepts.

=== FILE: ai_chain.dfy ===
/** `parse_ai_string` (`lib.rs`): the `--ai` option names one head AI,
    which builds a program from the target image, followed by any number of
    chained AIs that improve it, separated by commas, e.g. "DP,Refine". */
module AiChain {

  import opened Wrappers
  import opened Strings

  /** The command-line options the parser reads. The floating-point
      `refine_initial_temperature` is carried along by the source without
      being inspected and is not modelled. */
  datatype Options = Options(
    refineIters: nat,
    refineAlgorithm: string,
    refineDpDivideMax: nat,
    annealingSeconds: nat,
    dpDivideNum: nat,
    dpColorNum: nat)

  datatype HeadAi =
    | OneColor
    | Grid(rows: nat, cols: nat)
    | Cross(size: nat)
    | Dp(divideNum: nat, colorNum: nat)
    | ChangeColor
    | Swap
    | Rect

  /** `OptimizeAlgorithm`; the source calls the second one `Annealing`. */
  datatype OptimizeAlgorithm = HillClimbing | SimulatedAnnealing

  datatype ChainedAi =
    | Refine(nIters: nat, algorithm: OptimizeAlgorithm, dpDivideMax: nat)
    | Annealing(timeLimitSeconds: nat)

  /** The three ways the parse fails, each naming the offending word. */
  datatype ParseError =
    | NotHeadAi(name: string)
    | NotOptimizeAlgorithm(name: string)
    | NotChainedAi(name: string)

  /** The message `bail!` formats for each error. */
  function Message(e: ParseError): string
  {
    match e
    case NotHeadAi(x) => "'" + x + "' is not a HeadAI"
    case NotOptimizeAlgorithm(x) => "'" + x + "' is not OptimizeAlgorithm"
    case NotChainedAi(x) => "'" + x + "' is not a ChainedAI"
  }

  // ---------------------------------------------------------------------
  // The parser

  /** The head AI a name selects: Grid is fixed at 4 x 4, Cross at size 3,
      and DP takes its sizes from the options. "Merge" is not a head AI. */
  function HeadOf(name: string, opt: Options): Option<HeadAi>
  {
    if name == "OneColor" then Some(OneColor)
    else if name == "Grid" then Some(Grid(4, 4))
    else if name == "Cross" then Some(Cross(3))
    else if name == "DP" then Some(Dp(opt.dpDivideNum, opt.dpColorNum))
    else if name == "ChangeColor" then Some(ChangeColor)
    else if name == "Swap" then Some(Swap)
    else if name == "Rect" then Some(Rect)
    else None
  }

  function AlgorithmOf(name: string): Result<OptimizeAlgorithm, ParseError>
  {
    if name == "hill" || name == "hillclimbing" then Success(HillClimbing)
    else if name == "annealing" then Success(SimulatedAnnealing)
    else Failure(NotOptimizeAlgorithm(name))
  }

  /** The chained AI a name selects. The refine algorithm is looked at only
      when the name is "Refine". */
  function ChainedOf(name: string, opt: Options): Result<ChainedAi, ParseError>
  {
    if name == "Refine" then
      var algorithm :- AlgorithmOf(opt.refineAlgorithm);
      Success(Refine(opt.refineIters, algorithm, opt.refineDpDivideMax))
    else if name == "Annealing" then Success(Annealing(opt.annealingSeconds))
    else Failure(NotChainedAi(name))
  }

  /** The loop over the names after the first: the first name that fails
      decides the error; otherwise one chained AI per name, in order. */
  function ParseChain(names: seq<string>, opt: Options): (r: Result<seq<ChainedAi>, ParseError>)
    ensures r.Success? <==> forall k :: 0 <= k < |names| ==> ChainedOf(names[k], opt).Success?
    ensures r.Success? ==> |r.value| == |names|
    ensures r.Success? ==> forall k :: 0 <= k < |names| ==> r.value[k] == ChainedOf(names[k], opt).value
    ensures r.Failure? ==>
              exists k :: && 0 <= k < |names|
                          && ChainedOf(names[k], opt) == Failure(r.error)
                          && forall j :: 0 <= j < k ==> ChainedOf(names[j], opt).Success?
  {
    if |names| == 0 then Success([])
    else
      var first :- ChainedOf(names[0], opt);
      var rest :- ParseChain(names[1..], opt);
      Success([first] + rest)
  }

  /** `parse_ai_string`: split at commas, the first piece is the head AI
      (checked first), the rest the chain. */
  function ParseAiString(s: string, opt: Options): (r: Result<(HeadAi, seq<ChainedAi>), ParseError>)
    ensures var parts := Split(s, ',');
            && (HeadOf(parts[0], opt).None? ==> r == Failure(NotHeadAi(parts[0])))
            && (r.Success? ==> |r.value.1| == |parts| - 1)
  {
    var parts := Split(s, ',');
    match HeadOf(parts[0], opt)
    case None => Failure(NotHeadAi(parts[0]))
    case Some(head) =>
      var chain :- ParseChain(parts[1..], opt);
      Success((head, chain))
  }

  // ---------------------------------------------------------------------
  // Which strings are accepted

  predicate IsChainedName(name: string, opt: Options)
  {
    || name == "Annealing"
    || (name == "Refine" && opt.refineAlgorithm in {"hill", "hillclimbing", "annealing"})
  }

  lemma ChainedOfSucceeds(name: string, opt: Options)
    ensures ChainedOf(name, opt).Success? <==> IsChainedName(name, opt)
  {
  }

  /** The parse succeeds exactly when the first name is a head AI and every
      later one is Annealing, or Refine with a known refine algorithm. */
  lemma ParseAiStringSucceeds(s: string, opt: Options)
    ensures var parts := Split(s, ',');
            ParseAiString(s, opt).Success? <==>
              && HeadOf(parts[0], opt).Some?
              && forall k :: 1 <= k < |parts| ==> IsChainedName(parts[k], opt)
  {
    var parts := Split(s, ',');
    var names := parts[1..];
    assert ParseAiString(s, opt).Success? <==>
             HeadOf(parts[0], opt).Some? && ParseChain(names, opt).Success?;
    ParseChainSucceeds(names, opt);
    assert (forall k :: 0 <= k < |names| ==> IsChainedName(names[k], opt))
       <==> (forall k :: 1 <= k < |parts| ==> IsChainedName(parts[k], opt)) by {
      forall k | 1 <= k < |parts|
        ensures parts[k] == names[k - 1]
      {
      }
    }
  }

  lemma ParseChainSucceeds(names: seq<string>, opt: Options)
    ensures ParseChain(names, opt).Success? <==> forall k :: 0 <= k < |names| ==> IsChainedName(names[k], opt)
  {
    forall k | 0 <= k < |names| {
      ChainedOfSucceeds(names[k], opt);
    }
  }

  lemma MergeIsNotHead(opt: Options)
    ensures ParseAiString("Merge", opt) == Failure(NotHeadAi("Merge"))
    ensures ParseAiString("Merge,Refine", opt) == Failure(NotHeadAi("Merge"))
  {
    SplitJoin(["Merge"], ',');
    assert Join(["Merge"], ',') == "Merge";
    SplitJoin(["Merge", "Refine"], ',');
    assert Join(["Merge", "Refine"], ',') == "Merge,Refine";
  }

  // ---------------------------------------------------------------------
  // Names: the inverse of the parser

  function HeadName(h: HeadAi): string
  {
    match h
    case OneColor => "OneColor"
    case Grid(_, _) => "Grid"
    case Cross(_) => "Cross"
    case Dp(_, _) => "DP"
    case ChangeColor => "ChangeColor"
    case Swap => "Swap"
    case Rect => "Rect"
  }

  function ChainedName(c: ChainedAi): string
  {
    match c
    case Refine(_, _, _) => "Refine"
    case Annealing(_) => "Annealing"
  }

  function ChainNames(cs: seq<ChainedAi>): (r: seq<string>)
    ensures |r| == |cs|
    ensures forall k :: 0 <= k < |cs| ==> r[k] == ChainedName(cs[k])
  {
    seq(|cs|, k requires 0 <= k < |cs| => ChainedName(cs[k]))
  }

  /** The AI chain written back as an `--ai` string. */
  function AiString(h: HeadAi, cs: seq<ChainedAi>): string
  {
    Join([HeadName(h)] + ChainNames(cs), ',')
  }

  /** An AI the parser can produce under these options. */
  predicate HeadFrom(h: HeadAi, opt: Options)
  {
    HeadOf(HeadName(h), opt) == Some(h)
  }

  predicate ChainedFrom(c: ChainedAi, opt: Options)
  {
    ChainedOf(ChainedName(c), opt) == Success(c)
  }

  lemma NamesHaveNoComma(h: HeadAi, cs: seq<ChainedAi>)
    ensures forall k :: 0 <= k < |[HeadName(h)] + ChainNames(cs)| ==> ',' !in ([HeadName(h)] + ChainNames(cs))[k]
  {
    var names := [HeadName(h)] + ChainNames(cs);
    forall k | 0 <= k < |names|
      ensures ',' !in names[k]
    {
      if k > 0 {
        assert names[k] == ChainedName(cs[k - 1]);
      }
    }
  }

  /** Parsing gives back the AIs its string names: whatever parses, written
      back, is the string it came from. */
  lemma ParseThenName(s: string, opt: Options)
    requires ParseAiString(s, opt).Success?
    ensures var (h, cs) := ParseAiString(s, opt).value;
            && HeadFrom(h, opt)
            && (forall k :: 0 <= k < |cs| ==> ChainedFrom(cs[k], opt))
            && AiString(h, cs) == s
  {
    var parts := Split(s, ',');
    var (h, cs) := ParseAiString(s, opt).value;
    HeadNameOf(parts[0], opt, h);
    var names := [HeadName(h)] + ChainNames(cs);
    forall k | 0 <= k < |cs|
      ensures ChainedFrom(cs[k], opt) && ChainedName(cs[k]) == parts[k + 1]
    {
      assert ChainedOf(parts[1..][k], opt) == Success(cs[k]);
      ChainedNameOf(parts[k + 1], opt, cs[k]);
    }
    assert names == parts;
  }

  /** The head AI a name selects is named by it. */
  lemma HeadNameOf(name: string, opt: Options, h: HeadAi)
    requires HeadOf(name, opt) == Some(h)
    ensures HeadFrom(h, opt) && HeadName(h) == name
  {
  }

  /** The chained AI a name selects is named by it. */
  lemma ChainedNameOf(name: string, opt: Options, c: ChainedAi)
    requires ChainedOf(name, opt) == Success(c)
    ensures ChainedFrom(c, opt) && ChainedName(c) == name
  {
  }

  /** Naming any AIs the parser can produce and parsing the name gives them
      back. */
  lemma NameThenParse(h: HeadAi, cs: seq<ChainedAi>, opt: Options)
    requires HeadFrom(h, opt)
    requires forall k :: 0 <= k < |cs| ==> ChainedFrom(cs[k], opt)
    ensures ParseAiString(AiString(h, cs), opt) == Success((h, cs))
  {
    var names := [HeadName(h)] + ChainNames(cs);
    NamesHaveNoComma(h, cs);
    SplitJoin(names, ',');
    assert names[1..] == ChainNames(cs);
    var chain := ParseChain(ChainNames(cs), opt);
    assert chain.Success? by {
      forall k | 0 <= k < |cs|
        ensures ChainedOf(ChainNames(cs)[k], opt).Success?
      {
      }
    }
    assert chain.value == cs;
  }
}

=== FILE: arith.dfy ===
/** Facts about multiplication and floor division on naturals that the
    solver does not find unaided; the grid geometry of the DP and grid AIs
    rests on them. */
module Arith {

  lemma MulNonneg(d: int, k: int)
    requires d >= 0 && k >= 0
    ensures d * k >= 0
  {
  }
  lemma MulGe(d: int, k: int)
    requires d >= 1 && k >= 1
    ensures d * k >= d
  {
    assert d * k == d * (k - 1) + d;
    MulNonneg(d, k - 1);
  }
  lemma MulZero(d: int, k: int)
    requires d >= 1 && -d < d * k < d
    ensures k == 0
  {
    if k >= 1 {
      MulGe(d, k);
    } else if k <= -1 {
      MulGe(d, -k);
    }
  }
  lemma DivUnique(n: int, d: int, q: int, r: int)
    requires d >= 1 && 0 <= r < d && n == d * q + r
    ensures n / d == q && n % d == r
  {
    var q' := n / d;
    var r' := n % d;
    assert n == d * q' + r';
    assert d * (q - q') == d * q - d * q';
    MulZero(d, q - q');
  }
  lemma AddDiv(n: nat, d: nat)
    requires d >= 1
    ensures (n + d) / d == n / d + 1
  {
    assert n == d * (n / d) + n % d;
    assert n + d == d * (n / d + 1) + n % d;
    DivUnique(n + d, d, n / d + 1, n % d);
  }
  lemma MulDivCancel(k: nat, d: nat)
    requires d >= 1
    ensures d * k / d == k
  {
    DivUnique(d * k, d, k, 0);
  }
  lemma MulMono(a: nat, b: nat, k: nat)
    requires a <= b
    ensures a * k <= b * k
  {
    assert b * k == a * k + (b - a) * k;
    MulNonneg(b - a, k);
  }
  lemma DivMono(n: nat, m: nat, d: nat)
    requires d >= 1 && n <= m
    ensures n / d <= m / d
  {
    assert n == d * (n / d) + n % d;
    assert m == d * (m / d) + m % d;
    if n / d > m / d {
      MulGe(d, n / d - m / d);
    }
  }

  /** One more row of k adds k. */
  lemma MulSucc(n: nat, k: nat)
    requires n >= 1
    ensures (n - 1) * k + k == n * k
  {
  }

  /** Splitting `total` into `parts` equal pieces of `total / parts`: each
      piece is at least 1 when there are no more parts than units, and the
      pieces fit into the total. */
  lemma PieceSize(total: nat, parts: nat)
    requires 1 <= parts <= total
    ensures total / parts >= 1 && (total / parts) * parts <= total
  {
    DivMono(parts, total, parts);
    MulDivCancel(1, parts);
    assert total == parts * (total / parts) + total % parts;
  }

  /** The first i + 1 pieces fit into the total. */
  lemma PiecesFit(total: nat, parts: nat, i: nat)
    requires 1 <= parts <= total && i < parts
    ensures (total / parts) * (i + 1) <= total
  {
    PieceSize(total, parts);
    MulMono(i + 1, parts, total / parts);
    assert (i + 1) * (total / parts) == (total / parts) * (i + 1);
    assert parts * (total / parts) == (total / parts) * parts;
  }
}

=== FILE: dp.dfy ===
/** The dynamic programme of `DpAI` (`ai/dp.rs`). A subproblem is a grid
    rectangle of the d x d grid together with the colour the block already
    has; its best plan either keeps the block, recolours it, or recolours it
    optionally and cuts it once (a point cut or a vertical or horizontal
    line cut on grid lines), solving the children recursively.
    `restore_program` then turns the chosen plans into a program addressed
    to real block ids. The memo tables only cache values of a pure
    recursion, so the model recomputes instead of memoising. The sampled
    colours, the per-cell similarity and the move cost are inputs. */
module Dp {

  import opened Wrappers
  import opened Isl
  import opened Simulator
  import opened DpGrid

  /** What `calc` reads besides its arguments: the grid over the block, the
      sampled colours (index 0 is the block's own colour), the similarity of
      one grid cell painted with a sampled colour, and the cost of a move
      given the area of the block it applies to. */
  datatype DpInput = DpInput(frame: Frame, colors: seq<Rgba>, sim: CellSim, cost: (Move, int) -> int)
  {
    /** The state `calc` runs in: the guard of `solve` held and at least
        the block's own colour was sampled. */
    predicate Valid()
    {
      frame.Divisible() && |colors| >= 1
    }
  }

  /** A subproblem, as `Child` in the source: grid corner, grid extent and
      the index of the colour the block currently has. */
  datatype Child = Child(x: nat, y: nat, w: nat, h: nat, colorId: nat)

  /** The asserts of `calc`: the rectangle lies in the grid, and it is not
      empty (`target_area > 0`). */
  predicate ChildOk(input: DpInput, k: Child)
  {
    && k.w >= 1 && k.h >= 1
    && k.x + k.w <= input.frame.d && k.y + k.h <= input.frame.d
    && k.colorId < |input.colors|
  }

  /** The decision `calc` records for a subproblem. */
  datatype Plan =
    | Keep                                 // the do-nothing similarity
    | Recolor(c: nat)                      // one `Color` move
    | PointCut(c: nat, lw: nat, lh: nat)   // optional `Color`, then a `PCut`
    | VerticalCut(c: nat, lw: nat)         // optional `Color`, then a vertical `LCut`
    | HorizontalCut(c: nat, lh: nat)       // optional `Color`, then a horizontal `LCut`

  /** The plans the loops of `calc` can pick for subproblem k. */
  predicate PlanOk(input: DpInput, k: Child, p: Plan)
  {
    match p
    case Keep => true
    case Recolor(c) => c < |input.colors| && c != k.colorId
    case PointCut(c, lw, lh) => c < |input.colors| && 1 <= lw < k.w && 1 <= lh < k.h
    case VerticalCut(c, lw) => c < |input.colors| && 1 <= lw < k.w
    case HorizontalCut(c, lh) => c < |input.colors| && 1 <= lh < k.h
  }

  // ---------------------------------------------------------------------
  // The candidates, in the order of the loops of `calc`

  /** For each colour c: the recolouring (unless c is the current colour),
      the point cuts by lw then lh, the vertical cuts, the horizontal cuts. */
  function Options(input: DpInput, k: Child): (r: seq<Plan>)
    requires ChildOk(input, k)
    ensures forall i :: 0 <= i < |r| ==> PlanOk(input, k, r[i])
  {
    OptionsFrom(input, k, 0)
  }

  function OptionsFrom(input: DpInput, k: Child, c: nat): (r: seq<Plan>)
    requires ChildOk(input, k)
    ensures forall i :: 0 <= i < |r| ==> PlanOk(input, k, r[i])
    decreases |input.colors| - c
  {
    if c >= |input.colors| then []
    else
      (if c != k.colorId then [Recolor(c)] else [])
      + PointCutsFrom(input, k, c, 1)
      + seq(k.w - 1, i requires 0 <= i => VerticalCut(c, i + 1))
      + seq(k.h - 1, i requires 0 <= i => HorizontalCut(c, i + 1))
      + OptionsFrom(input, k, c + 1)
  }

  function PointCutsFrom(input: DpInput, k: Child, c: nat, lw: nat): (r: seq<Plan>)
    requires ChildOk(input, k) && c < |input.colors| && lw >= 1
    ensures forall i :: 0 <= i < |r| ==> PlanOk(input, k, r[i])
    decreases k.w - lw
  {
    if lw >= k.w then []
    else seq(k.h - 1, i requires 0 <= i => PointCut(c, lw, i + 1)) + PointCutsFrom(input, k, c, lw + 1)
  }

  // ---------------------------------------------------------------------
  // Moves and children of a plan

  /** `target_area`: the canvas area of the subproblem's rectangle. */
  function TargetArea(input: DpInput, k: Child): int
    requires input.frame.d >= 1
  {
    var lt := ConvertPoint(input.frame, k.x, k.y);
    var rb := ConvertPoint(input.frame, k.x + k.w, k.y + k.h);
    (rb.x - lt.x) * (rb.y - lt.y)
  }

  /** The `Color` move to sampled colour c, unless the block has it already. */
  function ColorPrefix(input: DpInput, k: Child, c: nat): seq<Move>
    requires c < |input.colors|
  {
    if c != k.colorId then [Color([], input.colors[c])] else []
  }

  /** The moves `calc` records for a plan, all on the default (empty) id;
      `restore_program` re-addresses them. */
  function PlanMoves(input: DpInput, k: Child, p: Plan): (r: seq<Move>)
    requires input.frame.d >= 1 && PlanOk(input, k, p)
    ensures forall i :: 0 <= i < |r| ==> r[i].IsSingleBlock()
  {
    var f := input.frame;
    match p
    case Keep => []
    case Recolor(c) => [Color([], input.colors[c])]
    case PointCut(c, lw, lh) =>
      ColorPrefix(input, k, c) + [PCut([], ConvertPoint(f, k.x + lw, k.y + lh))]
    case VerticalCut(c, lw) =>
      ColorPrefix(input, k, c) + [LCut([], Vertical, ConvertPoint(f, k.x + lw, k.y).x)]
    case HorizontalCut(c, lh) =>
      ColorPrefix(input, k, c) + [LCut([], Horizontal, ConvertPoint(f, k.x, k.y + lh).y)]
  }

  /** The children `calc` records for a plan: the point cut's four quadrants
      and the line cuts' two halves, all in the plan's colour. Each is a
      valid subproblem on a strictly smaller rectangle. */
  function PlanChildren(input: DpInput, k: Child, p: Plan): (r: seq<Child>)
    requires ChildOk(input, k) && PlanOk(input, k, p)
    ensures |r| == (if p.PointCut? then 4 else if p.Keep? || p.Recolor? then 0 else 2)
    ensures forall i :: 0 <= i < |r| ==> ChildOk(input, r[i]) && r[i].w + r[i].h < k.w + k.h
  {
    var (x, y, w, h) := (k.x, k.y, k.w, k.h);
    match p
    case Keep => []
    case Recolor(_) => []
    case PointCut(c, lw, lh) =>
      [Child(x, y, lw, lh, c), Child(x + lw, y, w - lw, lh, c),
       Child(x + lw, y + lh, w - lw, h - lh, c), Child(x, y + lh, lw, h - lh, c)]
    case VerticalCut(c, lw) => [Child(x, y, lw, h, c), Child(x + lw, y, w - lw, h, c)]
    case HorizontalCut(c, lh) => [Child(x, y, w, lh, c), Child(x, y + lh, w, h - lh, c)]
  }

  // ---------------------------------------------------------------------
  // calc

  /** The score and plan `calc` settles on. */
  datatype Best = Best(score: int, plan: Plan)

  /** The do-nothing similarity the search starts from. */
  function KeepCost(input: DpInput, k: Child): int
  {
    SimRect(input.sim, k.colorId, k.x, k.y, k.w, k.h)
  }

  /** What `calc` compares against the best so far: the optional colour
      move's cost, plus either the similarity in the new colour or the cut's
      cost and the children's best scores. */
  function PlanCost(input: DpInput, k: Child, p: Plan): int
    requires input.Valid() && ChildOk(input, k) && PlanOk(input, k, p)
    decreases k.w + k.h, 0, 0
  {
    var area := TargetArea(input, k);
    var ncost := if p.Keep? || p.c == k.colorId then 0 else input.cost(Color([], input.colors[p.c]), area);
    var ms := PlanMoves(input, k, p);
    var ch := PlanChildren(input, k, p);
    match p
    case Keep => KeepCost(input, k)
    case Recolor(c) => ncost + SimRect(input.sim, c, k.x, k.y, k.w, k.h)
    case PointCut(_, _, _) =>
      ncost + input.cost(ms[|ms| - 1], area)
      + Calc(input, ch[0]).score + Calc(input, ch[1]).score + Calc(input, ch[2]).score + Calc(input, ch[3]).score
    case VerticalCut(_, _) =>
      ncost + input.cost(ms[|ms| - 1], area) + Calc(input, ch[0]).score + Calc(input, ch[1]).score
    case HorizontalCut(_, _) =>
      ncost + input.cost(ms[|ms| - 1], area) + Calc(input, ch[0]).score + Calc(input, ch[1]).score
  }

  /** The loops of `calc` from candidate i on, given each candidate's
      cost: a candidate replaces the best so far only when it is strictly
      cheaper. */
  function Improve(opts: seq<Plan>, costs: seq<int>, i: nat, acc: Best): (r: Best)
    requires |costs| == |opts|
    ensures r.score <= acc.score
    ensures r.plan == acc.plan || exists j :: i <= j < |opts| && r.plan == opts[j]
    decreases |opts| - i
  {
    if i >= |opts| then acc
    else Improve(opts, costs, i + 1, if costs[i] < acc.score then Best(costs[i], opts[i]) else acc)
  }

  /** The cost of every candidate, in order. */
  function Costs(input: DpInput, k: Child, opts: seq<Plan>): (r: seq<int>)
    requires input.Valid() && ChildOk(input, k)
    requires forall j :: 0 <= j < |opts| ==> PlanOk(input, k, opts[j])
    ensures |r| == |opts| && forall j :: 0 <= j < |opts| ==> r[j] == PlanCost(input, k, opts[j])
    decreases k.w + k.h, 1, 0
  {
    seq(|opts|, j requires 0 <= j < |opts| => PlanCost(input, k, opts[j]))
  }

  /** `calc`: the best score and plan for subproblem k. The score never
      exceeds the do-nothing similarity, and the plan is one the loops
      consider. */
  function Calc(input: DpInput, k: Child): (r: Best)
    requires input.Valid() && ChildOk(input, k)
    ensures PlanOk(input, k, r.plan) && r.score <= KeepCost(input, k)
    decreases k.w + k.h, 2, 0
  {
    var opts := Options(input, k);
    Improve(opts, Costs(input, k, opts), 0, Best(KeepCost(input, k), Keep))
  }

  /** The search from candidate i on ends with a score no candidate beats;
      it either keeps the starting best or adopts the first candidate that
      attains the final score, every earlier one costing strictly more. */
  lemma {:induction false} ImproveOptimal(opts: seq<Plan>, costs: seq<int>, i: nat, acc: Best)
    requires |costs| == |opts| && i <= |opts|
    ensures var r := Improve(opts, costs, i, acc);
            && (forall j :: i <= j < |opts| ==> r.score <= costs[j])
            && (r == acc
                || exists j :: i <= j < |opts| && r.plan == opts[j] && r.score == costs[j] < acc.score
                     && forall j' :: i <= j' < j ==> r.score < costs[j'])
    decreases |opts| - i
  {
    if i < |opts| {
      var acc' := if costs[i] < acc.score then Best(costs[i], opts[i]) else acc;
      ImproveOptimal(opts, costs, i + 1, acc');
      var r := Improve(opts, costs, i, acc);
      assert r == Improve(opts, costs, i + 1, acc');
      if r != acc' {
        var j :| i + 1 <= j < |opts| && r.plan == opts[j] && r.score == costs[j] < acc'.score
                 && forall j' :: i + 1 <= j' < j ==> r.score < costs[j'];
        assert forall j' :: i <= j' < j ==> r.score < costs[j'];
      }
    }
  }

  /** `calc` solves its subproblem optimally over the candidates of its
      loops: no candidate is cheaper than the result; the result keeps the
      block only when no candidate beats the do-nothing similarity, and
      otherwise is the first candidate, in loop order, of least cost. */
  lemma CalcOptimal(input: DpInput, k: Child)
    requires input.Valid() && ChildOk(input, k)
    ensures var r := Calc(input, k);
            var opts := Options(input, k);
            && (forall j :: 0 <= j < |opts| ==> r.score <= PlanCost(input, k, opts[j]))
            && (r.plan == Keep <==> r.score == KeepCost(input, k))
            && (r.plan == Keep ==> forall j :: 0 <= j < |opts| ==> KeepCost(input, k) <= PlanCost(input, k, opts[j]))
            && (r.plan != Keep ==>
                  exists j :: 0 <= j < |opts| && r.plan == opts[j]
                    && r.score == PlanCost(input, k, opts[j]) < KeepCost(input, k)
                    && forall j' :: 0 <= j' < j ==> r.score < PlanCost(input, k, opts[j']))
  {
    var opts := Options(input, k);
    ImproveOptimal(opts, Costs(input, k, opts), 0, Best(KeepCost(input, k), Keep));
  }

  // ---------------------------------------------------------------------
  // From grid rectangles to canvas blocks

  /** The canvas corner of subproblem k's rectangle. */
  function Corner(input: DpInput, k: Child): Point
    requires input.frame.d >= 1
  {
    ConvertPoint(input.frame, k.x, k.y)
  }

  /** The canvas extent of subproblem k's rectangle. */
  function Extent(input: DpInput, k: Child): Point
    requires input.frame.d >= 1
  {
    var rb := ConvertPoint(input.frame, k.x + k.w, k.y + k.h);
    Point(rb.x - Corner(input, k).x, rb.y - Corner(input, k).y)
  }

  /** Block b occupies exactly subproblem k's canvas rectangle. */
  predicate Placed(input: DpInput, k: Child, b: SimpleBlock)
    requires input.frame.d >= 1
  {
    b.p == Corner(input, k) && b.size == Extent(input, k)
  }

  /** A point cut the DP emits lies strictly inside its block, and the
      simulator's children 0..3 occupy the DP's child rectangles 0..3. */
  lemma PointCutPlaced(input: DpInput, k: Child, c: nat, lw: nat, lh: nat, b: SimpleBlock)
    requires input.Valid() && ChildOk(input, k) && PlanOk(input, k, PointCut(c, lw, lh))
    requires Placed(input, k, b)
    ensures var pt := ConvertPoint(input.frame, k.x + lw, k.y + lh);
            var ch := PlanChildren(input, k, PointCut(c, lw, lh));
            var cs := PCutChildren(b, Point(pt.x - b.p.x, pt.y - b.p.y));
            && b.p.x < pt.x < b.p.x + b.size.x && b.p.y < pt.y < b.p.y + b.size.y
            && forall i :: 0 <= i < 4 ==> Placed(input, ch[i], cs[i])
  {
    var f := input.frame;
    ConvertPointStrict(f, k.x, k.y, k.x + lw, k.y + lh);
    ConvertPointStrict(f, k.x + lw, k.y + lh, k.x + k.w, k.y + k.h);
    PointCutChildrenPlaced(input, k, c, lw, lh, b);
  }

  lemma PointCutChildrenPlaced(input: DpInput, k: Child, c: nat, lw: nat, lh: nat, b: SimpleBlock)
    requires input.Valid() && ChildOk(input, k) && PlanOk(input, k, PointCut(c, lw, lh))
    requires Placed(input, k, b)
    ensures var pt := ConvertPoint(input.frame, k.x + lw, k.y + lh);
            var ch := PlanChildren(input, k, PointCut(c, lw, lh));
            var cs := PCutChildren(b, Point(pt.x - b.p.x, pt.y - b.p.y));
            forall i :: 0 <= i < 4 ==> Placed(input, ch[i], cs[i])
  {
    var f := input.frame;
    var p0 := ConvertPoint(f, k.x, k.y);
    var p1 := ConvertPoint(f, k.x + lw, k.y + lh);
    var p2 := ConvertPoint(f, k.x + k.w, k.y + k.h);
    PointCutCorners(input, k, c, lw, lh);
    PCutChildrenAt(b, p0.x, p1.x, p2.x, p0.y, p1.y, p2.y);
  }

  /** The canvas rectangles of a point cut's four sub-rectangles, in terms
      of the converted corner, cut point and far corner. */
  lemma PointCutCorners(input: DpInput, k: Child, c: nat, lw: nat, lh: nat)
    requires input.Valid() && ChildOk(input, k) && PlanOk(input, k, PointCut(c, lw, lh))
    ensures var f := input.frame;
            var p0 := ConvertPoint(f, k.x, k.y);
            var p1 := ConvertPoint(f, k.x + lw, k.y + lh);
            var p2 := ConvertPoint(f, k.x + k.w, k.y + k.h);
            var ch := PlanChildren(input, k, PointCut(c, lw, lh));
            && Corner(input, ch[0]) == Point(p0.x, p0.y) && Extent(input, ch[0]) == Point(p1.x - p0.x, p1.y - p0.y)
            && Corner(input, ch[1]) == Point(p1.x, p0.y) && Extent(input, ch[1]) == Point(p2.x - p1.x, p1.y - p0.y)
            && Corner(input, ch[2]) == Point(p1.x, p1.y) && Extent(input, ch[2]) == Point(p2.x - p1.x, p2.y - p1.y)
            && Corner(input, ch[3]) == Point(p0.x, p1.y) && Extent(input, ch[3]) == Point(p1.x - p0.x, p2.y - p1.y)
  {
    assert k.x + lw + (k.w - lw) == k.x + k.w;
    assert k.y + lh + (k.h - lh) == k.y + k.h;
  }

  /** The simulator's four children of a point cut, on a block spanning
      x0..x2 by y0..y2 cut at (x1, y1). */
  lemma PCutChildrenAt(b: SimpleBlock, x0: int, x1: int, x2: int, y0: int, y1: int, y2: int)
    requires b.p == Point(x0, y0) && b.size == Point(x2 - x0, y2 - y0)
    ensures var cs := PCutChildren(b, Point(x1 - x0, y1 - y0));
            && cs[0].p == Point(x0, y0) && cs[0].size == Point(x1 - x0, y1 - y0)
            && cs[1].p == Point(x1, y0) && cs[1].size == Point(x2 - x1, y1 - y0)
            && cs[2].p == Point(x1, y1) && cs[2].size == Point(x2 - x1, y2 - y1)
            && cs[3].p == Point(x0, y1) && cs[3].size == Point(x1 - x0, y2 - y1)
  {
  }

  /** A vertical line cut the DP emits lies strictly inside its block, and
      the simulator's children 0 and 1 occupy the DP's left and right
      halves. */
  lemma VerticalCutPlaced(input: DpInput, k: Child, c: nat, lw: nat, b: SimpleBlock)
    requires input.Valid() && ChildOk(input, k) && PlanOk(input, k, VerticalCut(c, lw))
    requires Placed(input, k, b)
    ensures var line := ConvertPoint(input.frame, k.x + lw, k.y).x;
            var ch := PlanChildren(input, k, VerticalCut(c, lw));
            var offset := LineOffset(b, Vertical, line);
            && 0 < offset < Simulator.Extent(b, Vertical)
            && forall i :: 0 <= i < 2 ==> Placed(input, ch[i], LCutChildren(b, Vertical, offset)[i])
  {
    var f := input.frame;
    ConvertPointStrict(f, k.x, k.y, k.x + lw, k.y);
    ConvertPointStrict(f, k.x + lw, k.y, k.x + k.w, k.y + k.h);
  }

  /** A horizontal line cut the DP emits lies strictly inside its block,
      and the simulator's children 0 and 1 occupy the DP's lower and upper
      halves. */
  lemma HorizontalCutPlaced(input: DpInput, k: Child, c: nat, lh: nat, b: SimpleBlock)
    requires input.Valid() && ChildOk(input, k) && PlanOk(input, k, HorizontalCut(c, lh))
    requires Placed(input, k, b)
    ensures var line := ConvertPoint(input.frame, k.x, k.y + lh).y;
            var ch := PlanChildren(input, k, HorizontalCut(c, lh));
            var offset := LineOffset(b, Horizontal, line);
            && 0 < offset < Simulator.Extent(b, Horizontal)
            && forall i :: 0 <= i < 2 ==> Placed(input, ch[i], LCutChildren(b, Horizontal, offset)[i])
  {
    var f := input.frame;
    ConvertPointStrict(f, k.x, k.y, k.x, k.y + lh);
    ConvertPointStrict(f, k.x, k.y + lh, k.x + k.w, k.y + k.h);
  }

  // ---------------------------------------------------------------------
  // restore_program

  /** `restore_program` for subproblem k on block `id`: the node's own
      moves re-addressed to `id`, then each child i's program on block
      `id + [i]`. The source pushes and pops the child index on a shared id;
      here each call gets its own id, so the caller's id is unchanged by
      construction. Every move names `id` or a block below it, and the
      moves on `id` itself come first. */
  function Restore(input: DpInput, k: Child, id: BlockId): (r: Program)
    requires input.Valid() && ChildOk(input, k)
    ensures forall j :: 0 <= j < |r| ==> r[j].IsSingleBlock() && Under(id, r[j].block)
    ensures forall j1, j2 :: 0 <= j1 < j2 < |r| && r[j2].IsSingleBlock() && r[j2].block == id ==> r[j1].IsSingleBlock() && r[j1].block == id
    decreases k.w + k.h, 1, 0
  {
    var plan := Calc(input, k).plan;
    var own := ConvertAll(PlanMoves(input, k, plan), id);
    var rest := RestoreChildren(input, k, PlanChildren(input, k, plan), 0, id);
    assert forall j :: 0 <= j < |rest| ==> rest[j].block != id;
    own + rest
  }

  /** The children from index i on, child j under `id + [j]`: every move
      names a block strictly below `id`. */
  function RestoreChildren(input: DpInput, parent: Child, ch: seq<Child>, i: nat, id: BlockId): (r: Program)
    requires input.Valid()
    requires forall j :: 0 <= j < |ch| ==> ChildOk(input, ch[j]) && ch[j].w + ch[j].h < parent.w + parent.h
    ensures forall j :: 0 <= j < |r| ==> r[j].IsSingleBlock() && |id| < |r[j].block| && Under(id, r[j].block)
    decreases parent.w + parent.h, 0, |ch| - i
  {
    if i >= |ch| then []
    else
      var first := Restore(input, ch[i], id + [i]);
      ChildProgramUnder(first, id, i);
      first + RestoreChildren(input, parent, ch, i + 1, id)
  }

  /** Moves below child i of `id` are strictly below `id`. */
  lemma ChildProgramUnder(p: Program, id: BlockId, i: nat)
    requires forall j :: 0 <= j < |p| ==> p[j].IsSingleBlock() && Under(id + [i], p[j].block)
    ensures forall j :: 0 <= j < |p| ==> p[j].IsSingleBlock() && |id| < |p[j].block| && Under(id, p[j].block)
  {
    forall j | 0 <= j < |p|
      ensures |id| < |p[j].block| && Under(id, p[j].block)
    {
      UnderSibling(id, i, p[j].block);
    }
  }

  // ---------------------------------------------------------------------
  // The restored program executes

  /** The optional recolouring keeps block `id` where it is. */
  lemma ColorPrefixStep(input: DpInput, k: Child, c: nat, id: BlockId, s: State) returns (s1: State)
    requires input.Valid() && ChildOk(input, k) && c < |input.colors|
    requires id in s.blocks && Placed(input, k, s.blocks[id])
    ensures Execute(s, ConvertAll(ColorPrefix(input, k, c), id)) == Some(s1)
    ensures id in s1.blocks && Placed(input, k, s1.blocks[id]) && SameOutside(s, s1, id)
  {
    UnderChild(id, 0);
    if c != k.colorId {
      var m := Color(id, input.colors[c]);
      assert ConvertAll(ColorPrefix(input, k, c), id) == [m];
      ColorEffect(s, id, input.colors[c]);
      ExecuteOne(s, m);
      s1 := Simulate(s, m).value;
    } else {
      s1 := s;
    }
  }

  /** The cut a plan ends with, run on block `id`, leaves child i of the
      plan as block `id + [i]` on the child's rectangle. */
  lemma CutStep(input: DpInput, k: Child, plan: Plan, id: BlockId, s1: State) returns (s2: State)
    requires input.Valid() && ChildOk(input, k) && PlanOk(input, k, plan)
    requires plan.PointCut? || plan.VerticalCut? || plan.HorizontalCut?
    requires id in s1.blocks && Placed(input, k, s1.blocks[id])
    ensures var ms := PlanMoves(input, k, plan);
            |ms| >= 1 && Simulate(s1, ConvertBlockId(ms[|ms| - 1], id)) == Some(s2)
    ensures SameOutside(s1, s2, id)
    ensures var ch := PlanChildren(input, k, plan);
            forall i :: 0 <= i < |ch| ==> id + [i] in s2.blocks && Placed(input, ch[i], s2.blocks[id + [i]])
  {
    if plan.PointCut? {
      s2 := PointCutStep(input, k, plan, id, s1);
    } else {
      s2 := LineCutStep(input, k, plan, id, s1);
    }
  }

  lemma PointCutStep(input: DpInput, k: Child, plan: Plan, id: BlockId, s1: State) returns (s2: State)
    requires input.Valid() && ChildOk(input, k) && PlanOk(input, k, plan) && plan.PointCut?
    requires id in s1.blocks && Placed(input, k, s1.blocks[id])
    ensures var ms := PlanMoves(input, k, plan);
            |ms| >= 1 && Simulate(s1, ConvertBlockId(ms[|ms| - 1], id)) == Some(s2)
    ensures SameOutside(s1, s2, id)
    ensures var ch := PlanChildren(input, k, plan);
            forall i :: 0 <= i < |ch| ==> id + [i] in s2.blocks && Placed(input, ch[i], s2.blocks[id + [i]])
  {
    var pt := ConvertPoint(input.frame, k.x + plan.lw, k.y + plan.lh);
    PointCutMove(input, k, plan, id);
    PointCutPlaced(input, k, plan.c, plan.lw, plan.lh, s1.blocks[id]);
    PCutFrame(s1, id, pt);
    s2 := Simulate(s1, PCut(id, pt)).value;
  }

  /** The last move of a point-cut plan, re-addressed to `id`. */
  lemma PointCutMove(input: DpInput, k: Child, plan: Plan, id: BlockId)
    requires input.Valid() && PlanOk(input, k, plan) && plan.PointCut?
    ensures var ms := PlanMoves(input, k, plan);
            && |ms| >= 1
            && ConvertBlockId(ms[|ms| - 1], id) == PCut(id, ConvertPoint(input.frame, k.x + plan.lw, k.y + plan.lh))
  {
  }

  lemma LineCutStep(input: DpInput, k: Child, plan: Plan, id: BlockId, s1: State) returns (s2: State)
    requires input.Valid() && ChildOk(input, k) && PlanOk(input, k, plan)
    requires plan.VerticalCut? || plan.HorizontalCut?
    requires id in s1.blocks && Placed(input, k, s1.blocks[id])
    ensures var ms := PlanMoves(input, k, plan);
            |ms| >= 1 && Simulate(s1, ConvertBlockId(ms[|ms| - 1], id)) == Some(s2)
    ensures SameOutside(s1, s2, id)
    ensures var ch := PlanChildren(input, k, plan);
            forall i :: 0 <= i < |ch| ==> id + [i] in s2.blocks && Placed(input, ch[i], s2.blocks[id + [i]])
  {
    var ms := PlanMoves(input, k, plan);
    var m := ConvertBlockId(ms[|ms| - 1], id);
    var b := s1.blocks[id];
    UnderChild(id, 0); UnderChild(id, 1);
    if plan.VerticalCut? {
      VerticalCutPlaced(input, k, plan.c, plan.lw, b);
      LCutEffect(s1, id, Vertical, m.line);
    } else {
      HorizontalCutPlaced(input, k, plan.c, plan.lh, b);
      LCutEffect(s1, id, Horizontal, m.line);
    }
    s2 := Simulate(s1, m).value;
  }

  /** The node's own moves run on block `id` and leave child i of the plan
      as block `id + [i]` on the child's rectangle. */
  lemma OwnMovesStep(input: DpInput, k: Child, plan: Plan, id: BlockId, s: State) returns (s2: State)
    requires input.Valid() && ChildOk(input, k) && PlanOk(input, k, plan)
    requires id in s.blocks && Placed(input, k, s.blocks[id])
    ensures Execute(s, ConvertAll(PlanMoves(input, k, plan), id)) == Some(s2)
    ensures SameOutside(s, s2, id)
    ensures var ch := PlanChildren(input, k, plan);
            forall i :: 0 <= i < |ch| ==> id + [i] in s2.blocks && Placed(input, ch[i], s2.blocks[id + [i]])
  {
    var ms := PlanMoves(input, k, plan);
    if plan.Keep? {
      s2 := s;
    } else if plan.Recolor? {
      assert ColorPrefix(input, k, plan.c) == ms;
      s2 := ColorPrefixStep(input, k, plan.c, id, s);
    } else {
      var pre := ColorPrefix(input, k, plan.c);
      var cut := ms[|ms| - 1];
      assert ms == pre + [cut];
      var m := ConvertBlockId(cut, id);
      assert ConvertAll(ms, id) == ConvertAll(pre, id) + [m];
      var s1 := ColorPrefixStep(input, k, plan.c, id, s);
      s2 := CutStep(input, k, plan, id, s1);
      ExecuteAppend(s, ConvertAll(pre, id), [m]);
      ExecuteOne(s1, m);
    }
  }

  /** Run from a state where block `id` occupies subproblem k's rectangle,
      the program `restore_program` builds for k executes without error and
      touches nothing outside `id`'s subtree. */
  lemma RestoreExecutes(input: DpInput, k: Child, id: BlockId, s: State)
    requires input.Valid() && ChildOk(input, k)
    requires id in s.blocks && Placed(input, k, s.blocks[id])
    ensures Execute(s, Restore(input, k, id)).Some?
    ensures SameOutside(s, Execute(s, Restore(input, k, id)).value, id)
    decreases k.w + k.h, 1, 0
  {
    var plan := Calc(input, k).plan;
    var ch := PlanChildren(input, k, plan);
    var own := ConvertAll(PlanMoves(input, k, plan), id);
    var s2 := OwnMovesStep(input, k, plan, id, s);
    RestoreChildrenExecutes(input, k, ch, 0, id, s2);
    ExecuteAppend(s, own, RestoreChildren(input, k, ch, 0, id));
  }

  lemma RestoreChildrenExecutes(input: DpInput, parent: Child, ch: seq<Child>, i: nat, id: BlockId, s: State)
    requires input.Valid()
    requires forall j :: 0 <= j < |ch| ==> ChildOk(input, ch[j]) && ch[j].w + ch[j].h < parent.w + parent.h
    requires forall j :: i <= j < |ch| ==> id + [j] in s.blocks && Placed(input, ch[j], s.blocks[id + [j]])
    ensures Execute(s, RestoreChildren(input, parent, ch, i, id)).Some?
    ensures SameOutside(s, Execute(s, RestoreChildren(input, parent, ch, i, id)).value, id)
    decreases parent.w + parent.h, 0, |ch| - i
  {
    if i < |ch| {
      var first := Restore(input, ch[i], id + [i]);
      var rest := RestoreChildren(input, parent, ch, i + 1, id);
      RestoreExecutes(input, ch[i], id + [i], s);
      var s1 := Execute(s, first).value;
      SiblingsKept(s, s1, id, i, |ch|);
      RestoreChildrenExecutes(input, parent, ch, i + 1, id, s1);
      ExecuteAppend(s, first, rest);
      SameOutsideTrans(s, s1, Execute(s1, rest).value, id, i);
    } else {
      UnderChild(id, 0);
    }
  }

  /** Running child i's program leaves the later siblings' blocks as they were. */
  lemma SiblingsKept(s: State, s1: State, id: BlockId, i: nat, n: nat)
    requires SameOutside(s, s1, id + [i])
    requires forall j :: i < j < n ==> id + [j] in s.blocks
    ensures forall j :: i < j < n ==> id + [j] in s1.blocks && s1.blocks[id + [j]] == s.blocks[id + [j]]
  {
    forall j | i < j < n
      ensures id + [j] in s1.blocks && s1.blocks[id + [j]] == s.blocks[id + [j]]
    {
      SiblingNotUnder(id, i, j);
    }
  }

  // ---------------------------------------------------------------------
  // solve

  /** The grid `solve` lays over `block`: its corner and size, divided d
      ways. */
  function FrameOf(block: SimpleBlock, d: nat): Frame
    requires WellFormed(block)
  {
    Frame(block.p, block.size.x, block.size.y, d)
  }

  /** The root subproblem: the whole grid, in colour 0, the block's own. */
  function Root(input: DpInput): Child
  {
    Child(0, 0, input.frame.d, input.frame.d, 0)
  }

  /** The restored program is empty exactly when the plan keeps the block. */
  lemma RestoreEmpty(input: DpInput, k: Child, id: BlockId)
    requires input.Valid() && ChildOk(input, k)
    ensures |Restore(input, k, id)| == 0 <==> Calc(input, k).plan == Keep
  {
    var plan := Calc(input, k).plan;
    if plan != Keep {
      assert |ConvertAll(PlanMoves(input, k, plan), id)| >= 1;
    } else {
      assert PlanChildren(input, k, plan) == [];
    }
  }

  /** `DpAI::solve` once the block to divide is known: `prefix` is the
      merge program that produced block `blockId` (empty when the canvas
      had one block). When the block is narrower or lower than d pixels the
      prefix is returned alone; otherwise the restored DP program for the
      whole grid follows it, every added move naming `blockId` or a block
      below it. */
  function Solve(input: DpInput, block: SimpleBlock, blockId: BlockId, prefix: Program): (r: Program)
    requires WellFormed(block) && input.frame.d >= 1 && input.frame == FrameOf(block, input.frame.d)
    requires |input.colors| >= 1 && input.colors[0] == block.color
    ensures |prefix| <= |r| && r[..|prefix|] == prefix
    ensures |r| == |prefix| <==> !input.frame.Divisible() || Calc(input, Root(input)).plan == Keep
    ensures forall j :: |prefix| <= j < |r| ==> r[j].IsSingleBlock() && Under(blockId, r[j].block)
  {
    if !input.frame.Divisible() then prefix
    else
      RestoreEmpty(input, Root(input), blockId);
      prefix + Restore(input, Root(input), blockId)
  }

  /** Whenever the prefix leaves block `blockId` as the block the grid was
      laid over, the whole program of `solve` executes without error, and
      every block outside `blockId`'s subtree ends as the prefix left it. */
  lemma SolveExecutes(input: DpInput, block: SimpleBlock, blockId: BlockId, prefix: Program, s: State)
    requires WellFormed(block) && input.frame.d >= 1 && input.frame == FrameOf(block, input.frame.d)
    requires |input.colors| >= 1 && input.colors[0] == block.color
    requires Execute(s, prefix).Some?
    requires blockId in Execute(s, prefix).value.blocks && Execute(s, prefix).value.blocks[blockId] == block
    ensures Execute(s, Solve(input, block, blockId, prefix)).Some?
    ensures SameOutside(Execute(s, prefix).value, Execute(s, Solve(input, block, blockId, prefix)).value, blockId)
  {
    var t := Execute(s, prefix).value;
    if input.frame.Divisible() {
      RestoreRootExecutes(input, block, blockId, t);
      assert Solve(input, block, blockId, prefix) == prefix + Restore(input, Root(input), blockId);
      ExecuteAppend(s, prefix, Restore(input, Root(input), blockId));
    } else {
      assert Solve(input, block, blockId, prefix) == prefix;
    }
  }

  /** The restoration of the whole grid runs on the block the grid was laid
      over. */
  lemma RestoreRootExecutes(input: DpInput, block: SimpleBlock, blockId: BlockId, t: State)
    requires WellFormed(block) && input.frame.d >= 1 && input.frame == FrameOf(block, input.frame.d)
    requires |input.colors| >= 1 && input.colors[0] == block.color && input.frame.Divisible()
    requires blockId in t.blocks && t.blocks[blockId] == block
    ensures Execute(t, Restore(input, Root(input), blockId)).Some?
    ensures SameOutside(t, Execute(t, Restore(input, Root(input), blockId)).value, blockId)
  {
    ConvertPointCorners(input.frame);
    assert Placed(input, Root(input), block);
    RestoreExecutes(input, Root(input), blockId, t);
  }
}

=== FILE: dp_grid.dfy ===
/** The integer geometry of the DP AI (`ai/dp.rs`): a block is divided
    into a d x d grid of cells, grid coordinates are mapped to canvas
    coordinates by `convert_point`, and the similarity of a grid rectangle
    is the sum of its cells' similarities (`calc_similality`). */
module DpGrid {

  import opened Isl
  import opened Arith

  /** The block the DP divides: its corner, its size and the divide number. */
  datatype Frame = Frame(topLeft: Point, width: nat, height: nat, d: nat)
  {
    /** The guard of `solve`: the DP only runs when the block is at least
        d pixels wide and high. */
    predicate Divisible()
    {
      d >= 1 && width >= d && height >= d
    }
  }

  function Min(a: int, b: int): int
  {
    if a <= b then a else b
  }

  /** `convert_point`: grid coordinate (x, y) on the canvas, never beyond the
      block's far corner. */
  function ConvertPoint(f: Frame, x: nat, y: nat): Point
    requires f.d >= 1
  {
    Point(Min(f.topLeft.x + f.width, f.topLeft.x + x * f.width / f.d),
          Min(f.topLeft.y + f.height, f.topLeft.y + y * f.height / f.d))
  }

  // ---------------------------------------------------------------------
  // Scaling arithmetic

  /** a * k / d grows with a. */
  lemma ScaleMono(a: nat, b: nat, k: nat, d: nat)
    requires d >= 1 && a <= b
    ensures a * k / d <= b * k / d
  {
    MulMono(a, b, k);
    DivMono(a * k, b * k, d);
  }

  /** With k >= d, a * k / d grows strictly with a. */
  lemma ScaleStrict(a: nat, b: nat, k: nat, d: nat)
    requires d >= 1 && k >= d && a < b
    ensures a * k / d < b * k / d
  {
    MulMono(a + 1, b, k);
    assert (a + 1) * k == a * k + k;
    DivMono(a * k + d, b * k, d);
    AddDiv(a * k, d);
  }

  /** Inside the grid, a * k / d stays within k. */
  lemma ScaleBounded(a: nat, k: nat, d: nat)
    requires d >= 1 && a <= d
    ensures a * k / d <= k
  {
    ScaleMono(a, d, k, d);
    MulDivCancel(k, d);
  }

  // ---------------------------------------------------------------------
  // convert_point

  /** Within the grid the `min` never bites. */
  lemma ConvertPointInGrid(f: Frame, x: nat, y: nat)
    requires f.d >= 1 && x <= f.d && y <= f.d
    ensures ConvertPoint(f, x, y) == Point(f.topLeft.x + x * f.width / f.d, f.topLeft.y + y * f.height / f.d)
  {
    ScaleBounded(x, f.width, f.d);
    ScaleBounded(y, f.height, f.d);
  }

  /** Grid corner (0, 0) is the block's corner and (d, d) its far corner. */
  lemma ConvertPointCorners(f: Frame)
    requires f.d >= 1
    ensures ConvertPoint(f, 0, 0) == f.topLeft
    ensures ConvertPoint(f, f.d, f.d) == Point(f.topLeft.x + f.width, f.topLeft.y + f.height)
  {
    MulDivCancel(f.width, f.d);
    MulDivCancel(f.height, f.d);
  }

  /** The unit test's block at (1, 1) of size 3 x 2 with d = 2. */
  lemma ConvertPointExample()
    ensures var f := Frame(Point(1, 1), 3, 2, 2);
            ConvertPoint(f, 0, 0) == Point(1, 1) && ConvertPoint(f, 2, 2) == Point(4, 3)
  {
    ConvertPointCorners(Frame(Point(1, 1), 3, 2, 2));
  }

  /** `convert_point` is monotone in each coordinate and never leaves the
      block. */
  lemma ConvertPointMonotone(f: Frame, x1: nat, y1: nat, x2: nat, y2: nat)
    requires f.d >= 1 && x1 <= x2 && y1 <= y2
    ensures ConvertPoint(f, x1, y1).x <= ConvertPoint(f, x2, y2).x
    ensures ConvertPoint(f, x1, y1).y <= ConvertPoint(f, x2, y2).y
    ensures ConvertPoint(f, x2, y2).x <= f.topLeft.x + f.width
    ensures ConvertPoint(f, x2, y2).y <= f.topLeft.y + f.height
  {
    ScaleMono(x1, x2, f.width, f.d);
    ScaleMono(y1, y2, f.height, f.d);
  }

  /** Under the guard of `solve`, distinct grid lines map to distinct canvas
      lines, in the same order. */
  lemma ConvertPointStrict(f: Frame, x1: nat, y1: nat, x2: nat, y2: nat)
    requires f.Divisible() && x2 <= f.d && y2 <= f.d
    ensures x1 < x2 ==> ConvertPoint(f, x1, y1).x < ConvertPoint(f, x2, y2).x
    ensures y1 < y2 ==> ConvertPoint(f, x1, y1).y < ConvertPoint(f, x2, y2).y
  {
    ConvertPointInGrid(f, x2, y2);
    if x1 < x2 {
      ConvertPointInGrid(f, x1, 0);
      ScaleStrict(x1, x2, f.width, f.d);
    }
    if y1 < y2 {
      ConvertPointInGrid(f, 0, y1);
      ScaleStrict(y1, y2, f.height, f.d);
    }
  }

  // ---------------------------------------------------------------------
  // calc_similality

  /** Similarity of one grid cell painted with sampled colour c; the source
      computes it from the image and memoises it. */
  type CellSim = (nat, nat, nat) -> int

  /** Sum over the column x, rows y..y+h-1. */
  function SimColumn(sim: CellSim, c: nat, x: nat, y: nat, h: nat): int
  {
    if h == 0 then 0 else SimColumn(sim, c, x, y, h - 1) + sim(c, x, y + h - 1)
  }

  /** Sum over the grid rectangle of columns x..x+w-1 and rows y..y+h-1. */
  function SimRect(sim: CellSim, c: nat, x: nat, y: nat, w: nat, h: nat): int
  {
    if w == 0 then 0 else SimRect(sim, c, x, y, w - 1, h) + SimColumn(sim, c, x + w - 1, y, h)
  }

  /** `calc_similality`: the source's two loops, dx outer and dy inner. */
  method CalcSimilarity(sim: CellSim, c: nat, x: nat, y: nat, w: nat, h: nat) returns (ret: int)
    ensures ret == SimRect(sim, c, x, y, w, h)
  {
    ret := 0;
    var dx := 0;
    while dx < w
      invariant dx <= w
      invariant ret == SimRect(sim, c, x, y, dx, h)
    {
      var nx := x + dx;
      var dy := 0;
      while dy < h
        invariant dy <= h
        invariant ret == SimRect(sim, c, x, y, dx, h) + SimColumn(sim, c, nx, y, dy)
      {
        ret := ret + sim(c, nx, y + dy);
        dy := dy + 1;
      }
      dx := dx + 1;
    }
  }

  lemma {:induction false} SimColumnSplit(sim: CellSim, c: nat, x: nat, y: nat, h1: nat, h2: nat)
    ensures SimColumn(sim, c, x, y, h1 + h2) == SimColumn(sim, c, x, y, h1) + SimColumn(sim, c, x, y + h1, h2)
  {
    if h2 > 0 {
      SimColumnSplit(sim, c, x, y, h1, h2 - 1);
    }
  }

  /** The similarity of two side-by-side rectangles adds up. */
  lemma {:induction false} SimRectSplitX(sim: CellSim, c: nat, x: nat, y: nat, w1: nat, w2: nat, h: nat)
    ensures SimRect(sim, c, x, y, w1 + w2, h) == SimRect(sim, c, x, y, w1, h) + SimRect(sim, c, x + w1, y, w2, h)
  {
    if w2 > 0 {
      SimRectSplitX(sim, c, x, y, w1, w2 - 1, h);
    }
  }

  /** The similarity of two stacked rectangles adds up. */
  lemma {:induction false} SimRectSplitY(sim: CellSim, c: nat, x: nat, y: nat, w: nat, h1: nat, h2: nat)
    ensures SimRect(sim, c, x, y, w, h1 + h2) == SimRect(sim, c, x, y, w, h1) + SimRect(sim, c, x, y + h1, w, h2)
  {
    if w > 0 {
      SimRectSplitY(sim, c, x, y, w - 1, h1, h2);
      SimColumnSplit(sim, c, x + w - 1, y, h1, h2);
    }
  }

  /** The similarity of the four quadrants of a point cut adds up to the
      whole rectangle's. */
  lemma SimRectQuadrants(sim: CellSim, c: nat, x: nat, y: nat, w: nat, h: nat, lw: nat, lh: nat)
    requires lw <= w && lh <= h
    ensures SimRect(sim, c, x, y, w, h)
            == SimRect(sim, c, x, y, lw, lh) + SimRect(sim, c, x + lw, y, w - lw, lh)
               + SimRect(sim, c, x + lw, y + lh, w - lw, h - lh) + SimRect(sim, c, x, y + lh, lw, h - lh)
  {
    SimRectSplitY(sim, c, x, y, w, lh, h - lh);
    SimRectSplitX(sim, c, x, y, lw, w - lw, lh);
    SimRectSplitX(sim, c, x, y + lh, lw, w - lw, h - lh);
  }
}

=== FILE: grid_ai.dfy ===
/** `GridAI` (`ai/grid.rs`): cut the canvas into `rows` horizontal strips
    of `height / rows` pixels, cut every strip into `cols` cells of
    `width / cols` pixels, and paint each cell. The last strip and the last
    cell of a strip take the remainder. Each cell's colour is an input; the
    source averages only the `height / rows` by `width / cols` rectangle at
    the cell's lower corner, so the remainder pixels of the last strip and
    column never enter the average. */
module GridAi {

  import opened Wrappers
  import opened Isl
  import opened Simulator
  import opened Arith

  /** The grid shape, the image size, and the colour of cell (i, j), where
      row i and column j count from 1. */
  datatype Grid = Grid(rows: nat, cols: nat, width: nat, height: nat, colour: (nat, nat) -> Rgba)
  {
    /** The source divides by both counts. */
    predicate Valid()
    {
      rows >= 1 && cols >= 1
    }

    function GridHeight(): int
      requires rows >= 1
    {
      height / rows
    }

    function GridWidth(): int
      requires cols >= 1
    {
      width / cols
    }
  }

  /** n copies of the child index 1. */
  function Ones(n: nat): (r: BlockId)
    ensures |r| == n
  {
    if n == 0 then [] else Ones(n - 1) + [1]
  }

  /** The block holding rows i.. before row i is processed: the initial
      block `[0]`, then the upper part of each horizontal cut. */
  function RowId(i: nat): BlockId
    requires i >= 1
  {
    [0] + Ones(i - 1)
  }

  /** The block that row i's columns are cut from: the lower part of the
      row's horizontal cut, or the remaining block in the last row. */
  function RowBase(g: Grid, i: nat): BlockId
    requires i >= 1
  {
    if i < g.rows then RowId(i) + [0] else RowId(i)
  }

  /** The block that holds cells j.. of row i before cell j is processed. */
  function ColumnId(g: Grid, i: nat, j: nat): BlockId
    requires i >= 1 && j >= 1
  {
    RowBase(g, i) + Ones(j - 1)
  }

  /** The block cell (i, j) is painted on: the left part of its vertical
      cut, or the remaining block in the last column. */
  function CellId(g: Grid, i: nat, j: nat): BlockId
    requires i >= 1 && j >= 1
  {
    if j < g.cols then ColumnId(g, i, j) + [0] else ColumnId(g, i, j)
  }

  /** Cell j of row i: a vertical cut unless it is the last column, then
      the cell's colour. */
  function ColumnStep(g: Grid, i: nat, j: nat): Program
    requires g.Valid() && i >= 1 && j >= 1
  {
    (if j < g.cols then [LCut(ColumnId(g, i, j), Vertical, g.GridWidth() * j)] else [])
    + [Color(CellId(g, i, j), g.colour(i, j))]
  }

  /** Cells 1..n of row i. */
  function Columns(g: Grid, i: nat, n: nat): Program
    requires g.Valid() && i >= 1
  {
    if n == 0 then [] else Columns(g, i, n - 1) + ColumnStep(g, i, n)
  }

  /** Row i: a horizontal cut unless it is the last row, then its cells. */
  function RowStep(g: Grid, i: nat): Program
    requires g.Valid() && i >= 1
  {
    (if i < g.rows then [LCut(RowId(i), Horizontal, g.GridHeight() * i)] else [])
    + Columns(g, i, g.cols)
  }

  /** Rows 1..n. */
  function Rows(g: Grid, n: nat): Program
    requires g.Valid()
  {
    if n == 0 then [] else Rows(g, n - 1) + RowStep(g, n)
  }

  /** The program of `GridAI::solve`, as a declarative reference. */
  function GridProgram(g: Grid): Program
    requires g.Valid()
  {
    Rows(g, g.rows)
  }

  /** One iteration of the outer loop of `GridAI::solve`: row i's moves,
      built on a copy of the row's block id that is pushed to and popped
      from. */
  method SolveRow(g: Grid, i: nat, blockId: BlockId) returns (moves: Program)
    requires g.Valid() && 1 <= i <= g.rows && blockId == RowId(i)
    ensures moves == RowStep(g, i)
  {
    var gridHeight := g.height / g.rows;
    var gridWidth := g.width / g.cols;
    moves := [];
    if i < g.rows {
      moves := moves + [LCut(blockId, Horizontal, gridHeight * i)];
    }
    ghost var cut := moves;
    var xBlockId := blockId;
    if i < g.rows {
      xBlockId := xBlockId + [0];
    }
    var j := 1;
    while j < g.cols + 1
      invariant 1 <= j <= g.cols + 1
      invariant xBlockId == ColumnId(g, i, j)
      invariant moves == cut + Columns(g, i, j - 1)
    {
      ghost var column := xBlockId;
      ghost var before := moves;
      if j < g.cols {
        moves := moves + [LCut(xBlockId, Vertical, gridWidth * j)];
        xBlockId := xBlockId + [0];
      }
      moves := moves + [Color(xBlockId, g.colour(i, j))];
      ColumnStepAppend(g, i, j, cut, before, moves, gridWidth);
      if j < g.cols {
        assert xBlockId[..|xBlockId| - 1] == column;
        xBlockId := xBlockId[..|xBlockId| - 1];
      }
      xBlockId := xBlockId + [1];
      ColumnIdNext(g, i, j);
      j := j + 1;
    }
  }

  /** One cell's moves extend the row's program by that cell's step. */
  lemma ColumnStepAppend(g: Grid, i: nat, j: nat, cut: Program, before: Program, moves: Program, gridWidth: int)
    requires g.Valid() && 1 <= i && 1 <= j <= g.cols && gridWidth == g.width / g.cols
    requires before == cut + Columns(g, i, j - 1)
    requires j < g.cols ==>
               moves == before + [LCut(ColumnId(g, i, j), Vertical, gridWidth * j)]
                        + [Color(ColumnId(g, i, j) + [0], g.colour(i, j))]
    requires j == g.cols ==> moves == before + [Color(ColumnId(g, i, j), g.colour(i, j))]
    ensures moves == cut + Columns(g, i, j)
  {
    assert moves == before + ColumnStep(g, i, j);
    assert Columns(g, i, j) == Columns(g, i, j - 1) + ColumnStep(g, i, j);
  }

  lemma ColumnIdNext(g: Grid, i: nat, j: nat)
    requires i >= 1 && j >= 1
    ensures ColumnId(g, i, j) + [1] == ColumnId(g, i, j + 1)
  {
    assert Ones(j) == Ones(j - 1) + [1];
  }

  /** `GridAI::solve`: rows 1..rows in order, the block id moving to the
      upper part of each horizontal cut. */
  method Solve(g: Grid) returns (result: Program)
    requires g.Valid()
    ensures result == GridProgram(g)
  {
    result := [];
    var blockId: BlockId := [0];
    var i := 1;
    while i < g.rows + 1
      invariant 1 <= i <= g.rows + 1
      invariant blockId == RowId(i)
      invariant result == Rows(g, i - 1)
    {
      var moves := SolveRow(g, i, blockId);
      result := result + moves;
      assert Ones(i) == Ones(i - 1) + [1];
      blockId := blockId + [1];
      i := i + 1;
    }
  }

  // ---------------------------------------------------------------------
  // The grid program executes and paints every cell

  /** The canvas rectangle of row i and of column j: every piece but the
      last has the grid size, the last takes the remainder. */
  function RowTop(g: Grid, i: nat): int
    requires g.Valid() && i >= 1
  {
    g.GridHeight() * (i - 1)
  }

  function RowHeight(g: Grid, i: nat): int
    requires g.Valid() && i >= 1
  {
    if i < g.rows then g.GridHeight() else g.height - RowTop(g, i)
  }

  function CellLeft(g: Grid, j: nat): int
    requires g.Valid() && j >= 1
  {
    g.GridWidth() * (j - 1)
  }

  function CellWidth(g: Grid, j: nat): int
    requires g.Valid() && j >= 1
  {
    if j < g.cols then g.GridWidth() else g.width - CellLeft(g, j)
  }

  /** Cell (i, j) is an active block on its rectangle, in its colour. */
  predicate CellPainted(g: Grid, t: State, i: nat, j: nat)
    requires g.Valid() && i >= 1 && j >= 1
  {
    && CellId(g, i, j) in t.blocks
    && t.blocks[CellId(g, i, j)]
       == SimpleBlock(Point(CellLeft(g, j), RowTop(g, i)), Point(CellWidth(g, j), RowHeight(g, i)),
                      g.colour(i, j), Active)
  }

  /** Every piece is at least one pixel when there are no more rows than
      pixel rows and no more columns than pixel columns. */
  predicate Fits(g: Grid)
  {
    g.Valid() && g.rows <= g.height && g.cols <= g.width
  }

  /** A painted cell of an earlier column is not below the block still to
      be divided. */
  lemma EarlierCellOutside(g: Grid, i: nat, j: nat, n: nat)
    requires g.Valid() && i >= 1 && 1 <= j <= n && n < g.cols
    ensures !Under(ColumnId(g, i, n + 1), CellId(g, i, j))
  {
    var base := RowBase(g, i);
    var c := ColumnId(g, i, n + 1);
    var cell := CellId(g, i, j);
    if j == n {
      assert c == base + Ones(n - 1) + [1];
      assert cell == base + Ones(n - 1) + [0];
      assert c[|c| - 1] != cell[|c| - 1];
    }
  }

  /** A painted cell of an earlier row is not below the block still to be
      divided. */
  lemma EarlierRowOutside(g: Grid, i: nat, j: nat, n: nat)
    requires g.Valid() && 1 <= i <= n && n < g.rows && j >= 1
    ensures !Under(RowId(n + 1), CellId(g, i, j))
  {
    var r := RowId(n + 1);
    var cell := CellId(g, i, j);
    OnesAt(n, i - 1);
    assert r[i] == 1;
    assert cell[i] == (RowId(i) + [0])[i] == 0;
    if |r| <= |cell| {
      assert cell[..|r|][i] != r[i];
    }
  }

  lemma OnesAt(n: nat, k: nat)
    requires k < n
    ensures Ones(n)[k] == 1
  {
    if k < n - 1 {
      OnesAt(n - 1, k);
    }
  }

  /** Running row n leaves the cells of the earlier rows as they were. */
  lemma EarlierRowsKept(g: Grid, n: nat, t0: State, t: State)
    requires g.Valid() && 1 <= n <= g.rows
    requires SameOutside(t0, t, RowId(n))
    requires forall i, j :: 1 <= i < n && 1 <= j <= g.cols ==> CellPainted(g, t0, i, j)
    ensures forall i, j :: 1 <= i < n && 1 <= j <= g.cols ==> CellPainted(g, t, i, j)
  {
    forall i, j | 1 <= i < n && 1 <= j <= g.cols
      ensures CellPainted(g, t, i, j)
    {
      assert CellPainted(g, t0, i, j);
      EarlierRowOutside(g, i, j, n - 1);
    }
  }

  /** Running cell n of row i leaves the row's earlier cells as they were. */
  lemma EarlierCellsKept(g: Grid, i: nat, n: nat, t0: State, t: State)
    requires g.Valid() && 1 <= i && 1 <= n <= g.cols
    requires SameOutside(t0, t, ColumnId(g, i, n))
    requires forall j :: 1 <= j < n ==> CellPainted(g, t0, i, j)
    ensures forall j :: 1 <= j < n ==> CellPainted(g, t, i, j)
  {
    forall j | 1 <= j < n
      ensures CellPainted(g, t, i, j)
    {
      assert CellPainted(g, t0, i, j);
      EarlierCellOutside(g, i, j, n - 1);
    }
  }

  /** Block `id` is active on the rectangle at (x, y) of size w x h, in
      whatever colour. */
  predicate Spans(t: State, id: BlockId, x: int, y: int, w: int, h: int)
  {
    && id in t.blocks
    && t.blocks[id].p == Point(x, y)
    && t.blocks[id].size == Point(w, h)
    && t.blocks[id].state == Active
  }

  /** A line cut at distance d inside a spanning block leaves its two
      parts spanning the two sides, and changes nothing outside the block. */
  lemma CutSpans(t: State, id: BlockId, o: Orientation, x: int, y: int, w: int, h: int, d: int)
    returns (u: State)
    requires Spans(t, id, x, y, w, h)
    requires 0 < d < (if o == Horizontal then h else w)
    ensures Execute(t, [LCut(id, o, (if o == Horizontal then y else x) + d)]) == Some(u)
    ensures SameOutside(t, u, id)
    ensures o == Horizontal ==> Spans(u, id + [0], x, y, w, d) && Spans(u, id + [1], x, y + d, w, h - d)
    ensures o == Vertical ==> Spans(u, id + [0], x, y, d, h) && Spans(u, id + [1], x + d, y, w - d, h)
  {
    var cut := LCut(id, o, (if o == Horizontal then y else x) + d);
    LCutEffect(t, id, o, cut.line);
    u := Simulate(t, cut).value;
    ExecuteOne(t, cut);
    UnderChild(id, 0);
    UnderChild(id, 1);
  }

  /** Painting a spanning block gives it the colour and changes nothing
      outside it. */
  lemma PaintSpans(t: State, id: BlockId, x: int, y: int, w: int, h: int, c: Rgba) returns (u: State)
    requires Spans(t, id, x, y, w, h)
    ensures Execute(t, [Color(id, c)]) == Some(u)
    ensures SameOutside(t, u, id)
    ensures id in u.blocks && u.blocks[id] == SimpleBlock(Point(x, y), Point(w, h), c, Active)
  {
    ColorEffect(t, id, c);
    u := Simulate(t, Color(id, c)).value;
    ExecuteOne(t, Color(id, c));
    UnderChild(id, 0);
  }

  /** Where row i ends and row i + 1 begins, when row i is not the last. */
  lemma RowGeometry(g: Grid, i: nat)
    requires Fits(g) && 1 <= i < g.rows
    ensures 0 < g.GridHeight() < g.height - RowTop(g, i)
    ensures g.GridHeight() * i == RowTop(g, i) + g.GridHeight() == RowTop(g, i + 1)
    ensures RowHeight(g, i) == g.GridHeight()
  {
    PieceSize(g.height, g.rows);
    PiecesFit(g.height, g.rows, i);
  }

  /** Where cell n ends and cell n + 1 begins, when n is not the last. */
  lemma ColumnGeometry(g: Grid, n: nat)
    requires Fits(g) && 1 <= n < g.cols
    ensures 0 < g.GridWidth() < g.width - CellLeft(g, n)
    ensures g.GridWidth() * n == CellLeft(g, n) + g.GridWidth() == CellLeft(g, n + 1)
    ensures CellWidth(g, n) == g.GridWidth()
  {
    PieceSize(g.width, g.cols);
    PiecesFit(g.width, g.cols, n);
  }

  /** Cell n of row i, run when the block still to be divided spans the
      rest of the row: it paints the cell, leaves the rest as the next
      block, and touches nothing outside the divided block. */
  lemma ColumnStepExecutes(g: Grid, i: nat, n: nat, t: State) returns (u: State)
    requires Fits(g) && 1 <= i <= g.rows && 1 <= n <= g.cols
    requires Spans(t, ColumnId(g, i, n), CellLeft(g, n), RowTop(g, i),
                   g.width - CellLeft(g, n), RowHeight(g, i))
    ensures Execute(t, ColumnStep(g, i, n)) == Some(u)
    ensures SameOutside(t, u, ColumnId(g, i, n))
    ensures CellPainted(g, u, i, n)
    ensures n < g.cols ==>
              Spans(u, ColumnId(g, i, n + 1), CellLeft(g, n + 1), RowTop(g, i),
                    g.width - CellLeft(g, n + 1), RowHeight(g, i))
  {
    var c := ColumnId(g, i, n);
    var gw := g.GridWidth();
    var x, y, h := CellLeft(g, n), RowTop(g, i), RowHeight(g, i);
    if n < g.cols {
      ColumnGeometry(g, n);
      var cut := LCut(c, Vertical, gw * n);
      var paint := Color(c + [0], g.colour(i, n));
      var t1 := CutSpans(t, c, Vertical, x, y, g.width - x, h, gw);
      u := PaintSpans(t1, c + [0], x, y, gw, h, g.colour(i, n));
      assert ColumnStep(g, i, n) == [cut] + [paint];
      ExecuteThen(t, [cut], [paint], t1, u);
      UnderChild(c, 0);
      SameOutsideWiden(t1, u, c, c + [0]);
      SameOutsideCompose(t, t1, u, c);
      SiblingNotUnder(c, 0, 1);
      ColumnIdNext(g, i, n);
    } else {
      u := PaintSpans(t, c, x, y, g.width - x, h, g.colour(i, n));
      assert ColumnStep(g, i, n) == [Color(c, g.colour(i, n))];
    }
  }

  /** Cells 1..n of row i, run from a state where the row's block spans the
      row: they execute, paint their cells, leave the rest of the row as the
      next block to divide, and touch nothing outside the row's block. */
  lemma {:induction false} ColumnsExecute(g: Grid, i: nat, n: nat, s: State) returns (t: State)
    requires Fits(g) && 1 <= i <= g.rows && n <= g.cols
    requires Spans(s, RowBase(g, i), 0, RowTop(g, i), g.width, RowHeight(g, i))
    ensures Execute(s, Columns(g, i, n)) == Some(t)
    ensures SameOutside(s, t, RowBase(g, i))
    ensures forall j :: 1 <= j <= n ==> CellPainted(g, t, i, j)
    ensures n < g.cols ==>
              Spans(t, ColumnId(g, i, n + 1), CellLeft(g, n + 1), RowTop(g, i),
                    g.width - CellLeft(g, n + 1), RowHeight(g, i))
  {
    var base := RowBase(g, i);
    if n == 0 {
      t := s;
      assert ColumnId(g, i, 1) == base;
    } else {
      var t0 := ColumnsExecute(g, i, n - 1, s);
      var c := ColumnId(g, i, n);
      t := ColumnStepExecutes(g, i, n, t0);
      ExecuteAppend(s, Columns(g, i, n - 1), ColumnStep(g, i, n));
      UnderExtend(base, Ones(n - 1));
      SameOutsideWiden(t0, t, base, c);
      SameOutsideCompose(s, t0, t, base);
      EarlierCellsKept(g, i, n, t0, t);
    }
  }

  /** The horizontal cut that opens row i, if any: afterwards the row's
      block spans the row and, unless it is the last row, the rows below
      are the next block. */
  lemma RowHeadExecutes(g: Grid, i: nat, t: State) returns (t1: State)
    requires Fits(g) && 1 <= i <= g.rows
    requires Spans(t, RowId(i), 0, RowTop(g, i), g.width, g.height - RowTop(g, i))
    ensures Execute(t, RowHead(g, i)) == Some(t1)
    ensures SameOutside(t, t1, RowId(i))
    ensures Spans(t1, RowBase(g, i), 0, RowTop(g, i), g.width, RowHeight(g, i))
    ensures i < g.rows ==> Spans(t1, RowId(i) + [1], 0, RowTop(g, i + 1), g.width, g.height - RowTop(g, i + 1))
  {
    var r := RowId(i);
    var y := RowTop(g, i);
    if i < g.rows {
      RowGeometry(g, i);
      t1 := CutSpans(t, r, Horizontal, 0, y, g.width, g.height - y, g.GridHeight());
    } else {
      t1 := t;
      UnderChild(r, 0);
    }
  }

  /** Row i, run when the block still to be divided spans the rows from i
      on: it paints every cell of the row, leaves the rows below as the next
      block, and touches nothing outside the divided block. */
  lemma RowStepExecutes(g: Grid, i: nat, t: State) returns (u: State)
    requires Fits(g) && 1 <= i <= g.rows
    requires Spans(t, RowId(i), 0, RowTop(g, i), g.width, g.height - RowTop(g, i))
    ensures Execute(t, RowStep(g, i)) == Some(u)
    ensures SameOutside(t, u, RowId(i))
    ensures forall j :: 1 <= j <= g.cols ==> CellPainted(g, u, i, j)
    ensures i < g.rows ==>
              Spans(u, RowId(i + 1), 0, RowTop(g, i + 1), g.width, g.height - RowTop(g, i + 1))
  {
    var r := RowId(i);
    var head := RowHead(g, i);
    var cols := Columns(g, i, g.cols);
    var t1 := RowHeadExecutes(g, i, t);
    u := ColumnsExecute(g, i, g.cols, t1);
    assert RowStep(g, i) == head + cols;
    ExecuteThen(t, head, cols, t1, u);
    UnderChild(r, 0);
    SameOutsideWiden(t1, u, r, RowBase(g, i));
    SameOutsideCompose(t, t1, u, r);
    if i < g.rows {
      SiblingNotUnder(r, 0, 1);
      assert u.blocks[r + [1]] == t1.blocks[r + [1]];
      assert Ones(i) == Ones(i - 1) + [1];
      assert RowId(i + 1) == r + [1];
    }
  }

  /** Rows 1..n, run from a state where block [0] spans the canvas: they
      execute, paint every cell of those rows, leave the rows below as the
      next block, and touch nothing outside block [0]. */
  lemma {:induction false} RowsExecute(g: Grid, n: nat, s: State) returns (t: State)
    requires Fits(g) && n <= g.rows
    requires Spans(s, [0], 0, 0, g.width, g.height)
    ensures Execute(s, Rows(g, n)) == Some(t)
    ensures SameOutside(s, t, [0])
    ensures forall i, j :: 1 <= i <= n && 1 <= j <= g.cols ==> CellPainted(g, t, i, j)
    ensures n < g.rows ==>
              Spans(t, RowId(n + 1), 0, RowTop(g, n + 1), g.width, g.height - RowTop(g, n + 1))
  {
    if n == 0 {
      t := s;
      assert RowId(1) == [0];
    } else {
      var t0 := RowsExecute(g, n - 1, s);
      var r := RowId(n);
      t := RowStepExecutes(g, n, t0);
      ExecuteAppend(s, Rows(g, n - 1), RowStep(g, n));
      UnderExtend([0], Ones(n - 1));
      SameOutsideWiden(t0, t, [0], r);
      SameOutsideCompose(s, t0, t, [0]);
      EarlierRowsKept(g, n, t0, t);
    }
  }

  /** The whole grid program runs on a fresh w x h canvas and leaves every
      cell (i, j) as an active block on its rectangle, in its colour. */
  lemma GridExecutes(g: Grid, costCoeffVersion: nat)
    requires Fits(g)
    ensures var r := Execute(InitialState(g.width, g.height, costCoeffVersion), GridProgram(g));
            && r.Some?
            && forall i, j :: 1 <= i <= g.rows && 1 <= j <= g.cols ==> CellPainted(g, r.value, i, j)
  {
    var t := RowsExecute(g, g.rows, InitialState(g.width, g.height, costCoeffVersion));
  }

  // ---------------------------------------------------------------------
  // What the grid program consists of

  /** The number of `Color` moves in a program. */
  function ColorCount(p: Program): nat
  {
    if |p| == 0 then 0 else (if p[0].Color? then 1 else 0) + ColorCount(p[1..])
  }

  /** The lines of the program's line cuts of orientation o, in order. */
  function CutLines(p: Program, o: Orientation): seq<int>
  {
    if |p| == 0 then []
    else (if p[0].LCut? && p[0].orientation == o then [p[0].line] else []) + CutLines(p[1..], o)
  }

  /** Only line cuts and colourings. */
  predicate CutsAndColors(p: Program)
  {
    forall k :: 0 <= k < |p| ==> p[k].LCut? || p[k].Color?
  }

  lemma CutsAndColorsAppend(p: Program, q: Program)
    requires CutsAndColors(p) && CutsAndColors(q)
    ensures CutsAndColors(p + q)
  {
    forall k | 0 <= k < |p + q|
      ensures (p + q)[k].LCut? || (p + q)[k].Color?
    {
      if k < |p| {
        assert (p + q)[k] == p[k];
      } else {
        assert (p + q)[k] == q[k - |p|];
      }
    }
  }

  lemma {:induction false} ColorCountAppend(p: Program, q: Program)
    ensures ColorCount(p + q) == ColorCount(p) + ColorCount(q)
  {
    if |p| > 0 {
      assert (p + q)[1..] == p[1..] + q;
      ColorCountAppend(p[1..], q);
    } else {
      assert p + q == q;
    }
  }

  lemma {:induction false} CutLinesAppend(p: Program, q: Program, o: Orientation)
    ensures CutLines(p + q, o) == CutLines(p, o) + CutLines(q, o)
  {
    if |p| > 0 {
      assert (p + q)[1..] == p[1..] + q;
      CutLinesAppend(p[1..], q, o);
    } else {
      assert p + q == q;
    }
  }

  /** Everything the four measures say about p + q, from p and q. */
  lemma ConsistAppend(p: Program, q: Program)
    requires CutsAndColors(p) && CutsAndColors(q)
    ensures CutsAndColors(p + q)
    ensures ColorCount(p + q) == ColorCount(p) + ColorCount(q)
    ensures CutLines(p + q, Horizontal) == CutLines(p, Horizontal) + CutLines(q, Horizontal)
    ensures CutLines(p + q, Vertical) == CutLines(p, Vertical) + CutLines(q, Vertical)
  {
    CutsAndColorsAppend(p, q);
    ColorCountAppend(p, q);
    CutLinesAppend(p, q, Horizontal);
    CutLinesAppend(p, q, Vertical);
  }

  /** The grid lines 1..n of a piece size: size, 2 size, ..., n size. */
  function Lines(size: int, n: nat): (r: seq<int>)
    ensures |r| == n
  {
    seq(n, k => size * (k + 1))
  }

  lemma LinesSnoc(size: int, n: nat)
    ensures Lines(size, n + 1) == Lines(size, n) + [size * (n + 1)]
  {
  }

  /** s repeated n times. */
  function Repeat(s: seq<int>, n: nat): seq<int>
  {
    if n == 0 then [] else Repeat(s, n - 1) + s
  }

  function Min(a: nat, b: nat): nat
  {
    if a <= b then a else b
  }

  /** The measures of a one-move program. */
  lemma OneMove(m: Move)
    ensures ColorCount([m]) == (if m.Color? then 1 else 0)
    ensures CutLines([m], Horizontal) == (if m.LCut? && m.orientation == Horizontal then [m.line] else [])
    ensures CutLines([m], Vertical) == (if m.LCut? && m.orientation == Vertical then [m.line] else [])
  {
    assert [m][1..] == [];
  }

  /** One cell: its colouring, after the vertical cut at the cell's right
      edge unless it is the last column. */
  lemma ColumnStepConsists(g: Grid, i: nat, n: nat)
    requires g.Valid() && i >= 1 && 1 <= n <= g.cols
    ensures CutsAndColors(ColumnStep(g, i, n))
    ensures ColorCount(ColumnStep(g, i, n)) == 1
    ensures CutLines(ColumnStep(g, i, n), Horizontal) == []
    ensures CutLines(ColumnStep(g, i, n), Vertical) == if n < g.cols then [g.GridWidth() * n] else []
  {
    var paint := Color(CellId(g, i, n), g.colour(i, n));
    OneMove(paint);
    if n < g.cols {
      var cut := LCut(ColumnId(g, i, n), Vertical, g.GridWidth() * n);
      assert ColumnStep(g, i, n) == [cut] + [paint];
      OneMove(cut);
      ConsistAppend([cut], [paint]);
    } else {
      assert ColumnStep(g, i, n) == [paint];
    }
  }

  /** Cells 1..n of a row: one colouring per cell, the vertical lines at the
      multiples of the grid width up to the last column, and nothing else. */
  lemma {:induction false} ColumnsConsist(g: Grid, i: nat, n: nat)
    requires g.Valid() && i >= 1 && n <= g.cols
    ensures CutsAndColors(Columns(g, i, n))
    ensures ColorCount(Columns(g, i, n)) == n
    ensures CutLines(Columns(g, i, n), Horizontal) == []
    ensures CutLines(Columns(g, i, n), Vertical) == Lines(g.GridWidth(), Min(n, g.cols - 1))
  {
    if n > 0 {
      ColumnsConsist(g, i, n - 1);
      ColumnStepConsists(g, i, n);
      ConsistAppend(Columns(g, i, n - 1), ColumnStep(g, i, n));
      if n < g.cols {
        LinesSnoc(g.GridWidth(), n - 1);
      }
    }
  }

  /** The horizontal cut that opens row n unless it is the last row. */
  function RowHead(g: Grid, n: nat): Program
    requires g.Valid() && n >= 1
  {
    if n < g.rows then [LCut(RowId(n), Horizontal, g.GridHeight() * n)] else []
  }

  /** Row n: the horizontal cut at the row's lower edge unless it is the
      last row, then the row's cells. */
  lemma RowStepConsists(g: Grid, n: nat)
    requires g.Valid() && 1 <= n <= g.rows
    ensures CutsAndColors(RowStep(g, n))
    ensures ColorCount(RowStep(g, n)) == g.cols
    ensures CutLines(RowStep(g, n), Horizontal) == if n < g.rows then [g.GridHeight() * n] else []
    ensures CutLines(RowStep(g, n), Vertical) == Lines(g.GridWidth(), g.cols - 1)
  {
    var head := RowHead(g, n);
    var cols := Columns(g, n, g.cols);
    assert RowStep(g, n) == head + cols;
    ColumnsConsist(g, n, g.cols);
    if n < g.rows {
      OneMove(head[0]);
      assert head == [head[0]];
    }
    ConsistAppend(head, cols);
  }

  /** Rows 1..n: one colouring per cell, the horizontal lines at the
      multiples of the grid height up to the last row, and each row's
      vertical lines in turn. */
  lemma {:induction false} RowsConsist(g: Grid, n: nat)
    requires g.Valid() && n <= g.rows
    ensures CutsAndColors(Rows(g, n))
    ensures ColorCount(Rows(g, n)) == n * g.cols
    ensures CutLines(Rows(g, n), Horizontal) == Lines(g.GridHeight(), Min(n, g.rows - 1))
    ensures CutLines(Rows(g, n), Vertical) == Repeat(Lines(g.GridWidth(), g.cols - 1), n)
  {
    if n > 0 {
      RowsConsist(g, n - 1);
      RowStepConsists(g, n);
      ConsistAppend(Rows(g, n - 1), RowStep(g, n));
      if n < g.rows {
        LinesSnoc(g.GridHeight(), n - 1);
      }
      MulSucc(n, g.cols);
    }
  }

  /** `GridAI::solve` emits rows - 1 horizontal cuts at the multiples of the
      grid height, cols - 1 vertical cuts per row at the multiples of the
      grid width, and exactly one colouring per cell. */
  lemma GridConsists(g: Grid)
    requires g.Valid()
    ensures CutsAndColors(GridProgram(g))
    ensures ColorCount(GridProgram(g)) == g.rows * g.cols
    ensures CutLines(GridProgram(g), Horizontal) == Lines(g.GridHeight(), g.rows - 1)
    ensures CutLines(GridProgram(g), Vertical) == Repeat(Lines(g.GridWidth(), g.cols - 1), g.rows)
  {
    RowsConsist(g, g.rows);
  }
}

=== FILE: isl.dfy ===
/** The ISL instruction language of the canvas: hierarchical block ids,
    the five moves and programs, together with the two program-level
    operations of `isl.rs`: re-addressing a move (`convert_block_id`) and
    dropping colour moves that a later colour move on the same block makes
    pointless (`remove_redundant_color_move`). */
module Isl {

  import opened Wrappers

  /** A block id is the path of child indices from a root block, e.g. [0.4.2].
      The source stores `u32` components; the model keeps them unbounded. */
  type BlockId = seq<nat>

  datatype Point = Point(x: int, y: int)

  /** A colour with its four channels already scaled to 0..255 and rounded
      (the source keeps floats in 0..1 and rounds when printing). */
  datatype Rgba = Rgba(r: int, g: int, b: int, a: int)

  /** The source's (-1, -1, -1, -1) colour, scaled by 255; merged blocks
      carry it until something paints them. */
  const INVALID_COLOR: Rgba := Rgba(-255, -255, -255, -255)

  /** `Color::ONE`. */
  const WHITE: Rgba := Rgba(255, 255, 255, 255)

  datatype Orientation = Vertical | Horizontal

  datatype Move =
    | PCut(block: BlockId, point: Point)
    | LCut(block: BlockId, orientation: Orientation, line: int)
    | Color(block: BlockId, color: Rgba)
    | Swap(a: BlockId, b: BlockId)
    | Merge(a: BlockId, b: BlockId)
  {
    /** The moves that name a single block. */
    predicate IsSingleBlock() {
      PCut? || LCut? || Color?
    }
  }

  type Program = seq<Move>

  // ---------------------------------------------------------------------
  // BlockId::is_child

  /** `a` is a proper prefix of `b`: `b` names a block strictly below `a`. */
  predicate IsStrictPrefix(a: BlockId, b: BlockId)
  {
    |a| < |b| && a == b[..|a|]
  }

  /** `key` is `id` or a block below it. */
  predicate Under(id: BlockId, key: BlockId)
  {
    |id| <= |key| && key[..|id|] == id
  }

  /** The first `n` components of `a` and `b` agree (the loop of `is_child`). */
  function AgreesUpTo(a: BlockId, b: BlockId, n: nat): (r: bool)
    requires n <= |a| && n <= |b|
    ensures r <==> a[..n] == b[..n]
  {
    if n == 0 then true
    else
      var rest := AgreesUpTo(a, b, n - 1);
      assert a[..n] == a[..n - 1] + [a[n - 1]];
      assert b[..n] == b[..n - 1] + [b[n - 1]];
      assert a[..n] == b[..n] ==> a[..n - 1] == a[..n][..n - 1];
      rest && a[n - 1] == b[n - 1]
  }

  /** `self.is_child(target)`: despite its name, true exactly when `target`
      is a strict descendant of `self`. */
  function IsChild(self: BlockId, target: BlockId): (r: bool)
    ensures r <==> IsStrictPrefix(self, target)
  {
    if |self| >= |target| then false
    else AgreesUpTo(self, target, |self|)
  }

  lemma IsChildIrreflexive(a: BlockId)
    ensures !IsChild(a, a)
  {
  }

  lemma IsChildTransitive(a: BlockId, b: BlockId, c: BlockId)
    requires IsChild(a, b) && IsChild(b, c)
    ensures IsChild(a, c)
  {
    assert c[..|b|][..|a|] == c[..|a|];
  }

  /** Extending an id always yields a descendant of it. */
  lemma IsChildOfExtension(a: BlockId, suffix: seq<nat>)
    requires |suffix| >= 1
    ensures IsChild(a, a + suffix)
  {
    assert (a + suffix)[..|a|] == a;
  }

  // ---------------------------------------------------------------------
  // Move::convert_block_id

  /** Re-addresses a single-block move to block `id`; the source leaves it
      unimplemented for `Swap` and `Merge`. */
  function ConvertBlockId(m: Move, id: BlockId): (r: Move)
    requires m.IsSingleBlock()
    ensures r.IsSingleBlock() && r.block == id
    ensures m.PCut? ==> r.PCut? && r.point == m.point
    ensures m.LCut? ==> r.LCut? && r.orientation == m.orientation && r.line == m.line
    ensures m.Color? ==> r.Color? && r.color == m.color
  {
    match m
    case PCut(_, point) => PCut(id, point)
    case LCut(_, orientation, line) => LCut(id, orientation, line)
    case Color(_, color) => Color(id, color)
  }

  /** Converting twice is converting once to the last id, and converting a
      move to its own id changes nothing. */
  lemma ConvertBlockIdLastWins(m: Move, id1: BlockId, id2: BlockId)
    requires m.IsSingleBlock()
    ensures ConvertBlockId(ConvertBlockId(m, id1), id2) == ConvertBlockId(m, id2)
    ensures ConvertBlockId(m, m.block) == m
  {
  }

  /** Re-addresses every move of a sequence of single-block moves. */
  function ConvertAll(ms: seq<Move>, id: BlockId): (r: seq<Move>)
    requires forall i :: 0 <= i < |ms| ==> ms[i].IsSingleBlock()
    ensures |r| == |ms|
    ensures forall i :: 0 <= i < |r| ==> r[i] == ConvertBlockId(ms[i], id)
  {
    if |ms| == 0 then [] else [ConvertBlockId(ms[0], id)] + ConvertAll(ms[1..], id)
  }

  // ---------------------------------------------------------------------
  // Program::remove_redundant_color_move

  /** The ids painted by some `Color` move of `p`. */
  function ColorIds(p: Program): set<BlockId>
  {
    set j | 0 <= j < |p| && p[j].Color? :: p[j].block
  }

  /** Reference definition, read front to back: a move survives unless it is a
      `Color` whose block is painted again later in the program. */
  function Survivors(p: Program): Program
  {
    if |p| == 0 then []
    else
      (if p[0].Color? && p[0].block in ColorIds(p[1..]) then [] else [p[0]])
      + Survivors(p[1..])
  }

  lemma ColorIdsCons(p: Program)
    requires |p| >= 1
    ensures ColorIds(p) == ColorIds(p[1..]) + (if p[0].Color? then {p[0].block} else {})
  {
    forall id | id in ColorIds(p)
      ensures id in ColorIds(p[1..]) + (if p[0].Color? then {p[0].block} else {})
    {
      var j :| 0 <= j < |p| && p[j].Color? && p[j].block == id;
      if j > 0 {
        assert p[1..][j - 1] == p[j];
      }
    }
    forall id | id in ColorIds(p[1..])
      ensures id in ColorIds(p)
    {
      var j :| 0 <= j < |p[1..]| && p[1..][j].Color? && p[1..][j].block == id;
      assert p[j + 1] == p[1..][j];
    }
  }

  /** `remove_redundant_color_move`: walks the program from its end,
      remembering which blocks already received their final colour, and keeps
      every move except a `Color` on an already remembered block. The source
      pushes onto a vector and reverses it at the end; prepending gives the
      same order. */
  method RemoveRedundantColorMove(p: Program) returns (r: Program)
    ensures r == Survivors(p)
  {
    var colored: set<BlockId> := {};
    r := [];
    var i := |p|;
    while i > 0
      invariant 0 <= i <= |p|
      invariant colored == ColorIds(p[i..])
      invariant r == Survivors(p[i..])
    {
      i := i - 1;
      var mv := p[i];
      assert p[i..][1..] == p[i + 1..];
      ColorIdsCons(p[i..]);
      if mv.Color? {
        if mv.block in colored {
          continue;
        }
        colored := colored + {mv.block};
      }
      r := [mv] + r;
    }
    assert p[0..] == p;
  }

  lemma ColorIdsOfSurvivors(p: Program)
    ensures ColorIds(Survivors(p)) == ColorIds(p)
  {
    if |p| > 0 {
      ColorIdsCons(p);
      ColorIdsOfSurvivors(p[1..]);
      var head := if p[0].Color? && p[0].block in ColorIds(p[1..]) then [] else [p[0]];
      var s := head + Survivors(p[1..]);
      if head == [] {
        assert s == Survivors(p[1..]);
      } else {
        assert s[1..] == Survivors(p[1..]);
        ColorIdsCons(s);
      }
    }
  }

  /** `a` is obtained from `b` by deleting some elements. */
  predicate IsSubsequence<T(==)>(a: seq<T>, b: seq<T>)
    decreases |b|
  {
    if |a| == 0 then true
    else if |b| == 0 then false
    else if a[0] == b[0] then IsSubsequence(a[1..], b[1..])
    else IsSubsequence(a, b[1..])
  }

  lemma {:induction false} SubsequenceCons<T>(x: T, a: seq<T>, b: seq<T>)
    requires IsSubsequence(a, b)
    ensures IsSubsequence(a, [x] + b) && IsSubsequence([x] + a, [x] + b)
  {
    assert ([x] + b)[1..] == b;
    assert ([x] + a)[1..] == a;
    SubsequenceWeaken(a, b, x);
  }

  /** Dropping the first element of `a` keeps it a subsequence of `b`. */
  lemma {:induction false} SubsequenceTail<T>(a: seq<T>, b: seq<T>)
    requires |a| >= 1 && IsSubsequence(a, b)
    ensures IsSubsequence(a[1..], b)
    decreases |b|, 0
  {
    if |b| > 0 {
      if a[0] == b[0] {
        SubsequenceWeaken(a[1..], b[1..], b[0]);
      } else {
        SubsequenceTail(a, b[1..]);
        SubsequenceWeaken(a[1..], b[1..], b[0]);
      }
      assert b == [b[0]] + b[1..];
    }
  }

  /** Prepending an element to `b` keeps `a` a subsequence of it. */
  lemma {:induction false} SubsequenceWeaken<T>(a: seq<T>, b: seq<T>, x: T)
    requires IsSubsequence(a, b)
    ensures IsSubsequence(a, [x] + b)
    decreases |b|, 1
  {
    assert ([x] + b)[1..] == b;
    if |a| > 0 && a[0] == x {
      SubsequenceTail(a, b);
    }
  }

  /** The moves of `p` that are not `Color` moves, in order. */
  function NonColor(p: Program): Program
  {
    if |p| == 0 then []
    else (if p[0].Color? then [] else [p[0]]) + NonColor(p[1..])
  }

  /** The last `Color` move on `id` in `p`, if any. */
  function LastColorOn(p: Program, id: BlockId): Option<Move>
  {
    if |p| == 0 then None
    else
      var later := LastColorOn(p[1..], id);
      if later.Some? then later
      else if p[0].Color? && p[0].block == id then Some(p[0])
      else None
  }

  /** Number of `Color` moves on `id` in `p`. */
  function CountColorsOn(p: Program, id: BlockId): nat
  {
    if |p| == 0 then 0
    else (if p[0].Color? && p[0].block == id then 1 else 0) + CountColorsOn(p[1..], id)
  }

  lemma {:induction false} LastColorOnNone(p: Program, id: BlockId)
    ensures LastColorOn(p, id).None? <==> id !in ColorIds(p)
    ensures LastColorOn(p, id).Some? ==>
              LastColorOn(p, id).value.Color? && LastColorOn(p, id).value.block == id
  {
    if |p| > 0 {
      ColorIdsCons(p);
      LastColorOnNone(p[1..], id);
    }
  }

  /** `remove_redundant_color_move` keeps every move that is not a `Color`,
      in order, and its output is a subsequence of its input. */
  lemma {:induction false} SurvivorsKeepsOtherMoves(p: Program)
    ensures NonColor(Survivors(p)) == NonColor(p)
    ensures IsSubsequence(Survivors(p), p)
  {
    if |p| > 0 {
      SurvivorsKeepsOtherMoves(p[1..]);
      var rest := Survivors(p[1..]);
      assert p == [p[0]] + p[1..];
      if p[0].Color? && p[0].block in ColorIds(p[1..]) {
        assert Survivors(p) == rest;
        SubsequenceWeaken(rest, p[1..], p[0]);
      } else {
        assert Survivors(p) == [p[0]] + rest;
        assert ([p[0]] + rest)[1..] == rest;
        SubsequenceCons(p[0], rest, p[1..]);
      }
    }
  }

  /** After `remove_redundant_color_move` each block is painted at most once,
      exactly when the input paints it, and the surviving `Color` on a block
      is the last `Color` the input has on that block. */
  lemma {:induction false} SurvivorsLastColor(p: Program, id: BlockId)
    ensures CountColorsOn(Survivors(p), id) == (if id in ColorIds(p) then 1 else 0)
    ensures LastColorOn(Survivors(p), id) == LastColorOn(p, id)
  {
    if |p| > 0 {
      SurvivorsLastColor(p[1..], id);
      ColorIdsCons(p);
      LastColorOnNone(p[1..], id);
      var rest := Survivors(p[1..]);
      if p[0].Color? && p[0].block in ColorIds(p[1..]) {
        assert Survivors(p) == rest;
      } else {
        var s := [p[0]] + rest;
        assert Survivors(p) == s;
        assert s[1..] == rest;
      }
    }
  }

  /** Removing redundant colour moves a second time changes nothing. */
  lemma {:induction false} SurvivorsIdempotent(p: Program)
    ensures Survivors(Survivors(p)) == Survivors(p)
  {
    if |p| > 0 {
      SurvivorsIdempotent(p[1..]);
      ColorIdsOfSurvivors(p[1..]);
      var rest := Survivors(p[1..]);
      if p[0].Color? && p[0].block in ColorIds(p[1..]) {
        assert Survivors(p) == rest;
      } else {
        var s := [p[0]] + rest;
        assert Survivors(p) == s;
        assert s[1..] == rest;
        assert Survivors(s) == [p[0]] + Survivors(rest);
      }
    }
  }
}

=== FILE: isl_text.dfy ===
/** The textual form of ISL programs (the `Display` implementations of
    `isl.rs`) and a reader for block ids that inverts their rendering. The
    source renders block ids but never parses them: the reader is this
    model's own, written as the inverse of the renderer so that the round
    trip pins the rendering down. */
module IslText {

  import opened Wrappers
  import opened Strings
  import opened Isl

  // ---------------------------------------------------------------------
  // BlockId

  /** The decimal rendering of every component of an id. */
  function Components(id: BlockId): (r: seq<string>)
    ensures |r| == |id|
    ensures forall i :: 0 <= i < |r| ==> r[i] == NatToString(id[i])
  {
    if |id| == 0 then [] else [NatToString(id[0])] + Components(id[1..])
  }

  /** `[` + the components in decimal, separated by `.`, + `]`; e.g. `[0.4.2]`. */
  function BlockIdToString(id: BlockId): string
  {
    "[" + Join(Components(id), '.') + "]"
  }

  /** Reads canonical decimal pieces back into components (the model's
      inverse of `Components`; the source has no such parser). */
  function ParseComponents(pieces: seq<string>): (r: Option<seq<nat>>)
    ensures r.Some? <==> forall i :: 0 <= i < |pieces| ==> IsCanonicalNat(pieces[i])
    ensures r.Some? ==>
              && |r.value| == |pieces|
              && forall i :: 0 <= i < |pieces| ==> r.value[i] == DigitsValue(pieces[i])
  {
    if |pieces| == 0 then Some([])
    else if !IsCanonicalNat(pieces[0]) then None
    else
      match ParseComponents(pieces[1..])
      case None => None
      case Some(rest) => Some([DigitsValue(pieces[0])] + rest)
  }

  /** Reads the rendering of a block id: `[`, dot-separated canonical
      naturals, `]`. Anything else is rejected. The source has no block-id
      parser; this is the model's inverse of `BlockIdToString`. */
  function ParseBlockId(s: string): Option<BlockId>
  {
    if |s| < 2 || s[0] != '[' || s[|s| - 1] != ']' then None
    else
      var inner := s[1..|s| - 1];
      if inner == "" then Some([])
      else ParseComponents(Split(inner, '.'))
  }

  /** Every block id is read back from its rendering. */
  lemma BlockIdRoundTrip(id: BlockId)
    ensures ParseBlockId(BlockIdToString(id)) == Some(id)
  {
    var s := BlockIdToString(id);
    var inner := Join(Components(id), '.');
    assert s[1..|s| - 1] == inner;
    if |id| > 0 {
      InnerSplits(id);
      ComponentsParse(id);
    }
  }

  /** The joined components of a non-empty id split back into themselves. */
  lemma InnerSplits(id: BlockId)
    requires |id| > 0
    ensures Join(Components(id), '.') != ""
    ensures Split(Join(Components(id), '.'), '.') == Components(id)
  {
    var parts := Components(id);
    assert |parts[0]| >= 1;
    if |parts| > 1 {
      assert Join(parts, '.') == parts[0] + ['.'] + Join(parts[1..], '.');
    }
    forall i | 0 <= i < |parts|
      ensures '.' !in parts[i]
    {
      assert AllDigits(parts[i]);
    }
    SplitJoin(parts, '.');
  }

  /** The rendered components parse back into the id. */
  lemma ComponentsParse(id: BlockId)
    ensures ParseComponents(Components(id)) == Some(id)
  {
    var r := ParseComponents(Components(id));
    assert r.Some?;
    assert r.value == id;
  }

  /** A string read as a block id is exactly that id's rendering, so the
      rendering is a bijection between ids and the strings it produces. */
  lemma BlockIdParseExact(s: string, id: BlockId)
    requires ParseBlockId(s) == Some(id)
    ensures BlockIdToString(id) == s
  {
    var inner := s[1..|s| - 1];
    assert s == "[" + inner + "]";
    if inner != "" {
      var pieces := Split(inner, '.');
      forall i | 0 <= i < |pieces|
        ensures Components(id)[i] == pieces[i]
      {
        NatToStringOfValue(pieces[i]);
      }
      assert Components(id) == pieces;
    }
  }

  // ---------------------------------------------------------------------
  // Points, colours, orientations and moves

  /** `format_point`: `[x, y]`. */
  function PointToString(p: Point): string
  {
    "[" + IntToString(p.x) + ", " + IntToString(p.y) + "]"
  }

  const U32_MAX: int := 0xFFFF_FFFF

  /** Rust's saturating float-to-`u32` cast applied to a rounded channel. */
  function SaturateU32(v: int): (r: nat)
    ensures 0 <= r <= U32_MAX
    ensures 0 <= v <= U32_MAX ==> r == v
  {
    if v < 0 then 0 else if v > U32_MAX then U32_MAX else v
  }

  function ChannelToString(v: int): string
  {
    NatToString(SaturateU32(v))
  }

  /** `format_color`: `[r, g, b, a]`; a negative channel prints as 0. */
  function ColorToString(c: Rgba): string
  {
    "[" + ChannelToString(c.r) + ", " + ChannelToString(c.g) + ", "
    + ChannelToString(c.b) + ", " + ChannelToString(c.a) + "]"
  }

  function OrientationToString(o: Orientation): string
  {
    match o
    case Vertical => "[X]"
    case Horizontal => "[Y]"
  }

  function MoveToString(m: Move): string
  {
    match m
    case PCut(id, point) => "cut " + BlockIdToString(id) + " " + PointToString(point)
    case LCut(id, o, line) =>
      "cut " + BlockIdToString(id) + " " + OrientationToString(o) + " [" + IntToString(line) + "]"
    case Color(id, color) => "color " + BlockIdToString(id) + " " + ColorToString(color)
    case Swap(a, b) => "swap " + BlockIdToString(a) + " " + BlockIdToString(b)
    case Merge(a, b) => "merge " + BlockIdToString(a) + " " + BlockIdToString(b)
  }

  /** The `Display` of a program: each move followed by a newline. */
  function ProgramToString(p: Program): string
  {
    if |p| == 0 then "" else MoveToString(p[0]) + "\n" + ProgramToString(p[1..])
  }

  // ---------------------------------------------------------------------
  // Properties of the rendering

  lemma NoNewlineInDigits(s: string)
    requires AllDigits(s)
    ensures '\n' !in s
  {
  }

  lemma NoNewlineInJoin(parts: seq<string>, sep: char)
    requires sep != '\n'
    requires forall i :: 0 <= i < |parts| ==> '\n' !in parts[i]
    ensures '\n' !in Join(parts, sep)
  {
    if |parts| > 1 {
      NoNewlineInJoin(parts[1..], sep);
    }
  }

  lemma NoNewlineInBlockId(id: BlockId)
    ensures '\n' !in BlockIdToString(id)
  {
    var parts := Components(id);
    forall i | 0 <= i < |parts|
      ensures '\n' !in parts[i]
    {
      NoNewlineInDigits(parts[i]);
    }
    NoNewlineInJoin(parts, '.');
  }

  lemma NoNewlineInInt(i: int)
    ensures '\n' !in IntToString(i)
  {
    if i < 0 {
      NoNewlineInDigits(NatToString(-i));
      assert IntToString(i) == "-" + NatToString(-i);
    } else {
      NoNewlineInDigits(NatToString(i));
    }
  }

  lemma NoNewlineInPoint(p: Point)
    ensures '\n' !in PointToString(p)
  {
    NoNewlineInInt(p.x);
    NoNewlineInInt(p.y);
  }

  lemma NoNewlineInColor(c: Rgba)
    ensures '\n' !in ColorToString(c)
  {
    NoNewlineInDigits(ChannelToString(c.r));
    NoNewlineInDigits(ChannelToString(c.g));
    NoNewlineInDigits(ChannelToString(c.b));
    NoNewlineInDigits(ChannelToString(c.a));
  }

  lemma NoNewlineConcat(a: string, b: string)
    requires '\n' !in a && '\n' !in b
    ensures '\n' !in a + b
  {
  }

  /** `a + " " + b` for two single-line pieces after a keyword. */
  lemma NoNewlineInPhrase(keyword: string, a: string, b: string)
    requires '\n' !in keyword && '\n' !in a && '\n' !in b
    ensures '\n' !in keyword + a + " " + b
  {
    NoNewlineConcat(keyword, a);
    NoNewlineConcat(keyword + a, " ");
    NoNewlineConcat(keyword + a + " ", b);
  }

  /** A move renders on a single line. */
  lemma NoNewlineInMove(m: Move)
    ensures '\n' !in MoveToString(m)
  {
    match m
    case PCut(id, point) => NoNewlineInPCut(id, point);
    case LCut(id, o, line) => NoNewlineInLCut(id, o, line);
    case Color(id, c) => NoNewlineInColorMove(id, c);
    case Swap(a, b) => NoNewlineInPair("swap ", a, b);
    case Merge(a, b) => NoNewlineInPair("merge ", a, b);
  }

  lemma NoNewlineInPCut(id: BlockId, point: Point)
    ensures '\n' !in MoveToString(PCut(id, point))
  {
    NoNewlineInBlockId(id);
    NoNewlineInPoint(point);
    NoNewlineInPhrase("cut ", BlockIdToString(id), PointToString(point));
  }

  lemma NoNewlineInLCut(id: BlockId, o: Orientation, line: int)
    ensures '\n' !in MoveToString(LCut(id, o, line))
  {
    var ori := OrientationToString(o);
    var num := IntToString(line);
    NoNewlineInBlockId(id);
    NoNewlineInInt(line);
    assert '\n' !in ori;
    var head := "cut " + BlockIdToString(id) + " ";
    NoNewlineConcat("cut ", BlockIdToString(id));
    NoNewlineConcat("cut " + BlockIdToString(id), " ");
    NoNewlineConcat(head, ori);
    NoNewlineConcat(head + ori, " [");
    NoNewlineConcat(head + ori + " [", num);
    NoNewlineConcat(head + ori + " [" + num, "]");
  }

  lemma NoNewlineInColorMove(id: BlockId, c: Rgba)
    ensures '\n' !in MoveToString(Color(id, c))
  {
    NoNewlineInBlockId(id);
    NoNewlineInColor(c);
    NoNewlineInPhrase("color ", BlockIdToString(id), ColorToString(c));
  }

  lemma NoNewlineInPair(keyword: string, a: BlockId, b: BlockId)
    requires keyword == "swap " || keyword == "merge "
    ensures '\n' !in keyword + BlockIdToString(a) + " " + BlockIdToString(b)
  {
    NoNewlineInBlockId(a);
    NoNewlineInBlockId(b);
    NoNewlineInPhrase(keyword, BlockIdToString(a), BlockIdToString(b));
  }

  function Lines(p: Program): (r: seq<string>)
    ensures |r| == |p|
    ensures forall i :: 0 <= i < |p| ==> r[i] == MoveToString(p[i])
  {
    if |p| == 0 then [] else [MoveToString(p[0])] + Lines(p[1..])
  }

  /** Rendering distributes over program concatenation; the empty program
      renders as the empty string. */
  lemma {:induction false} ProgramToStringAppend(p: Program, q: Program)
    ensures ProgramToString(p + q) == ProgramToString(p) + ProgramToString(q)
    ensures ProgramToString([]) == ""
  {
    if |p| > 0 {
      assert (p + q)[1..] == p[1..] + q;
      ProgramToStringAppend(p[1..], q);
    } else {
      assert p + q == q;
    }
  }

  lemma {:induction false} ProgramToStringIsJoin(p: Program)
    ensures ProgramToString(p) == Join(Lines(p) + [""], '\n')
  {
    if |p| > 0 {
      ProgramToStringIsJoin(p[1..]);
      var ls := Lines(p) + [""];
      assert ls[1..] == Lines(p[1..]) + [""];
    }
  }

  /** Splitting the rendering of a program at newlines gives exactly one line
      per move, in order, followed by the empty piece after the final newline. */
  lemma ProgramLines(p: Program)
    ensures Split(ProgramToString(p), '\n') == Lines(p) + [""]
  {
    ProgramToStringIsJoin(p);
    var ls := Lines(p) + [""];
    forall i | 0 <= i < |ls|
      ensures '\n' !in ls[i]
    {
      if i < |p| {
        NoNewlineInMove(p[i]);
      }
    }
    SplitJoin(ls, '\n');
  }

  /** The rendering examples of the source's display test. */
  lemma DisplayExamplePCut()
    ensures MoveToString(PCut([0, 4, 2], Point(12, 34))) == "cut [0.4.2] [12, 34]"
  {
    var id := BlockIdToString([0, 4, 2]);
    var pt := PointToString(Point(12, 34));
    assert MoveToString(PCut([0, 4, 2], Point(12, 34))) == "cut " + id + " " + pt;
    ExampleId();
    ExamplePoint();
    ConcatPCutLine(id, pt);
  }

  lemma ExamplePoint()
    ensures PointToString(Point(12, 34)) == "[12, 34]"
  {
    assert NatToString(12) == "12" by { assert NatToString(1) == "1"; }
    assert NatToString(34) == "34" by { assert NatToString(3) == "3"; }
    ConcatPoint(IntToString(12), IntToString(34));
  }

  lemma ConcatPoint(x: string, y: string)
    requires x == "12" && y == "34"
    ensures "[" + x + ", " + y + "]" == "[12, 34]"
  {
  }

  lemma ConcatPCutLine(id: string, pt: string)
    requires id == "[0.4.2]" && pt == "[12, 34]"
    ensures "cut " + id + " " + pt == "cut [0.4.2] [12, 34]"
  {
  }

  lemma DisplayExampleLCut()
    ensures MoveToString(LCut([0, 4, 2], Horizontal, 3)) == "cut [0.4.2] [Y] [3]"
  {
    var id := BlockIdToString([0, 4, 2]);
    var n := IntToString(3);
    assert MoveToString(LCut([0, 4, 2], Horizontal, 3)) == "cut " + id + " " + "[Y]" + " [" + n + "]";
    ExampleId();
    assert n == "3";
    ConcatLCutLine(id, n);
  }

  lemma ConcatLCutLine(id: string, n: string)
    requires id == "[0.4.2]" && n == "3"
    ensures "cut " + id + " " + "[Y]" + " [" + n + "]" == "cut [0.4.2] [Y] [3]"
  {
  }

  lemma DisplayExampleColor()
    ensures MoveToString(Color([0, 4, 2], Rgba(255, 255, 128, 255)))
            == "color [0.4.2] [255, 255, 128, 255]"
  {
    var m := Color([0, 4, 2], Rgba(255, 255, 128, 255));
    var id := BlockIdToString([0, 4, 2]);
    var c := ColorToString(Rgba(255, 255, 128, 255));
    assert MoveToString(m) == "color " + id + " " + c;
    ExampleId();
    ExampleColor();
    ConcatColorLine(id, c);
  }

  lemma ConcatColorLine(id: string, c: string)
    requires id == "[0.4.2]" && c == "[255, 255, 128, 255]"
    ensures "color " + id + " " + c == "color [0.4.2] [255, 255, 128, 255]"
  {
  }

  lemma DisplayExampleSwapMerge()
    ensures MoveToString(Swap([0, 4, 2], [1])) == "swap [0.4.2] [1]"
    ensures MoveToString(Merge([0, 4, 2], [1])) == "merge [0.4.2] [1]"
  {
    var a := BlockIdToString([0, 4, 2]);
    var b := BlockIdToString([1]);
    assert MoveToString(Swap([0, 4, 2], [1])) == "swap " + a + " " + b;
    assert MoveToString(Merge([0, 4, 2], [1])) == "merge " + a + " " + b;
    ExampleId();
    ExampleIdOne();
    ConcatPairLines(a, b);
  }

  lemma ConcatPairLines(a: string, b: string)
    requires a == "[0.4.2]" && b == "[1]"
    ensures "swap " + a + " " + b == "swap [0.4.2] [1]"
    ensures "merge " + a + " " + b == "merge [0.4.2] [1]"
  {
  }

  lemma ExampleColor()
    ensures ColorToString(Rgba(255, 255, 128, 255)) == "[255, 255, 128, 255]"
  {
    Example255();
    Example128();
  }

  lemma Example255()
    ensures ChannelToString(255) == "255"
  {
    assert NatToString(2) == "2";
    assert NatToString(25) == "25";
  }

  lemma Example128()
    ensures ChannelToString(128) == "128"
  {
    assert NatToString(1) == "1";
    assert NatToString(12) == "12";
  }

  lemma ExampleIdOne()
    ensures BlockIdToString([1]) == "[1]"
  {
    assert Components([1]) == ["1"];
  }

  lemma ExampleId()
    ensures BlockIdToString([0, 4, 2]) == "[0.4.2]"
  {
    assert Components([0, 4, 2]) == ["0", "4", "2"] by {
      assert Components([2]) == ["2"];
      assert Components([4, 2]) == ["4", "2"];
    }
    assert Join(["0", "4", "2"], '.') == "0.4.2" by {
      assert Join(["2"], '.') == "2";
      assert Join(["4", "2"], '.') == "4.2";
    }
  }
}

=== FILE: items.dfy ===
/** Items of the single DynamoDB table as the web layer and the worker see
    them: an item is a list of named attributes, each a string (`S`) or a
    number written as a string (`N`). The list order is the order in which
    the attributes come back from the store and `Object.entries` visits
    them; names are distinct. */
module Items {

  import opened Wrappers

  datatype Attr = S(str: string) | N(num: string)

  datatype Entry = Entry(name: string, value: Attr)

  type Item = seq<Entry>

  predicate DistinctNames(item: Item)
  {
    forall i, j :: 0 <= i < j < |item| ==> item[i].name != item[j].name
  }

  /** The attribute with the given name, if there is one. */
  function Get(item: Item, name: string): (r: Option<Attr>)
    ensures r.Some? ==> Entry(name, r.value) in item
    ensures r.None? ==> forall k :: 0 <= k < |item| ==> item[k].name != name
  {
    if |item| == 0 then None
    else if item[0].name == name then Some(item[0].value)
    else
      var r := Get(item[1..], name);
      assert item == [item[0]] + item[1..];
      r
  }

  /** In an item with distinct names, the entry at any position is the one
      found by its name. */
  lemma {:induction false} GetAt(item: Item, k: nat)
    requires DistinctNames(item) && k < |item|
    ensures Get(item, item[k].name) == Some(item[k].value)
  {
    if k > 0 {
      assert item[0].name != item[k].name;
      assert item[1..][k - 1] == item[k];
      GetAt(item[1..], k - 1);
    }
  }

  /** Setting an attribute, as a DynamoDB `SET` does: an existing attribute
      of that name is overwritten in place, otherwise one is added. */
  function SetAttr(item: Item, name: string, value: Attr): (r: Item)
    ensures |r| == |item| || |r| == |item| + 1
    ensures |r| == |item| <==> Get(item, name).Some?
    ensures forall k :: 0 <= k < |item| && item[k].name != name ==> r[k] == item[k]
    ensures forall k :: 0 <= k < |r| ==> r[k].name == name || r[k] in item
  {
    if |item| == 0 then [Entry(name, value)]
    else if item[0].name == name then [Entry(name, value)] + item[1..]
    else [item[0]] + SetAttr(item[1..], name, value)
  }

  lemma {:induction false} GetSetAttr(item: Item, name: string, value: Attr, other: string)
    ensures Get(SetAttr(item, name, value), other) == if other == name then Some(value) else Get(item, other)
  {
    if |item| > 0 && item[0].name != name {
      var r := SetAttr(item, name, value);
      assert r[1..] == SetAttr(item[1..], name, value);
      GetSetAttr(item[1..], name, value, other);
    }
  }

  lemma {:induction false} SetAttrDistinct(item: Item, name: string, value: Attr)
    requires DistinctNames(item)
    ensures DistinctNames(SetAttr(item, name, value))
  {
    if |item| > 0 && item[0].name != name {
      SetAttrDistinct(item[1..], name, value);
      var r := SetAttr(item, name, value);
      assert r[1..] == SetAttr(item[1..], name, value);
      forall j | 1 <= j < |r|
        ensures r[0].name != r[j].name
      {
        if r[j].name != name {
          assert r[j] == r[1..][j - 1];
          InTailName(item, r[j]);
        }
      }
    }
  }

  lemma InTailName(item: Item, e: Entry)
    requires DistinctNames(item) && |item| > 0 && e in item[1..]
    ensures e.name != item[0].name
  {
    var k :| 0 <= k < |item[1..]| && item[1..][k] == e;
    assert item[k + 1] == e;
  }

  /** Setting the same attribute twice keeps only the second value. */
  lemma {:induction false} SetAttrTwice(item: Item, name: string, v1: Attr, v2: Attr)
    ensures SetAttr(SetAttr(item, name, v1), name, v2) == SetAttr(item, name, v2)
  {
    if |item| > 0 && item[0].name != name {
      SetAttrTwice(item[1..], name, v1, v2);
    }
  }

  // ---------------------------------------------------------------------
  // Reading an attribute the way `item["X"]["S"]!` does

  /** `item[name]`, then a property read on it: reading a property of an
      absent attribute throws a `TypeError`. */
  function Field(item: Item, name: string): (r: Result<Attr, string>)
    ensures r.Success? <==> Get(item, name).Some?
    ensures r.Success? ==> r.value == Get(item, name).value
  {
    match Get(item, name)
    case None => Failure("TypeError: cannot read properties of undefined")
    case Some(a) => Success(a)
  }

  /** `attr["S"]`: undefined unless the attribute is a string. */
  function StrOf(a: Attr): Option<string>
  {
    if a.S? then Some(a.str) else None
  }

  /** `attr["N"]`: undefined unless the attribute is a number. */
  function NumOf(a: Attr): Option<string>
  {
    if a.N? then Some(a.num) else None
  }
}

=== FILE: js.dfy ===
/** The slice of JavaScript number semantics the web layer relies on:
    numbers that are integers or NaN, `parseInt(s, 10)`, template-literal
    rendering, `+`, `>` and `Math.max`. Numbers are unbounded integers
    here; the loss of precision above 2^53 is not modelled. */
module Js {

  import opened Strings

  /** A JavaScript number as the web layer sees it: an integer or NaN. */
  datatype JsNum = Num(value: int) | NaN

  /** `a + b`: NaN absorbs. */
  function Add(a: JsNum, b: JsNum): (r: JsNum)
    ensures r.Num? <==> a.Num? && b.Num?
    ensures r.Num? ==> r.value == a.value + b.value
  {
    if a.Num? && b.Num? then Num(a.value + b.value) else NaN
  }

  /** `a > b`: every comparison with NaN is false. */
  predicate Greater(a: JsNum, b: JsNum)
  {
    a.Num? && b.Num? && a.value > b.value
  }

  /** `Math.max(0, ...xs)`. */
  function MaxFromZero(xs: seq<JsNum>): (r: JsNum)
    ensures r.NaN? <==> NaN in xs
    ensures r.Num? ==> r.value >= 0
    ensures r.Num? ==> forall k :: 0 <= k < |xs| ==> xs[k].value <= r.value
    ensures r.Num? && r.value > 0 ==> exists k :: 0 <= k < |xs| && xs[k].value == r.value
  {
    if |xs| == 0 then Num(0)
    else
      var m := MaxFromZero(xs[..|xs| - 1]);
      var x := xs[|xs| - 1];
      assert xs == xs[..|xs| - 1] + [x];
      if m.NaN? || x.NaN? then NaN
      else if x.value > m.value then x
      else m
  }

  /** `${n}` for a number: the decimal rendering, or "NaN". */
  function NumberToString(n: JsNum): string
  {
    match n
    case Num(v) => IntToString(v)
    case NaN => "NaN"
  }

  // ---------------------------------------------------------------------
  // parseInt(s, 10)

  /** ECMAScript WhiteSpace and LineTerminator code points, which
      `parseInt` skips before the number. */
  predicate IsJsSpace(c: char)
  {
    var u := c as int;
    || u == 0x09 || u == 0x0A || u == 0x0B || u == 0x0C || u == 0x0D || u == 0x20
    || u == 0xA0 || u == 0x1680 || (0x2000 <= u <= 0x200A) || u == 0x2028 || u == 0x2029
    || u == 0x202F || u == 0x205F || u == 0x3000 || u == 0xFEFF
  }

  /** The string without its leading white space. */
  function TrimStart(s: string): (r: string)
    ensures |r| <= |s| && r == s[|s| - |r|..]
    ensures forall k :: 0 <= k < |s| - |r| ==> IsJsSpace(s[k])
    ensures |r| > 0 ==> !IsJsSpace(r[0])
  {
    if |s| > 0 && IsJsSpace(s[0]) then TrimStart(s[1..]) else s
  }

  /** The length of the longest prefix of decimal digits. */
  function DigitPrefixLength(s: string): (n: nat)
    ensures n <= |s| && AllDigits(s[..n])
    ensures n < |s| ==> !IsDigit(s[n])
  {
    if |s| > 0 && IsDigit(s[0]) then
      var n := DigitPrefixLength(s[1..]) + 1;
      assert s[..n] == [s[0]] + s[1..][..n - 1];
      n
    else 0
  }

  /** What is left after the white space and an optional sign. */
  function Unsigned(s: string): string
  {
    var t := TrimStart(s);
    if |t| > 0 && (t[0] == '-' || t[0] == '+') then t[1..] else t
  }

  predicate IsNegative(s: string)
  {
    var t := TrimStart(s);
    |t| > 0 && t[0] == '-'
  }

  /** `parseInt(s, 10)`: skip white space, read an optional sign, then the
      longest run of digits; NaN when there is no digit. A negative zero is
      an ordinary zero here. */
  function ParseInt(s: string): (r: JsNum)
    ensures r.NaN? <==> |Unsigned(s)| == 0 || !IsDigit(Unsigned(s)[0])
  {
    var u := Unsigned(s);
    var n := DigitPrefixLength(u);
    if n == 0 then NaN
    else
      var v: int := DigitsValue(u[..n]);
      Num(if IsNegative(s) then -v else v)
  }

  lemma {:induction false} DigitPrefixOfDigits(s: string, rest: string)
    requires AllDigits(s)
    requires |rest| == 0 || !IsDigit(rest[0])
    ensures DigitPrefixLength(s + rest) == |s|
  {
    if |s| == 0 {
      assert s + rest == rest;
    } else {
      assert (s + rest)[0] == s[0];
      assert (s + rest)[1..] == s[1..] + rest;
      DigitPrefixOfDigits(s[1..], rest);
    }
  }

  /** `parseInt` reads a digit string up to the first character that is not
      a digit. */
  lemma ParseIntDigitsThen(s: string, rest: string)
    requires |s| >= 1 && AllDigits(s)
    requires |rest| == 0 || !IsDigit(rest[0])
    ensures ParseInt(s + rest) == Num(DigitsValue(s))
  {
    var t := s + rest;
    assert t[0] == s[0];
    DigitFirstIsUnsigned(t);
    DigitPrefixOfDigits(s, rest);
    assert t[..|s|] == s;
  }

  /** A string that starts with a digit has no white space or sign. */
  lemma DigitFirstIsUnsigned(t: string)
    requires |t| > 0 && IsDigit(t[0])
    ensures Unsigned(t) == t && !IsNegative(t)
  {
    NoLeadingSpace(t);
  }

  /** A string that starts with a digit or a minus sign has no white space
      to skip. */
  lemma NoLeadingSpace(t: string)
    requires |t| > 0 && (IsDigit(t[0]) || t[0] == '-')
    ensures TrimStart(t) == t
  {
    assert !IsJsSpace(t[0]);
  }

  /** `parseInt` reads back every decimal rendering of a natural number. */
  lemma ParseIntOfNat(n: nat)
    ensures ParseInt(NatToString(n)) == Num(n)
  {
    ParseIntDigitsThen(NatToString(n), "");
    assert NatToString(n) + "" == NatToString(n);
  }

  /** `parseInt` inverts `${n}` on every number, negative ones and NaN
      included. */
  lemma ParseIntOfNumberToString(n: JsNum)
    ensures ParseInt(NumberToString(n)) == n
  {
    match n
    case NaN =>
      assert Unsigned("NaN") == "NaN";
    case Num(v) =>
      if v >= 0 {
        ParseIntOfNat(v);
      } else {
        ParseIntOfNegative(-v);
      }
  }

  lemma ParseIntOfNegative(n: nat)
    requires n > 0
    ensures ParseInt("-" + NatToString(n)) == Num(-(n as int))
  {
    var d := NatToString(n);
    var s := "-" + d;
    NoLeadingSpace(s);
    assert Unsigned(s) == d && IsNegative(s);
    DigitPrefixOfDigits(d, "");
    assert d + "" == d;
    assert DigitPrefixLength(Unsigned(s)) == |d|;
    assert d[..|d|] == d;
  }

  lemma ParseIntEmpty()
    ensures ParseInt("") == NaN
  {
  }
}

=== FILE: keys.dfy ===
/** The single-table key scheme of the run store. A run is a header item
    with PK = SK = "R#<run id>"; each solved problem adds a solution item
    under the same PK with SK = "S#<problem id>", indexed by problem on
    GSI1 ("P#<problem id>", score), and also records its score on the
    header under the attribute "S#<problem id>". The worker (`save` in the
    lambda's `db.rs`) writes these; the readers recover the ids by taking
    the second '#'-separated field. Artifacts go to the object store under
    "<run id>/<problem id>.isl" and ".png". */
module RunKeys {

  import opened Wrappers
  import opened Strings
  import opened Items

  const RUN_PREFIX := "R#"
  const SOLUTION_PREFIX := "S#"
  const PROBLEM_PREFIX := "P#"

  function RunKey(runId: string): string
  {
    RUN_PREFIX + runId
  }

  function SolutionKey(problemId: string): string
  {
    SOLUTION_PREFIX + problemId
  }

  /** The item `save` puts for one solved problem. */
  function SolutionItem(runId: string, problemId: string, score: int, ai: string, commit: string,
                        elapsed: nat, now: nat): Item
  {
    [ Entry("PK", S(RunKey(runId))),
      Entry("SK", S(SolutionKey(problemId))),
      Entry("GSI1PK", S(PROBLEM_PREFIX + problemId)),
      Entry("GSI1SK", N(IntToString(score))),
      Entry("AI", S(ai)),
      Entry("Commit", S(commit)),
      Entry("ExecTime", N(NatToString(elapsed))),
      Entry("ExecDate", N(NatToString(now))) ]
  }

  /** Each attribute of a solution item reads back as written: the run key,
      the problem keys, the score as a decimal number, and the metadata. */
  lemma SolutionItemFields(runId: string, problemId: string, score: int, ai: string, commit: string,
                           elapsed: nat, now: nat)
    ensures var item := SolutionItem(runId, problemId, score, ai, commit, elapsed, now);
            && DistinctNames(item)
            && Get(item, "PK") == Some(S(RunKey(runId)))
            && Get(item, "SK") == Some(S(SolutionKey(problemId)))
            && Get(item, "GSI1PK") == Some(S(PROBLEM_PREFIX + problemId))
            && Get(item, "GSI1SK") == Some(N(IntToString(score)))
            && Get(item, "AI") == Some(S(ai))
            && Get(item, "Commit") == Some(S(commit))
            && Get(item, "ExecTime") == Some(N(NatToString(elapsed)))
            && Get(item, "ExecDate") == Some(N(NatToString(now)))
  {
    var item := SolutionItem(runId, problemId, score, ai, commit, elapsed, now);
    var names := ["PK", "SK", "GSI1PK", "GSI1SK", "AI", "Commit", "ExecTime", "ExecDate"];
    assert forall k :: 0 <= k < 8 ==> item[k].name == names[k];
    assert DistinctNames(item);
    GetAt(item, 0);
    GetAt(item, 1);
    GetAt(item, 2);
    GetAt(item, 3);
    GetAt(item, 4);
    GetAt(item, 5);
    GetAt(item, 6);
    GetAt(item, 7);
  }

  /** The update `save` applies to the run header: the problem's score is
      set under "S#<problem id>". */
  function SaveScore(header: Item, problemId: string, score: int): (r: Item)
    ensures Get(r, SolutionKey(problemId)) == Some(N(IntToString(score)))
    ensures forall name :: name != SolutionKey(problemId) ==> Get(r, name) == Get(header, name)
  {
    var r := SetAttr(header, SolutionKey(problemId), N(IntToString(score)));
    GetSetAttr(header, SolutionKey(problemId), N(IntToString(score)), SolutionKey(problemId));
    assert forall name :: name != SolutionKey(problemId) ==> Get(r, name) == Get(header, name) by {
      forall name | name != SolutionKey(problemId) {
        GetSetAttr(header, SolutionKey(problemId), N(IntToString(score)), name);
      }
    }
    r
  }

  /** Saving a problem again replaces its score instead of adding one. */
  lemma SaveScoreAgain(header: Item, problemId: string, s1: int, s2: int)
    ensures SaveScore(SaveScore(header, problemId, s1), problemId, s2) == SaveScore(header, problemId, s2)
    ensures |SaveScore(SaveScore(header, problemId, s1), problemId, s2)| == |SaveScore(header, problemId, s1)|
  {
    SetAttrTwice(header, SolutionKey(problemId), N(IntToString(s1)), N(IntToString(s2)));
  }

  function ProgramObjectKey(runId: string, problemId: string): string
  {
    runId + "/" + problemId + ".isl"
  }

  function ImageObjectKey(runId: string, problemId: string): string
  {
    runId + "/" + problemId + ".png"
  }

  /** The two artifacts of a solution never share a key, and a key names
      its run and problem uniquely as long as run ids contain no '/'. */
  lemma ObjectKeysDistinct(r1: string, p1: string, r2: string, p2: string)
    requires '/' !in r1 && '/' !in r2
    ensures ProgramObjectKey(r1, p1) != ImageObjectKey(r2, p2)
    ensures ProgramObjectKey(r1, p1) == ProgramObjectKey(r2, p2) ==> r1 == r2 && p1 == p2
    ensures ImageObjectKey(r1, p1) == ImageObjectKey(r2, p2) ==> r1 == r2 && p1 == p2
  {
    var a := ProgramObjectKey(r1, p1);
    var b := ImageObjectKey(r2, p2);
    assert a[|a| - 1] == 'l' && b[|b| - 1] == 'g';
    forall ext: string, p1': string, p2': string | (ext == ".isl" || ext == ".png")
        && r1 + "/" + p1' + ext == r2 + "/" + p2' + ext
      ensures r1 == r2 && p1' == p2'
    {
      assert r1 + "/" + p1' + ext == r1 + "/" + (p1' + ext);
      assert r2 + "/" + p2' + ext == r2 + "/" + (p2' + ext);
      SlashSplit(r1, p1' + ext, r2, p2' + ext);
      assert p1' + ext == p2' + ext;
      assert p1' == (p1' + ext)[..|p1'|];
      assert p2' == (p2' + ext)[..|p2'|];
    }
  }

  lemma SlashSplit(r1: string, t1: string, r2: string, t2: string)
    requires '/' !in r1 && '/' !in r2
    requires r1 + "/" + t1 == r2 + "/" + t2
    ensures r1 == r2 && t1 == t2
  {
    var s := r1 + "/" + t1;
    assert s[|r1|] == '/';
    assert (r2 + "/" + t2)[|r2|] == '/';
    assert r1 == s[..|r1|];
    assert r2 == s[..|r2|];
    assert t1 == s[|r1| + 1..];
  }

  // ---------------------------------------------------------------------
  // Decoding keys: `key.split("#")[1]`

  /** The second '#'-separated field, undefined when there is no '#'. */
  function SecondField(key: string): Option<string>
  {
    var parts := Split(key, '#');
    if |parts| >= 2 then Some(parts[1]) else None
  }

  /** Taking the second field of "<tag>#<id>" gives the id back exactly
      when the id contains no '#' (a '#' in the id cuts it short). */
  lemma SecondFieldOfKey(tag: char, id: string)
    requires tag != '#'
    ensures SecondField([tag, '#'] + id) == Some(id) <==> '#' !in id
  {
    var key := [tag, '#'] + id;
    assert key == [tag] + ['#'] + id;
    SplitAfterHead([tag], '#', id);
    if '#' in id {
      var k := IndexOf(id, '#');
      assert id == id[..k] + ['#'] + id[k + 1..];
      SplitAfterHead(id[..k], '#', id[k + 1..]);
      assert |id[..k]| < |id|;
    }
  }

  lemma RunKeyDecodes(runId: string)
    requires '#' !in runId
    ensures SecondField(RunKey(runId)) == Some(runId)
  {
    SecondFieldOfKey('R', runId);
  }

  lemma SolutionKeyDecodes(problemId: string)
    requires '#' !in problemId
    ensures SecondField(SolutionKey(problemId)) == Some(problemId)
  {
    SecondFieldOfKey('S', problemId);
  }
}

=== FILE: merge_ai.dfy ===
/** `MergeAI` (`ai/merge.rs`): repeatedly merge the first mergeable pair of
    active blocks in (x, y) order until one block remains, then paint it
    white. The source sorts the entries of a hash map, so blocks at the same
    corner come in an unspecified order; the model lets that order be any
    (x, y)-sorted listing. */
module MergeAi {

  import opened Wrappers
  import opened Isl
  import opened Simulator

  function ActiveIds(s: State): set<BlockId>
  {
    set k | k in s.blocks && s.blocks[k].state.IsActive()
  }

  /** The active blocks among the ids `ks`. */
  function ActiveAmong(s: State, ks: set<BlockId>): set<BlockId>
  {
    set k | k in ks && k in s.blocks && s.blocks[k].state.IsActive()
  }

  lemma ActiveAmongAdd(s: State, ks: set<BlockId>, k: BlockId)
    requires k in s.blocks && k !in ks
    ensures |ActiveAmong(s, ks + {k})| == |ActiveAmong(s, ks)| + (if s.blocks[k].state.IsActive() then 1 else 0)
  {
    if s.blocks[k].state.IsActive() {
      assert ActiveAmong(s, ks + {k}) == ActiveAmong(s, ks) + {k};
    } else {
      assert ActiveAmong(s, ks + {k}) == ActiveAmong(s, ks);
    }
  }

  /** `active_block_num`: the number of active blocks. */
  method ActiveBlockNum(s: State) returns (n: nat)
    ensures n == |ActiveIds(s)|
  {
    n := 0;
    var rest := s.blocks.Keys;
    ghost var counted: set<BlockId> := {};
    while rest != {}
      invariant rest !! counted && rest + counted == s.blocks.Keys
      invariant n == |ActiveAmong(s, counted)|
      decreases |rest|
    {
      var k :| k in rest;
      ActiveAmongAdd(s, counted, k);
      if s.blocks[k].state.IsActive() {
        n := n + 1;
      }
      counted := counted + {k};
      rest := rest - {k};
    }
    assert ActiveIds(s) == ActiveAmong(s, counted);
  }

  /** `merged_block_id`: the id of the only active block; the source's
      assertion fails unless exactly one block is active. */
  method MergedBlockId(s: State) returns (r: Option<BlockId>)
    ensures r.Some? <==> |ActiveIds(s)| == 1
    ensures r.Some? ==> ActiveIds(s) == {r.value}
  {
    var n := ActiveBlockNum(s);
    if n != 1 {
      return None;
    }
    var k :| k in ActiveIds(s);
    assert |ActiveIds(s) - {k}| == 0;
    return Some(k);
  }

  // ---------------------------------------------------------------------
  // Ordering the active blocks

  /** The sort key of `solve`: by x, then by y. */
  predicate PosLe(a: SimpleBlock, b: SimpleBlock)
  {
    a.p.x < b.p.x || (a.p.x == b.p.x && a.p.y <= b.p.y)
  }

  predicate Distinct<T(==)>(xs: seq<T>)
  {
    forall i, j :: 0 <= i < j < |xs| ==> xs[i] != xs[j]
  }

  /** `ids` lists the active blocks once each, sorted by position. */
  predicate ActiveListing(s: State, ids: seq<BlockId>)
  {
    && Distinct(ids)
    && (forall i :: 0 <= i < |ids| ==> ids[i] in ActiveIds(s))
    && (forall k :: k in ActiveIds(s) ==> k in ids)
    && (forall i, j :: 0 <= i < j < |ids| ==> PosLe(s.blocks[ids[i]], s.blocks[ids[j]]))
  }

  /** A block with the least position among `rest`. */
  lemma {:induction false} MinimumOf(s: State, rest: set<BlockId>) returns (m: BlockId)
    requires rest != {} && rest <= s.blocks.Keys
    ensures m in rest && forall k :: k in rest ==> PosLe(s.blocks[m], s.blocks[k])
    decreases |rest|
  {
    var x :| x in rest;
    if rest == {x} {
      m := x;
    } else {
      var m' := MinimumOf(s, rest - {x});
      if PosLe(s.blocks[m'], s.blocks[x]) {
        m := m';
      } else {
        m := x;
        forall k | k in rest
          ensures PosLe(s.blocks[m], s.blocks[k])
        {
          if k != x {
            assert PosLe(s.blocks[m'], s.blocks[k]);
          }
        }
      }
    }
  }

  /** Collects and sorts the active blocks (the filter, collect and
      `sort_by` of `solve`). */
  method SortedActive(s: State) returns (ids: seq<BlockId>)
    ensures ActiveListing(s, ids)
  {
    ids := [];
    var rest := ActiveIds(s);
    while rest != {}
      invariant rest <= ActiveIds(s)
      invariant forall k :: k in ActiveIds(s) ==> (k in rest <==> k !in ids)
      invariant Distinct(ids) && forall i :: 0 <= i < |ids| ==> ids[i] in ActiveIds(s)
      invariant forall i, j :: 0 <= i < j < |ids| ==> PosLe(s.blocks[ids[i]], s.blocks[ids[j]])
      invariant forall i, k :: 0 <= i < |ids| && k in rest ==> PosLe(s.blocks[ids[i]], s.blocks[k])
      decreases |rest|
    {
      ghost var least := MinimumOf(s, rest);
      var k :| k in rest && forall k' :: k' in rest ==> PosLe(s.blocks[k], s.blocks[k']);
      ids := ids + [k];
      rest := rest - {k};
    }
  }

  // ---------------------------------------------------------------------
  // Choosing the pair

  predicate PairMergeable(s: State, ids: seq<BlockId>, i: nat, j: nat)
    requires i < |ids| && j < |ids| && ids[i] in s.blocks && ids[j] in s.blocks
  {
    MergeBlockAsWritten(s.blocks[ids[i]], s.blocks[ids[j]]).Some?
  }

  /** (i', j') comes before (i, j) in the order of the two nested loops. */
  predicate PairBefore(i': nat, j': nat, i: nat, j: nat)
  {
    i' < i || (i' == i && j' < j)
  }

  /** The nested `for` loops of `solve`: the first pair i < j, in loop
      order, that `merge_block` accepts. */
  method FindPair(s: State, ids: seq<BlockId>) returns (r: Option<(nat, nat)>)
    requires forall i :: 0 <= i < |ids| ==> ids[i] in s.blocks
    ensures r.None? <==> forall i, j :: 0 <= i < j < |ids| ==> !PairMergeable(s, ids, i, j)
    ensures r.Some? ==> var (i, j) := r.value;
              && i < j < |ids| && PairMergeable(s, ids, i, j)
              && forall i', j' :: 0 <= i' < j' < |ids| && PairBefore(i', j', i, j) ==> !PairMergeable(s, ids, i', j')
  {
    var i := 0;
    while i < |ids|
      invariant 0 <= i <= |ids|
      invariant forall i', j' :: 0 <= i' < i && i' < j' < |ids| ==> !PairMergeable(s, ids, i', j')
    {
      var j := i + 1;
      while j < |ids|
        invariant i + 1 <= j <= |ids| || (j == i + 1 && i + 1 > |ids|)
        invariant forall j' :: i < j' < j && j' < |ids| ==> !PairMergeable(s, ids, i, j')
      {
        if MergeBlockAsWritten(s.blocks[ids[i]], s.blocks[ids[j]]).Some? {
          assert PairMergeable(s, ids, i, j);
          return Some((i, j));
        }
        j := j + 1;
      }
      i := i + 1;
    }
    return None;
  }

  // ---------------------------------------------------------------------
  // Progress of a merge

  lemma {:induction false} SubsetCard<T>(a: set<T>, b: set<T>)
    requires a <= b
    ensures |a| <= |b|
    decreases |b|
  {
    if a != {} {
      var x :| x in a;
      SubsetCard(a - {x}, b - {x});
    }
  }

  /** Merging two distinct active blocks turns both into merged blocks and
      adds at most one active block, so the active count drops; with a
      fresh global id it drops by exactly one. */
  lemma MergeLowersActiveCount(s: State, a: BlockId, b: BlockId)
    requires a != b && a in ActiveIds(s) && b in ActiveIds(s)
    requires MergeableAsWritten(s.blocks[a], s.blocks[b])
    ensures Simulate(s, Merge(a, b)).Some?
    ensures |ActiveIds(Simulate(s, Merge(a, b)).value)| < |ActiveIds(s)|
    ensures FreshGlobalId(s) ==>
              && FreshGlobalId(Simulate(s, Merge(a, b)).value)
              && |ActiveIds(Simulate(s, Merge(a, b)).value)| == |ActiveIds(s)| - 1
  {
    var s' := Simulate(s, Merge(a, b)).value;
    var g := [s.nextGlobalId];
    var bound := (ActiveIds(s) - {a, b}) + {g};
    assert ActiveIds(s') <= bound;
    SubsetCard(ActiveIds(s'), bound);
    assert |ActiveIds(s) - {a, b}| == |ActiveIds(s)| - 2;
    if FreshGlobalId(s) {
      MergeEffect(s, a, b);
      assert ActiveIds(s') == bound;
    }
  }

  /** Where `solve` panics: more than one block is still active and no
      active block accepts a merge with any block strictly after it in
      (x, y) order, the order in which the nested loops try them. */
  predicate Stuck(s: State)
  {
    && |ActiveIds(s)| > 1
    && forall a, b :: a in ActiveIds(s) && b in ActiveIds(s) && !PosLe(s.blocks[b], s.blocks[a]) ==>
         !MergeableAsWritten(s.blocks[a], s.blocks[b])
  }

  /** A sorted listing in which no pair merges means the state is stuck. */
  lemma NoPairMeansStuck(s: State, ids: seq<BlockId>)
    requires ActiveListing(s, ids) && |ActiveIds(s)| > 1
    requires forall i, j :: 0 <= i < j < |ids| ==> !PairMergeable(s, ids, i, j)
    ensures Stuck(s)
  {
    forall a, b | a in ActiveIds(s) && b in ActiveIds(s) && !PosLe(s.blocks[b], s.blocks[a])
      ensures !MergeableAsWritten(s.blocks[a], s.blocks[b])
    {
      var i :| 0 <= i < |ids| && ids[i] == a;
      var j :| 0 <= j < |ids| && ids[j] == b;
      assert i < j;
      assert !PairMergeable(s, ids, i, j);
    }
  }

  /** `m` is the merge `solve` emits in state `s` for the sorted listing
      `ids`: it joins the first pair i < j, in loop order, that
      `merge_block` accepts. */
  ghost predicate ChosenFrom(s: State, ids: seq<BlockId>, i: nat, j: nat, m: Move)
  {
    && ActiveListing(s, ids)
    && i < j < |ids|
    && PairMergeable(s, ids, i, j)
    && (forall i', j' :: 0 <= i' < j' < |ids| && PairBefore(i', j', i, j) ==> !PairMergeable(s, ids, i', j'))
    && m == Merge(ids[i], ids[j])
  }

  /** The moves `before` execute, and `m` is the merge chosen in the state
      they reach, for some sorted listing of its active blocks. */
  ghost predicate ChosenAfter(initial: State, before: Program, m: Move)
  {
    && Execute(initial, before).Some?
    && exists ids, i, j :: ChosenFrom(Execute(initial, before).value, ids, i, j, m)
  }

  /** Every merge of `q` is the one chosen after the merges before it. */
  ghost predicate MergeChoices(initial: State, q: Program)
  {
    forall k :: 0 <= k < |q| ==> ChosenAfter(initial, q[..k], q[k])
  }

  /** Appending the merge chosen in the state that `q` reaches keeps every
      earlier choice and records the new one. */
  lemma MergeChoicesStep(initial: State, q: Program, state: State, ids: seq<BlockId>, i: nat, j: nat, m: Move)
    requires MergeChoices(initial, q) && Execute(initial, q) == Some(state)
    requires ChosenFrom(state, ids, i, j, m)
    ensures MergeChoices(initial, q + [m])
  {
    var q' := q + [m];
    assert ChosenAfter(initial, q, m);
    forall k | 0 <= k < |q'|
      ensures ChosenAfter(initial, q'[..k], q'[k])
    {
      if k < |q| {
        assert q'[..k] == q[..k] && q'[k] == q[k];
      } else {
        assert q'[..k] == q && q'[k] == m;
      }
    }
  }

  // ---------------------------------------------------------------------
  // solve

  datatype MergeError =
    | NoMergeablePair(emitted: Program)   // the `panic!`, after the merges emitted so far
    | NotExactlyOneActive                 // the assertion in `merged_block_id`

  /** `MergeAI::solve`. On success the program is a run of `Merge` moves,
      one per loop iteration and never more than the active count less one,
      followed by one white `Color` on the single block left active; the
      whole program executes from the initial state. With a fresh global id
      every merge removes exactly one active block. The search fails only
      where the source panics: after merges that execute, in a state that is
      `Stuck`. Every merge emitted joins the first pair, in loop order, of a
      sorted listing that `merge_block` accepts (`MergeChoices`). A single
      active block is painted at once, and with a fresh
      global id the merges never leave the canvas without an active block. */
  method Solve(initial: State) returns (r: Result<Program, MergeError>)
    ensures r.Success? ==>
              var p := r.value;
              && |p| >= 1
              && (forall i :: 0 <= i < |p| - 1 ==> p[i].Merge?)
              && p[|p| - 1].Color? && p[|p| - 1].color == WHITE
              && Execute(initial, p[..|p| - 1]).Some?
              && ActiveIds(Execute(initial, p[..|p| - 1]).value) == {p[|p| - 1].block}
              && Execute(initial, p).Some?
              && |p| - 1 <= |ActiveIds(initial)| - 1
              && (FreshGlobalId(initial) ==> |p| - 1 == |ActiveIds(initial)| - 1)
              && MergeChoices(initial, p[..|p| - 1])
    ensures r.Failure? && r.error.NoMergeablePair? ==>
              var q := r.error.emitted;
              && (forall i :: 0 <= i < |q| ==> q[i].Merge?)
              && MergeChoices(initial, q)
              && Execute(initial, q).Some?
              && Stuck(Execute(initial, q).value)
    ensures r.Failure? && r.error == NotExactlyOneActive ==> |ActiveIds(initial)| == 0 || !FreshGlobalId(initial)
    ensures |ActiveIds(initial)| == 1 ==> r.Success?
  {
    var state := initial;
    var ret: Program := [];
    var n := ActiveBlockNum(state);
    while n > 1
      invariant n == |ActiveIds(state)|
      invariant forall i :: 0 <= i < |ret| ==> ret[i].Merge?
      invariant Execute(initial, ret) == Some(state)
      invariant |ret| + |ActiveIds(state)| <= |ActiveIds(initial)|
                || (ret == [] && state == initial)
      invariant FreshGlobalId(initial) ==>
                  FreshGlobalId(state) && |ret| + |ActiveIds(state)| == |ActiveIds(initial)|
      invariant FreshGlobalId(initial) && |ActiveIds(initial)| >= 1 ==> |ActiveIds(state)| >= 1
      invariant |ActiveIds(initial)| <= 1 ==> state == initial
      invariant MergeChoices(initial, ret)
      decreases |ActiveIds(state)|
    {
      var blocks := SortedActive(state);
      var target := FindPair(state, blocks);
      if target.None? {
        NoPairMeansStuck(state, blocks);
        return Failure(NoMergeablePair(ret));
      }
      var (i, j) := target.value;
      var a, b := blocks[i], blocks[j];
      assert MergeableAsWritten(state.blocks[a], state.blocks[b]);
      assert ChosenFrom(state, blocks, i, j, Merge(a, b));
      MergeChoicesStep(initial, ret, state, blocks, i, j, Merge(a, b));
      MergeLowersActiveCount(state, a, b);
      var next := Simulate(state, Merge(a, b)).value;
      ExecuteAppend(initial, ret, [Merge(a, b)]);
      assert Execute(state, [Merge(a, b)]) == Some(next);
      ret := ret + [Merge(a, b)];
      state := next;
      n := ActiveBlockNum(state);
    }
    var id := MergedBlockId(state);
    if id.None? {
      return Failure(NotExactlyOneActive);
    }
    assert id.value in state.blocks;
    var p := ret + [Color(id.value, WHITE)];
    assert p[..|p| - 1] == ret;
    ExecuteAppend(initial, ret, [Color(id.value, WHITE)]);
    assert Execute(state, [Color(id.value, WHITE)]).Some?;
    return Success(p);
  }
}

=== FILE: put_run.dfy ===
/** `putRun` (`db.ts`): parse the target into the set of problem ids,
    write the run header, and hand one payload per id to the worker. The
    store and the worker invocations are outputs here: the header item and
    the list of payloads, in the order `Array.from` lists the set. */
module PutRun {

  import opened Wrappers
  import opened Strings
  import opened Js
  import opened Items
  import opened RunKeys
  import opened RunSchema

  // ---------------------------------------------------------------------
  // A JavaScript Set of numbers

  predicate NoDuplicates(xs: seq<JsNum>)
  {
    forall i, j :: 0 <= i < j < |xs| ==> xs[i] != xs[j]
  }

  /** `ids.add(x)` on a Set kept as its insertion-ordered contents; a Set
      treats NaN as equal to itself, as the datatype does. */
  function SetAdd(ids: seq<JsNum>, x: JsNum): (r: seq<JsNum>)
    ensures x in r && ids <= r
    ensures forall y :: y in r <==> y in ids || y == x
    ensures NoDuplicates(ids) ==> NoDuplicates(r)
  {
    if x in ids then ids else ids + [x]
  }

  /** `for (let i = from; i <= to; i++) ids.add(i)`. */
  function AddRange(ids: seq<JsNum>, from: int, to: int): (r: seq<JsNum>)
    ensures ids <= r
    ensures forall y :: y in r <==> y in ids || (y.Num? && from <= y.value <= to)
    ensures NoDuplicates(ids) ==> NoDuplicates(r)
    decreases if from <= to then to - from + 1 else 0
  {
    if from > to then ids else AddRange(SetAdd(ids, Num(from)), from + 1, to)
  }

  /** One comma-separated token: with a '-', the inclusive range between
      the numbers before the first '-' and after it (up to any second '-'),
      none when either is NaN since every comparison with NaN fails;
      without one, the single number, which may be NaN. */
  function AddToken(ids: seq<JsNum>, ps: string): seq<JsNum>
  {
    if '-' in ps then
      var pieces := Split(ps, '-');
      assert |pieces| >= 2;
      var from := ParseInt(pieces[0]);
      var to := ParseInt(pieces[1]);
      if from.Num? && to.Num? then AddRange(ids, from.value, to.value) else ids
    else SetAdd(ids, ParseInt(ps))
  }

  function AddTokens(ids: seq<JsNum>, tokens: seq<string>): seq<JsNum>
    decreases |tokens|
  {
    if |tokens| == 0 then ids else AddTokens(AddToken(ids, tokens[0]), tokens[1..])
  }

  /** The problem-id parse of `putRun`, in insertion order. */
  function TargetIds(target: string): seq<JsNum>
  {
    AddTokens([], Split(target, ','))
  }

  // ---------------------------------------------------------------------
  // What the parse yields

  /** The ids one token names, as a set. */
  predicate InToken(x: JsNum, ps: string)
  {
    if '-' in ps then
      var pieces := Split(ps, '-');
      && |pieces| >= 2
      && ParseInt(pieces[0]).Num? && ParseInt(pieces[1]).Num? && x.Num?
      && ParseInt(pieces[0]).value <= x.value <= ParseInt(pieces[1]).value
    else x == ParseInt(ps)
  }

  /** The ids some token of the list names. */
  predicate InSomeToken(x: JsNum, tokens: seq<string>)
  {
    exists k :: 0 <= k < |tokens| && InToken(x, tokens[k])
  }

  lemma AddTokenSpec(ids: seq<JsNum>, ps: string)
    ensures ids <= AddToken(ids, ps)
    ensures forall y :: y in AddToken(ids, ps) <==> y in ids || InToken(y, ps)
    ensures NoDuplicates(ids) ==> NoDuplicates(AddToken(ids, ps))
  {
  }

  lemma {:induction false} AddTokensSpec(ids: seq<JsNum>, tokens: seq<string>)
    ensures ids <= AddTokens(ids, tokens)
    ensures forall y :: y in AddTokens(ids, tokens) <==> y in ids || InSomeToken(y, tokens)
    ensures NoDuplicates(ids) ==> NoDuplicates(AddTokens(ids, tokens))
    decreases |tokens|
  {
    if |tokens| > 0 {
      var next := AddToken(ids, tokens[0]);
      AddTokenSpec(ids, tokens[0]);
      AddTokensSpec(next, tokens[1..]);
      forall y
        ensures y in AddTokens(ids, tokens) <==> y in ids || InSomeToken(y, tokens)
      {
        if exists k :: 0 <= k < |tokens| && InToken(y, tokens[k]) {
          var k :| 0 <= k < |tokens| && InToken(y, tokens[k]);
          if k > 0 {
            assert tokens[1..][k - 1] == tokens[k];
          }
        }
        if exists k :: 0 <= k < |tokens[1..]| && InToken(y, tokens[1..][k]) {
          var k :| 0 <= k < |tokens[1..]| && InToken(y, tokens[1..][k]);
          assert tokens[k + 1] == tokens[1..][k];
        }
      }
    }
  }

  /** The parse is the union over the comma tokens of the single number or
      the inclusive range each names, each id listed once. */
  lemma TargetIdsSpec(target: string)
    ensures NoDuplicates(TargetIds(target))
    ensures forall y :: y in TargetIds(target) <==> InSomeToken(y, Split(target, ','))
  {
    var tokens := Split(target, ',');
    var empty: seq<JsNum> := [];
    assert NoDuplicates(empty);
    assert forall y :: y !in empty;
    AddTokensSpec(empty, tokens);
    assert TargetIds(target) == AddTokens(empty, tokens);
  }

  /** Every id a valid target names is a number, at least 1. */
  lemma ValidTargetIds(target: string)
    requires TargetValid(target)
    ensures forall y :: y in TargetIds(target) ==> y.Num? && y.value >= 1
  {
    TargetIdsSpec(target);
    var tokens := Split(target, ',');
    forall y | y in TargetIds(target)
      ensures y.Num? && y.value >= 1
    {
      var k :| 0 <= k < |tokens| && InToken(y, tokens[k]);
      ValidTokenIds(tokens[k], y);
    }
  }

  lemma ValidTokenIds(t: string, y: JsNum)
    requires IsTargetToken(t) && InToken(y, t)
    ensures y.Num? && y.value >= 1
  {
    if '-' in t {
      var k := IndexOf(t, '-');
      RangeTokenSplits(t);
      NumeralParses(t[..k]);
    } else {
      NumeralParses(t);
    }
  }

  /** A range token splits at its '-' into its two numerals. */
  lemma RangeTokenSplits(t: string)
    requires IsTargetToken(t) && '-' in t
    ensures Split(t, '-') == [t[..IndexOf(t, '-')], t[IndexOf(t, '-') + 1..]]
  {
    var k := IndexOf(t, '-');
    var a := t[..k];
    var b := t[k + 1..];
    RangeTokenShape(t);
    DigitsHaveNoDash(a);
    DigitsHaveNoDash(b);
    assert t == a + ['-'] + b;
    SplitAtSeparator(a, '-', b);
  }

  lemma DigitsHaveNoDash(s: string)
    requires AllDigits(s)
    ensures '-' !in s
  {
  }

  /** A positive numeral parses to its positive value. */
  lemma NumeralParses(s: string)
    requires IsPositiveNumeral(s)
    ensures ParseInt(s) == Num(DigitsValue(s)) && DigitsValue(s) >= 1
  {
    ParseIntDigitsThen(s, "");
    assert s + "" == s;
    LeadingNonZeroPositive(s);
  }

  /** Duplicates collapse and the first occurrence fixes the order:
      "5,5,2-2" names 5 then 2. */
  lemma TargetIdsExample()
    ensures TargetIds("5,5,2-2") == [Num(5), Num(2)]
  {
    var tokens := ["5", "5", "2-2"];
    SplitJoin(tokens, ',');
    assert Join(tokens, ',') == "5,5,2-2";
    SingleFive();
    RangeTwoTwo();
    var a := AddToken([], "5");
    var b := AddToken(a, "5");
    var c := AddToken(b, "2-2");
    assert tokens[1..] == ["5", "2-2"] && tokens[1..][1..] == ["2-2"];
    assert AddTokens(c, []) == c;
    assert AddTokens(b, ["2-2"]) == c;
    assert AddTokens(a, ["5", "2-2"]) == AddTokens(b, ["2-2"]);
    assert AddTokens([], tokens) == AddTokens(a, tokens[1..]);
  }

  lemma SingleFive()
    ensures AddToken([], "5") == [Num(5)]
    ensures AddToken([Num(5)], "5") == [Num(5)]
  {
    NumeralParses("5");
    assert '-' !in "5";
  }

  lemma RangeTwoTwo()
    ensures AddToken([Num(5)], "2-2") == [Num(5), Num(2)]
  {
    NumeralParses("2");
    assert "2-2" == "2" + ['-'] + "2";
    SplitAtSeparator("2", '-', "2");
    assert '-' in "2-2" by { assert "2-2"[1] == '-'; }
    assert AddRange([Num(5)], 2, 2) == [Num(5), Num(2)];
  }

  /** A range whose end is below its start names nothing. */
  lemma DescendingRangeIsEmpty(ids: seq<JsNum>, a: nat, b: nat)
    requires a > b
    ensures AddToken(ids, NatToString(a) + "-" + NatToString(b)) == ids
  {
    var sa := NatToString(a);
    var sb := NatToString(b);
    var t := sa + "-" + sb;
    DigitsHaveNoDash(sa);
    DigitsHaveNoDash(sb);
    assert t == sa + ['-'] + sb;
    SplitAtSeparator(sa, '-', sb);
    assert t[|sa|] == '-';
    ParseIntOfNat(a);
    ParseIntOfNat(b);
  }

  // ---------------------------------------------------------------------
  // The run header and the worker payloads

  const RUN_TIME_INDEX := "R.Time"

  /** `Math.floor(ms / 1000)` for a clock reading in milliseconds. */
  function EpochSeconds(nowMs: nat): nat
  {
    nowMs / 1000
  }

  /** The header item of a new run. */
  function RunHeader(uuid: string, args: string, target: string, nowMs: nat): Item
  {
    [ Entry("PK", S(RunKey(uuid))),
      Entry("SK", S(RunKey(uuid))),
      Entry("Args", S(args)),
      Entry("Target", S(target)),
      Entry("GSI1PK", S(RUN_TIME_INDEX)),
      Entry("GSI1SK", N(NatToString(EpochSeconds(nowMs)))) ]
  }

  /** The header is keyed PK = SK = "R#"+uuid, indexed under "R.Time" by
      the creation second, and carries the submission as given. */
  lemma RunHeaderFields(uuid: string, args: string, target: string, nowMs: nat)
    ensures var h := RunHeader(uuid, args, target, nowMs);
            && DistinctNames(h)
            && Get(h, "PK") == Some(S(RUN_PREFIX + uuid))
            && Get(h, "SK") == Some(S(RUN_PREFIX + uuid))
            && Get(h, "Args") == Some(S(args))
            && Get(h, "Target") == Some(S(target))
            && Get(h, "GSI1PK") == Some(S("R.Time"))
            && Get(h, "GSI1SK") == Some(N(NatToString(nowMs / 1000)))
  {
    var h := RunHeader(uuid, args, target, nowMs);
    var names := ["PK", "SK", "Args", "Target", "GSI1PK", "GSI1SK"];
    assert forall k :: 0 <= k < 6 ==> h[k].name == names[k];
    assert DistinctNames(h);
    GetAt(h, 0);
    GetAt(h, 1);
    GetAt(h, 2);
    GetAt(h, 3);
    GetAt(h, 4);
    GetAt(h, 5);
  }

  /** A fresh header records no problem scores. */
  lemma RunHeaderHasNoScores(uuid: string, args: string, target: string, nowMs: nat)
    ensures var h := RunHeader(uuid, args, target, nowMs);
            forall k :: 0 <= k < |h| ==> !StartsWith(h[k].name, SOLUTION_PREFIX)
  {
    var h := RunHeader(uuid, args, target, nowMs);
    forall k | 0 <= k < |h|
      ensures !StartsWith(h[k].name, SOLUTION_PREFIX)
    {
      assert h[k].name[0] != 'S' || h[k].name[1] != '#';
    }
  }

  /** The JSON payload handed to the worker for one problem. */
  datatype Payload = Payload(problemId: string, args: string, runId: string)

  function Payloads(ids: seq<JsNum>, args: string, uuid: string): (ps: seq<Payload>)
    ensures |ps| == |ids|
    ensures forall k :: 0 <= k < |ids| ==> ps[k] == Payload(NumberToString(ids[k]), args, uuid)
  {
    seq(|ids|, k requires 0 <= k < |ids| => Payload(NumberToString(ids[k]), args, uuid))
  }

  /** Everything `putRun` sends: one header, then the payloads. */
  datatype Effects = Effects(header: Item, payloads: seq<Payload>)

  function PutRun(uuid: string, args: string, target: string, nowMs: nat): Effects
  {
    Effects(RunHeader(uuid, args, target, nowMs), Payloads(TargetIds(target), args, uuid))
  }

  /** For a valid target: exactly one payload per distinct problem id, each
      naming the problem in decimal, so the worker reads back the id. */
  lemma PutRunPayloads(uuid: string, args: string, target: string, nowMs: nat)
    requires TargetValid(target)
    ensures var ps := PutRun(uuid, args, target, nowMs).payloads;
            var ids := TargetIds(target);
            && |ps| == |ids|
            && (forall i, j :: 0 <= i < j < |ps| ==> ps[i].problemId != ps[j].problemId)
            && (forall k :: 0 <= k < |ps| ==>
                  && ps[k].args == args && ps[k].runId == uuid
                  && ids[k].Num? && ParseInt(ps[k].problemId) == ids[k])
  {
    var ps := PutRun(uuid, args, target, nowMs).payloads;
    var ids := TargetIds(target);
    TargetIdsSpec(target);
    ValidTargetIds(target);
    forall k | 0 <= k < |ps|
      ensures ids[k].Num? && ParseInt(ps[k].problemId) == ids[k]
    {
      ParseIntOfNumberToString(ids[k]);
    }
    forall i, j | 0 <= i < j < |ps|
      ensures ps[i].problemId != ps[j].problemId
    {
      ParseIntOfNumberToString(ids[i]);
      ParseIntOfNumberToString(ids[j]);
    }
  }
}

=== FILE: raster.dfy ===
/** `SimpleBlock::partial_rasterize` and `rasterize`: painting one block's
    colour into an image, clipped to a window and to the image. The source
    converts signed coordinates to `usize` before clipping, so a negative
    coordinate wraps to a huge value; the model keeps that conversion. */
module Raster {

  import opened Isl
  import opened Simulator

  /** Rows of pixels, indexed `img[y][x]`. */
  type Image = seq<seq<Rgba>>

  /** `Image::width` reads the first row, so an image has at least one row,
      and every row has that width. */
  predicate IsImage(img: Image)
  {
    |img| >= 1 && forall y :: 0 <= y < |img| ==> |img[y]| == |img[0]|
  }

  function Width(img: Image): nat
    requires |img| >= 1
  {
    |img[0]|
  }

  const USIZE_MODULUS: int := 0x1_0000_0000_0000_0000

  /** Rust's `as usize` on a signed value: two's-complement wrap-around. */
  function AsUsize(v: int): (u: nat)
    ensures 0 <= v < USIZE_MODULUS ==> u == v
    ensures v < 0 && -USIZE_MODULUS <= v ==> u == v + USIZE_MODULUS
  {
    v % USIZE_MODULUS
  }

  function Min(a: int, b: int): int
  {
    if a <= b then a else b
  }

  function Max(a: int, b: int): int
  {
    if a >= b then a else b
  }

  /** The rows `top..bottom` and columns `left..right` the source loops over. */
  datatype Window = Window(top: int, bottom: int, left: int, right: int)
  {
    predicate Contains(y: int, x: int)
    {
      top <= y < bottom && left <= x < right
    }
  }

  function PaintWindow(b: SimpleBlock, p: Point, size: Point, img: Image): (win: Window)
    requires IsImage(img)
    ensures win.bottom <= |img| && win.right <= Width(img)
    ensures win.top >= 0 && win.left >= 0
  {
    var w := Min(AsUsize(p.x + size.x), Width(img));
    var h := Min(AsUsize(p.y + size.y), |img|);
    Window(Max(AsUsize(p.y), AsUsize(b.p.y)), Min(h, AsUsize(b.p.y + b.size.y)),
           Max(AsUsize(p.x), AsUsize(b.p.x)), Min(w, AsUsize(b.p.x + b.size.x)))
  }

  /** A deleted block and a block of `INVALID_COLOR` paint nothing. */
  predicate Paints(b: SimpleBlock)
  {
    b.state != Deleted && b.color != INVALID_COLOR
  }

  predicate SameShape(a: Image, b: Image)
  {
    |a| == |b| && forall y :: 0 <= y < |a| ==> |a[y]| == |b[y]|
  }

  /** Every pixel of the window becomes the block's colour when the block
      paints at all; every other pixel keeps its value. */
  method PartialRasterize(b: SimpleBlock, p: Point, size: Point, img: Image) returns (out: Image)
    requires IsImage(img)
    ensures SameShape(out, img) && IsImage(out)
    ensures forall y, x :: 0 <= y < |img| && 0 <= x < Width(img) ==>
              out[y][x] == (if Paints(b) && PaintWindow(b, p, size, img).Contains(y, x) then b.color else img[y][x])
  {
    out := img;
    if b.state == Deleted || b.color == INVALID_COLOR {
      return;
    }
    var win := PaintWindow(b, p, size, img);
    var y := win.top;
    while y < win.bottom
      invariant win.top <= y && (y <= win.bottom || y == win.top)
      invariant SameShape(out, img)
      invariant forall yy, x :: 0 <= yy < |img| && 0 <= x < Width(img) ==>
                  out[yy][x] == (if win.top <= yy < y && win.left <= x < win.right then b.color else img[yy][x])
    {
      var x := win.left;
      while x < win.right
        invariant win.left <= x && (x <= win.right || x == win.left)
        invariant SameShape(out, img)
        invariant forall yy, xx :: 0 <= yy < |img| && 0 <= xx < Width(img) ==>
                    out[yy][xx] == (if (win.top <= yy < y && win.left <= xx < win.right)
                                       || (yy == y && win.left <= xx < x) then b.color else img[yy][xx])
      {
        out := out[y := out[y][x := b.color]];
        x := x + 1;
      }
      y := y + 1;
    }
  }

  /** `rasterize`: the window is the whole image. */
  method Rasterize(b: SimpleBlock, img: Image) returns (out: Image)
    requires IsImage(img)
    ensures SameShape(out, img)
    ensures forall y, x :: 0 <= y < |img| && 0 <= x < Width(img) ==>
              out[y][x] == (if Paints(b) && PaintWindow(b, Point(0, 0), Point(Width(img), |img|), img).Contains(y, x)
                            then b.color else img[y][x])
  {
    out := PartialRasterize(b, Point(0, 0), Point(Width(img), |img|), img);
  }

  /** With non-negative coordinates that fit a `usize`, the window is the
      intersection of the clip rectangle, the block and the image. */
  lemma WindowIsIntersection(b: SimpleBlock, p: Point, size: Point, img: Image, y: int, x: int)
    requires IsImage(img)
    requires p.x >= 0 && p.y >= 0 && b.p.x >= 0 && b.p.y >= 0
    requires size.x >= 0 && size.y >= 0 && WellFormed(b)
    requires p.x + size.x < USIZE_MODULUS && p.y + size.y < USIZE_MODULUS
    requires b.p.x + b.size.x < USIZE_MODULUS && b.p.y + b.size.y < USIZE_MODULUS
    ensures PaintWindow(b, p, size, img).Contains(y, x)
            <==> && Covers(b, x, y)
                 && p.x <= x < p.x + size.x && p.y <= y < p.y + size.y
                 && 0 <= y < |img| && 0 <= x < Width(img)
  {
  }

  /** A block whose corner has a negative coordinate is not painted at all:
      the corner wraps to a value beyond any image. */
  lemma NegativeCornerPaintsNothing(b: SimpleBlock, p: Point, size: Point, img: Image, y: int, x: int)
    requires IsImage(img) && |img| < USIZE_MODULUS / 2 && Width(img) < USIZE_MODULUS / 2
    requires -USIZE_MODULUS / 2 <= b.p.y < 0
    ensures !PaintWindow(b, p, size, img).Contains(y, x)
  {
  }
}

=== FILE: readers.dfy ===
/** The read side of the run store (`db.ts`): `fetchRun` gathers a run's
    header and solutions, `fetchRunList` summarises every run from its
    header alone, and `fetchSolutionList` lists the solutions of one
    problem. The store queries become their results, given as input: `None`
    when the query returned no item list. Reading a property of an absent
    attribute throws, which is a `Failure` here. */
module Readers {

  import opened Wrappers
  import opened Strings
  import opened Js
  import opened Items
  import opened RunKeys
  import opened PutRun

  /** `parseInt` of a value that may be undefined: `parseInt(undefined)`
      reads the string "undefined" and gives NaN. */
  function ParseMaybe(s: Option<string>): JsNum
  {
    match s
    case None => NaN
    case Some(t) => ParseInt(t)
  }

  /** `s ? parseInt(s, 10) : null` on an optional numeric attribute: null
      when it is absent, not a number, or the empty string. */
  function OptionalNumber(item: Item, name: string): Option<JsNum>
  {
    match Get(item, name)
    case None => None
    case Some(a) =>
      if a.N? && |a.num| > 0 then Some(ParseInt(a.num)) else None
  }

  /** `item[name]["S"]!`. */
  function StrField(item: Item, name: string): Result<Option<string>, string>
  {
    var a :- Field(item, name);
    Success(StrOf(a))
  }

  /** `parseInt(item[name]["N"]!, 10)`. */
  function NumField(item: Item, name: string): Result<JsNum, string>
  {
    var a :- Field(item, name);
    Success(ParseMaybe(NumOf(a)))
  }

  /** `item[name]["S"]!` followed by a string method call, which throws
      when the value is undefined. */
  function StrRequired(item: Item, name: string): Result<string, string>
  {
    var a :- Field(item, name);
    match StrOf(a)
    case None => Failure("TypeError: cannot read properties of undefined")
    case Some(s) => Success(s)
  }

  /** `parseInt(key.split("#")[1], 10)`. */
  function KeyNumber(key: string): JsNum
  {
    ParseMaybe(SecondField(key))
  }

  // ---------------------------------------------------------------------
  // fetchRun

  datatype ResultRow = ResultRow(problemId: JsNum, score: JsNum, commit: Option<string>,
                                 date: Option<JsNum>, time: Option<JsNum>)

  datatype RunResult = RunResult(id: string, time: JsNum, args: Option<string>, score: JsNum,
                                 target: Option<string>, results: seq<ResultRow>)

  /** The row a solution item ("S…" sort key) contributes. */
  function SolutionRow(item: Item, sk: string): Result<ResultRow, string>
  {
    var commit :- StrField(item, "Commit");
    var score :- NumField(item, "GSI1SK");
    Success(ResultRow(KeyNumber(sk), score, commit,
                      OptionalNumber(item, "ExecDate"), OptionalNumber(item, "ExecTime")))
  }

  /** One iteration of the loop of `fetchRun`: an "R…" item sets the header
      fields, an "S…" item adds its row and its score. */
  function FoldRunItem(acc: RunResult, item: Item): Result<RunResult, string>
  {
    var sk :- StrRequired(item, "SK");
    var acc1 :-
      if StartsWith(sk, "R") then
        var time :- NumField(item, "GSI1SK");
        var args :- StrField(item, "Args");
        var target :- StrField(item, "Target");
        Success(acc.(time := time, args := args, target := target))
      else Success(acc);
    if StartsWith(sk, "S") then
      var row :- SolutionRow(item, sk);
      Success(acc1.(score := Add(acc1.score, row.score), results := acc1.results + [row]))
    else Success(acc1)
  }

  function FoldRunItems(acc: RunResult, items: seq<Item>): Result<RunResult, string>
    decreases |items|
  {
    if |items| == 0 then Success(acc)
    else
      var next :- FoldRunItem(acc, items[0]);
      FoldRunItems(next, items[1..])
  }

  /** `fetchRun`: fold the items into a result that starts empty, then sort
      the rows by problem id. */
  function FetchRun(id: string, items: Option<seq<Item>>): Result<RunResult, string>
  {
    match items
    case None => Failure("failed to fetch result: " + id)
    case Some(xs) =>
      var r :- FoldRunItems(RunResult(id, Num(0), Some(""), Num(0), Some(""), []), xs);
      Success(r.(results := SortByProblem(r.results)))
  }

  // ---------------------------------------------------------------------
  // Sorting by `(a, b) => a.problemId - b.problemId`

  /** The comparator says a goes after b: `a - b > 0`, never true when
      either id is NaN. */
  predicate After(a: ResultRow, b: ResultRow)
  {
    Greater(a.problemId, b.problemId)
  }

  /** Inserts a row after every row it does not go before. */
  function Insert(row: ResultRow, sorted: seq<ResultRow>): (r: seq<ResultRow>)
    ensures multiset(r) == multiset(sorted) + multiset{row}
  {
    if |sorted| == 0 then [row]
    else if After(sorted[0], row) then [row] + sorted
    else
      var rest := Insert(row, sorted[1..]);
      assert sorted == [sorted[0]] + sorted[1..];
      [sorted[0]] + rest
  }

  /** A stable insertion sort with the source's comparator. */
  function SortByProblem(rows: seq<ResultRow>): (r: seq<ResultRow>)
    ensures multiset(r) == multiset(rows)
  {
    if |rows| == 0 then []
    else
      assert rows == rows[..|rows| - 1] + [rows[|rows| - 1]];
      Insert(rows[|rows| - 1], SortByProblem(rows[..|rows| - 1]))
  }

  predicate AllNumbered(rows: seq<ResultRow>)
  {
    forall k :: 0 <= k < |rows| ==> rows[k].problemId.Num?
  }

  predicate SortedByProblem(rows: seq<ResultRow>)
    requires AllNumbered(rows)
  {
    forall i, j :: 0 <= i < j < |rows| ==> rows[i].problemId.value <= rows[j].problemId.value
  }

  lemma {:induction false} InsertSorted(row: ResultRow, sorted: seq<ResultRow>)
    requires row.problemId.Num? && AllNumbered(sorted) && SortedByProblem(sorted)
    ensures AllNumbered(Insert(row, sorted)) && SortedByProblem(Insert(row, sorted))
  {
    if |sorted| == 0 {
    } else if After(sorted[0], row) {
      SortedCons(row, sorted);
    } else {
      InsertSorted(row, sorted[1..]);
      InsertLowerBound(row, sorted[1..], sorted[0].problemId.value);
      SortedCons(sorted[0], Insert(row, sorted[1..]));
    }
  }

  /** A row no greater than every row of a sorted list goes in front. */
  lemma SortedCons(x: ResultRow, xs: seq<ResultRow>)
    requires x.problemId.Num? && AllNumbered(xs) && SortedByProblem(xs)
    requires forall k :: 0 <= k < |xs| ==> x.problemId.value <= xs[k].problemId.value
    ensures AllNumbered([x] + xs) && SortedByProblem([x] + xs)
  {
    var r := [x] + xs;
    forall i, j | 0 <= i < j < |r|
      ensures r[i].problemId.value <= r[j].problemId.value
    {
      if i > 0 {
        assert r[i] == xs[i - 1] && r[j] == xs[j - 1];
      }
    }
  }

  /** Inserting a row keeps a lower bound that it and the others meet. */
  lemma {:induction false} InsertLowerBound(row: ResultRow, sorted: seq<ResultRow>, lo: int)
    requires row.problemId.Num? && row.problemId.value >= lo
    requires AllNumbered(sorted) && forall k :: 0 <= k < |sorted| ==> sorted[k].problemId.value >= lo
    ensures AllNumbered(Insert(row, sorted))
    ensures forall k :: 0 <= k < |Insert(row, sorted)| ==> Insert(row, sorted)[k].problemId.value >= lo
  {
    if |sorted| > 0 && !After(sorted[0], row) {
      InsertLowerBound(row, sorted[1..], lo);
    }
  }

  /** With every problem id a number, the rows come out in ascending order
      of problem id; in all cases they are the same rows. */
  lemma {:induction false} SortByProblemSorted(rows: seq<ResultRow>)
    requires AllNumbered(rows)
    ensures AllNumbered(SortByProblem(rows)) && SortedByProblem(SortByProblem(rows))
  {
    if |rows| > 0 {
      var init := rows[..|rows| - 1];
      assert AllNumbered(init);
      SortByProblemSorted(init);
      InsertSorted(rows[|rows| - 1], SortByProblem(init));
    }
  }

  /** The sum of the rows' scores, NaN as soon as one is NaN. */
  function ScoreSum(rows: seq<ResultRow>): JsNum
  {
    if |rows| == 0 then Num(0) else Add(ScoreSum(rows[..|rows| - 1]), rows[|rows| - 1].score)
  }

  lemma {:induction false} ScoreSumCons(row: ResultRow, rows: seq<ResultRow>)
    ensures ScoreSum([row] + rows) == Add(row.score, ScoreSum(rows))
    decreases |rows|
  {
    var all := [row] + rows;
    if |rows| > 0 {
      assert all[..|all| - 1] == [row] + rows[..|rows| - 1];
      ScoreSumCons(row, rows[..|rows| - 1]);
    } else {
      assert all[..0] == [];
    }
  }

  lemma {:induction false} InsertScoreSum(row: ResultRow, sorted: seq<ResultRow>)
    ensures ScoreSum(Insert(row, sorted)) == Add(row.score, ScoreSum(sorted))
    decreases |sorted|
  {
    if |sorted| == 0 {
      ScoreSumCons(row, []);
    } else if After(sorted[0], row) {
      ScoreSumCons(row, sorted);
    } else {
      InsertScoreSum(row, sorted[1..]);
      ScoreSumCons(sorted[0], Insert(row, sorted[1..]));
      ScoreSumCons(sorted[0], sorted[1..]);
      assert sorted == [sorted[0]] + sorted[1..];
    }
  }

  /** Sorting keeps the total. */
  lemma {:induction false} SortKeepsScoreSum(rows: seq<ResultRow>)
    ensures ScoreSum(SortByProblem(rows)) == ScoreSum(rows)
  {
    if |rows| > 0 {
      var init := rows[..|rows| - 1];
      SortKeepsScoreSum(init);
      InsertScoreSum(rows[|rows| - 1], SortByProblem(init));
    }
  }

  // ---------------------------------------------------------------------
  // What fetchRun reports

  /** The fold keeps the running score equal to the sum of the rows so
      far, and only ever appends rows. */
  lemma {:induction false} FoldRunItemsScore(acc: RunResult, items: seq<Item>)
    requires acc.score == ScoreSum(acc.results)
    ensures var r := FoldRunItems(acc, items);
            r.Success? ==> r.value.score == ScoreSum(r.value.results) && acc.results <= r.value.results
    decreases |items|
  {
    if |items| > 0 {
      var next := FoldRunItem(acc, items[0]);
      FoldRunItemShape(acc, items[0]);
      if next.Success? {
        var n := next.value;
        if n.results != acc.results {
          assert n.results[..|n.results| - 1] == acc.results;
        }
        FoldRunItemsScore(n, items[1..]);
      }
    }
  }

  /** One item either leaves the rows and the score alone, or appends one
      row and adds its score. */
  lemma FoldRunItemShape(acc: RunResult, item: Item)
    ensures var r := FoldRunItem(acc, item);
            r.Success? ==>
              || (r.value.results == acc.results && r.value.score == acc.score)
              || (&& |r.value.results| == |acc.results| + 1
                  && r.value.results[..|acc.results|] == acc.results
                  && acc.results <= r.value.results
                  && r.value.score == Add(acc.score, r.value.results[|acc.results|].score))
  {
    var r := FoldRunItem(acc, item);
    if r.Success? {
      var sk := StrRequired(item, "SK").value;
      if StartsWith(sk, "S") {
        var row := SolutionRow(item, sk).value;
        assert (acc.results + [row])[..|acc.results|] == acc.results;
      }
    }
  }

  /** The total score of a run is the sum of its rows' scores, the rows
      are the solution items' rows, and an empty answer is a zero score. */
  lemma FetchRunScore(id: string, items: Option<seq<Item>>)
    ensures items.None? ==> FetchRun(id, items).Failure?
    ensures items == Some([]) ==> FetchRun(id, items) == Success(RunResult(id, Num(0), Some(""), Num(0), Some(""), []))
    ensures var r := FetchRun(id, items);
            r.Success? ==> r.value.score == ScoreSum(r.value.results) && r.value.id == id
  {
    if items.Some? {
      var start := RunResult(id, Num(0), Some(""), Num(0), Some(""), []);
      FoldRunItemsScore(start, items.value);
      var f := FoldRunItems(start, items.value);
      if f.Success? {
        SortKeepsScoreSum(f.value.results);
        FoldRunItemsId(start, items.value);
      }
    }
  }

  lemma {:induction false} FoldRunItemsId(acc: RunResult, items: seq<Item>)
    ensures var r := FoldRunItems(acc, items); r.Success? ==> r.value.id == acc.id
    decreases |items|
  {
    if |items| > 0 {
      var next := FoldRunItem(acc, items[0]);
      if next.Success? {
        FoldRunItemsId(next.value, items[1..]);
      }
    }
  }

  /** The first letter of a key tells a header from a solution. */
  lemma KeyTags(id: string)
    ensures StartsWith(RunKey(id), "R") && !StartsWith(RunKey(id), "S")
    ensures StartsWith(SolutionKey(id), "S") && !StartsWith(SolutionKey(id), "R")
  {
    assert RunKey(id)[..1] == "R" by {
      assert RunKey(id)[0] == 'R';
    }
    assert SolutionKey(id)[..1] == "S" by {
      assert SolutionKey(id)[0] == 'S';
    }
  }

  /** An item whose sort key starts with "R" sets the header fields. */
  lemma FoldHeaderItem(acc: RunResult, item: Item, sk: string, time: string, args: string, target: string)
    requires Get(item, "SK") == Some(S(sk)) && StartsWith(sk, "R") && !StartsWith(sk, "S")
    requires Get(item, "GSI1SK") == Some(N(time))
    requires Get(item, "Args") == Some(S(args)) && Get(item, "Target") == Some(S(target))
    ensures FoldRunItem(acc, item)
              == Success(acc.(time := ParseInt(time), args := Some(args), target := Some(target)))
  {
  }

  /** An item whose sort key starts with "S" adds a row and its score. */
  lemma FoldScoreItem(acc: RunResult, item: Item, sk: string, score: string, commit: string,
                      date: Option<JsNum>, time: Option<JsNum>)
    requires Get(item, "SK") == Some(S(sk)) && StartsWith(sk, "S") && !StartsWith(sk, "R")
    requires Get(item, "GSI1SK") == Some(N(score)) && Get(item, "Commit") == Some(S(commit))
    requires OptionalNumber(item, "ExecDate") == date && OptionalNumber(item, "ExecTime") == time
    ensures FoldRunItem(acc, item)
              == Success(acc.(score := Add(acc.score, ParseInt(score)),
                              results := acc.results + [ResultRow(KeyNumber(sk), ParseInt(score), Some(commit), date, time)]))
  {
  }

  /** Reading back a header written by `putRun` sets the run's creation
      second, arguments and target and adds no row. */
  lemma FoldRunHeader(acc: RunResult, uuid: string, args: string, target: string, nowMs: nat)
    ensures FoldRunItem(acc, RunHeader(uuid, args, target, nowMs))
              == Success(acc.(time := Num(EpochSeconds(nowMs)), args := Some(args), target := Some(target)))
  {
    var h := RunHeader(uuid, args, target, nowMs);
    var t := EpochSeconds(nowMs);
    RunHeaderFields(uuid, args, target, nowMs);
    assert Get(h, "SK") == Some(S(RunKey(uuid)));
    KeyTags(uuid);
    assert Get(h, "GSI1SK") == Some(N(NatToString(t)));
    ParseIntOfNat(t);
    FoldHeaderItem(acc, h, RunKey(uuid), NatToString(t), args, target);
  }

  /** Reading back a solution item written by the worker appends its row
      and adds its score to the run's total. */
  lemma FoldSolutionItem(acc: RunResult, runId: string, problemId: nat, score: int, ai: string,
                         commit: string, elapsed: nat, now: nat)
    ensures FoldRunItem(acc, SolutionItem(runId, NatToString(problemId), score, ai, commit, elapsed, now))
              == Success(acc.(score := Add(acc.score, Num(score)),
                              results := acc.results + [ResultRow(Num(problemId), Num(score), Some(commit),
                                                                  Some(Num(now)), Some(Num(elapsed)))]))
  {
    var pid := NatToString(problemId);
    var item := SolutionItem(runId, pid, score, ai, commit, elapsed, now);
    SolutionItemFields(runId, pid, score, ai, commit, elapsed, now);
    assert '#' !in pid by {
      assert forall i :: 0 <= i < |pid| ==> IsDigit(pid[i]);
    }
    SolutionKeyDecodes(pid);
    KeyTags(pid);
    ParseIntOfNat(problemId);
    ParseIntOfNumberToString(Num(score));
    OptionalNumberReads(item, "ExecDate", now);
    OptionalNumberReads(item, "ExecTime", elapsed);
    FoldScoreItem(acc, item, SolutionKey(pid), IntToString(score), commit, Some(Num(now)), Some(Num(elapsed)));
  }

  /** The rows `fetchRun` returns are ordered by problem id whenever every
      id parsed as a number. */
  lemma FetchRunSorted(id: string, items: Option<seq<Item>>)
    ensures var r := FetchRun(id, items);
            r.Success? && AllNumbered(r.value.results) ==> SortedByProblem(r.value.results)
  {
    var r := FetchRun(id, items);
    if r.Success? && AllNumbered(r.value.results) {
      var start := RunResult(id, Num(0), Some(""), Num(0), Some(""), []);
      var rows := FoldRunItems(start, items.value).value.results;
      assert r.value.results == SortByProblem(rows);
      forall k | 0 <= k < |rows|
        ensures rows[k].problemId.Num?
      {
        assert rows[k] in multiset(SortByProblem(rows));
      }
      SortByProblemSorted(rows);
    }
  }

  /** A run just created by `putRun` reads back with its creation second,
      its submission, no rows and a zero score. */
  lemma FetchNewRun(uuid: string, args: string, target: string, nowMs: nat)
    ensures FetchRun(uuid, Some([RunHeader(uuid, args, target, nowMs)]))
              == Success(RunResult(uuid, Num(EpochSeconds(nowMs)), Some(args), Num(0), Some(target), []))
  {
    var start := RunResult(uuid, Num(0), Some(""), Num(0), Some(""), []);
    FoldRunHeader(start, uuid, args, target, nowMs);
    FetchSingle(uuid, RunHeader(uuid, args, target, nowMs));
    assert SortByProblem([]) == [];
  }

  lemma FetchSingle(id: string, item: Item)
    ensures var f := FoldRunItem(RunResult(id, Num(0), Some(""), Num(0), Some(""), []), item);
            f.Success? ==> FetchRun(id, Some([item])) == Success(f.value.(results := SortByProblem(f.value.results)))
  {
    var start := RunResult(id, Num(0), Some(""), Num(0), Some(""), []);
    var f := FoldRunItem(start, item);
    if f.Success? {
      assert [item][1..] == [];
      assert FoldRunItems(f.value, []) == Success(f.value);
      assert FoldRunItems(start, [item]) == FoldRunItems(f.value, [item][1..]);
    }
  }

  // ---------------------------------------------------------------------
  // fetchRunList

  datatype RunSummary = RunSummary(id: Option<string>, time: JsNum, args: Option<string>,
                                   target: Option<string>, problems: nat, score: JsNum)

  /** The `for … of Object.entries(item)` loop: every attribute whose name
      starts with "S#" is one problem, and its number adds to the score. */
  function CountScores(entries: seq<Entry>): (r: (nat, JsNum))
  {
    if |entries| == 0 then (0, Num(0))
    else
      var (problems, score) := CountScores(entries[..|entries| - 1]);
      var e := entries[|entries| - 1];
      if StartsWith(e.name, SOLUTION_PREFIX) then (problems + 1, Add(score, ParseMaybe(NumOf(e.value))))
      else (problems, score)
  }

  /** `item["PK"]["S"]?.split("#")[1]`. */
  function RunIdOf(item: Item): Result<Option<string>, string>
  {
    var pk :- StrField(item, "PK");
    match pk
    case None => Success(None)
    case Some(k) => Success(SecondField(k))
  }

  function SummaryOf(item: Item): Result<RunSummary, string>
  {
    var (problems, score) := CountScores(item);
    var id :- RunIdOf(item);
    var time :- NumField(item, "GSI1SK");
    var args :- StrField(item, "Args");
    var target :- StrField(item, "Target");
    Success(RunSummary(id, time, args, target, problems, score))
  }

  function Summaries(items: seq<Item>): (r: Result<seq<RunSummary>, string>)
    ensures r.Success? <==> forall k :: 0 <= k < |items| ==> SummaryOf(items[k]).Success?
    ensures r.Success? ==> |r.value| == |items|
    ensures r.Success? ==> forall k :: 0 <= k < |items| ==> SummaryOf(items[k]) == Success(r.value[k])
  {
    if |items| == 0 then Success([])
    else
      var first :- SummaryOf(items[0]);
      var rest :- Summaries(items[1..]);
      Success([first] + rest)
  }

  /** `fetchRunList`: one summary per header, in the order of the index. */
  function FetchRunList(items: Option<seq<Item>>): Result<seq<RunSummary>, string>
  {
    match items
    case None => Success([])
    case Some(xs) => Summaries(xs)
  }

  /** The number of problems a header records. */
  function ScoreCount(item: Item): nat
  {
    if |item| == 0 then 0
    else ScoreCount(item[..|item| - 1]) + (if StartsWith(item[|item| - 1].name, SOLUTION_PREFIX) then 1 else 0)
  }

  lemma {:induction false} CountScoresCount(item: Item)
    ensures CountScores(item).0 == ScoreCount(item)
  {
    if |item| > 0 {
      CountScoresCount(item[..|item| - 1]);
    }
  }

  lemma {:induction false} ScoreCountNone(item: Item)
    requires forall k :: 0 <= k < |item| ==> !StartsWith(item[k].name, SOLUTION_PREFIX)
    ensures CountScores(item) == (0, Num(0))
  {
    if |item| > 0 {
      ScoreCountNone(item[..|item| - 1]);
    }
  }

  /** Recording a problem's score on a header adds one problem and its
      score when the problem is new, and otherwise replaces the old score
      without counting the problem twice. */
  lemma {:induction false} SaveScoreCounts(header: Item, problemId: string, score: int)
    requires DistinctNames(header)
    ensures var before := CountScores(header);
            var after := CountScores(SaveScore(header, problemId, score));
            && (Get(header, SolutionKey(problemId)).None? ==>
                  after == (before.0 + 1, Add(before.1, Num(score))))
            && (Get(header, SolutionKey(problemId)).Some? ==> after.0 == before.0)
  {
    var name := SolutionKey(problemId);
    var v := N(IntToString(score));
    ParseIntOfNumberToString(Num(score));
    assert ParseMaybe(NumOf(v)) == Num(score);
    assert StartsWith(name, SOLUTION_PREFIX);
    SetAttrCounts(header, name, v);
  }

  lemma {:induction false} SetAttrCounts(item: Item, name: string, v: Attr)
    requires StartsWith(name, SOLUTION_PREFIX)
    ensures Get(item, name).None? ==>
              CountScores(SetAttr(item, name, v)) ==
                (CountScores(item).0 + 1, Add(CountScores(item).1, ParseMaybe(NumOf(v))))
    ensures Get(item, name).Some? ==> CountScores(SetAttr(item, name, v)).0 == CountScores(item).0
  {
    if Get(item, name).None? {
      SetAttrCountsNew(item, name, v);
    } else {
      var r := SetAttr(item, name, v);
      SetAttrSameNames(item, name, v);
      CountScoresCount(item);
      CountScoresCount(r);
      ScoreCountNames(item, r);
    }
  }

  lemma SetAttrCountsNew(item: Item, name: string, v: Attr)
    requires StartsWith(name, SOLUTION_PREFIX) && Get(item, name).None?
    ensures CountScores(SetAttr(item, name, v)) ==
              (CountScores(item).0 + 1, Add(CountScores(item).1, ParseMaybe(NumOf(v))))
  {
    var r := item + [Entry(name, v)];
    SetAttrAppends(item, name, v);
    assert r[..|r| - 1] == item;
    assert r[|r| - 1] == Entry(name, v);
  }

  lemma {:induction false} SetAttrAppends(item: Item, name: string, v: Attr)
    requires Get(item, name).None?
    ensures SetAttr(item, name, v) == item + [Entry(name, v)]
  {
    if |item| > 0 {
      assert item[0].name != name;
      assert Get(item[1..], name) == Get(item, name);
      SetAttrAppends(item[1..], name, v);
      assert SetAttr(item, name, v) == [item[0]] + SetAttr(item[1..], name, v);
      assert item == [item[0]] + item[1..];
    }
  }

  lemma {:induction false} SetAttrSameNames(item: Item, name: string, v: Attr)
    requires Get(item, name).Some?
    ensures var r := SetAttr(item, name, v);
            |r| == |item| && forall k :: 0 <= k < |item| ==> r[k].name == item[k].name
  {
    if item[0].name != name {
      SetAttrSameNames(item[1..], name, v);
    }
  }

  lemma {:induction false} ScoreCountNames(a: Item, b: Item)
    requires |a| == |b| && forall k :: 0 <= k < |a| ==> a[k].name == b[k].name
    ensures ScoreCount(a) == ScoreCount(b)
  {
    if |a| > 0 {
      ScoreCountNames(a[..|a| - 1], b[..|b| - 1]);
    }
  }

  /** A header fresh from `putRun` lists as a run of that id, created at
      that second, with no problems yet and a zero score. */
  lemma NewRunSummary(uuid: string, args: string, target: string, nowMs: nat)
    requires '#' !in uuid
    ensures SummaryOf(RunHeader(uuid, args, target, nowMs))
              == Success(RunSummary(Some(uuid), Num(EpochSeconds(nowMs)), Some(args), Some(target), 0, Num(0)))
  {
    var h := RunHeader(uuid, args, target, nowMs);
    RunHeaderFields(uuid, args, target, nowMs);
    RunHeaderHasNoScores(uuid, args, target, nowMs);
    ScoreCountNone(h);
    RunKeyDecodes(uuid);
    assert RunIdOf(h) == Success(Some(uuid));
    OptionalNumberReads(h, "GSI1SK", EpochSeconds(nowMs));
    assert NumField(h, "GSI1SK") == Success(Num(EpochSeconds(nowMs)));
    assert StrField(h, "Args") == Success(Some(args));
    assert StrField(h, "Target") == Success(Some(target));
  }

  // ---------------------------------------------------------------------
  // fetchSolutionList

  datatype Solution = Solution(runId: Option<string>, commit: Option<string>, problemId: JsNum,
                               score: JsNum, ai: Option<string>, date: Option<JsNum>, time: Option<JsNum>)

  function SolutionOf(item: Item): Result<Solution, string>
  {
    var pk :- StrRequired(item, "PK");
    var sk :- StrRequired(item, "SK");
    var commit :- StrField(item, "Commit");
    var ai :- StrField(item, "AI");
    var score :- NumField(item, "GSI1SK");
    Success(Solution(SecondField(pk), commit, KeyNumber(sk), score, ai,
                     OptionalNumber(item, "ExecDate"), OptionalNumber(item, "ExecTime")))
  }

  function Solutions(items: seq<Item>): (r: Result<seq<Solution>, string>)
    ensures r.Success? <==> forall k :: 0 <= k < |items| ==> SolutionOf(items[k]).Success?
    ensures r.Success? ==> |r.value| == |items|
    ensures r.Success? ==> forall k :: 0 <= k < |items| ==> SolutionOf(items[k]) == Success(r.value[k])
  {
    if |items| == 0 then Success([])
    else
      var first :- SolutionOf(items[0]);
      var rest :- Solutions(items[1..]);
      Success([first] + rest)
  }

  /** `fetchSolutionList`: one solution per item of the problem's index. */
  function FetchSolutionList(items: Option<seq<Item>>): Result<seq<Solution>, string>
  {
    match items
    case None => Success([])
    case Some(xs) => Solutions(xs)
  }

  /** A solution item the worker wrote reads back as written, as long as
      the ids contain no '#' and the problem id is a decimal numeral. */
  lemma ScoreFieldReads(item: Item, score: int)
    requires Get(item, "GSI1SK") == Some(N(IntToString(score)))
    ensures NumField(item, "GSI1SK") == Success(Num(score))
  {
    ParseIntOfNumberToString(Num(score));
  }

  lemma OptionalNumberReads(item: Item, name: string, n: nat)
    requires Get(item, name) == Some(N(NatToString(n)))
    ensures OptionalNumber(item, name) == Some(Num(n))
  {
    ParseIntOfNat(n);
  }

  lemma SolutionRoundTrip(runId: string, problemId: nat, score: int, ai: string, commit: string,
                          elapsed: nat, now: nat)
    requires '#' !in runId
    ensures var item := SolutionItem(runId, NatToString(problemId), score, ai, commit, elapsed, now);
            SolutionOf(item) == Success(Solution(Some(runId), Some(commit), Num(problemId), Num(score),
                                                 Some(ai), Some(Num(now)), Some(Num(elapsed))))
  {
    var pid := NatToString(problemId);
    var item := SolutionItem(runId, pid, score, ai, commit, elapsed, now);
    SolutionItemFields(runId, pid, score, ai, commit, elapsed, now);
    assert StrRequired(item, "PK") == Success(RunKey(runId));
    assert StrRequired(item, "SK") == Success(SolutionKey(pid));
    assert StrField(item, "Commit") == Success(Some(commit));
    assert StrField(item, "AI") == Success(Some(ai));
    RunKeyDecodes(runId);
    assert '#' !in pid by {
      assert forall i :: 0 <= i < |pid| ==> IsDigit(pid[i]);
    }
    SolutionKeyDecodes(pid);
    ParseIntOfNat(problemId);
    assert KeyNumber(SolutionKey(pid)) == Num(problemId);
    ScoreFieldReads(item, score);
    OptionalNumberReads(item, "ExecDate", now);
    OptionalNumberReads(item, "ExecTime", elapsed);
    ParseIntOfNumberToString(Num(score));
  }
}

=== FILE: refine.dfy ===
/** The discrete parts of the refinement AI (`ai/refine.rs`): deleting
    every move below a block whose cut is being replaced
    (`remove_all_child`), the two point/line tweaks, the acceptance rule
    and the best-so-far bookkeeping of the search loop. Scores, random
    draws and the neighbour generator are inputs. */
module Refine {

  import opened Wrappers
  import opened Isl

  // ---------------------------------------------------------------------
  // remove_all_child

  /** A single-block move strictly below `target`: it is dropped. */
  predicate Drops(target: BlockId, m: Move)
  {
    m.IsSingleBlock() && IsChild(target, m.block)
  }

  /** A `Swap` or `Merge` touching a block strictly below `target`: the
      removal gives up. */
  predicate Blocks(target: BlockId, m: Move)
  {
    (m.Swap? || m.Merge?) && (IsChild(target, m.a) || IsChild(target, m.b))
  }

  predicate AnyBlocks(target: BlockId, p: Program)
  {
    exists i :: 0 <= i < |p| && Blocks(target, p[i])
  }

  /** Reference definition: the moves not dropped, in their order. */
  function KeptMoves(p: Program, target: BlockId): Program
  {
    if |p| == 0 then []
    else if Drops(target, p[0]) then KeptMoves(p[1..], target)
    else [p[0]] + KeptMoves(p[1..], target)
  }

  lemma {:induction false} KeptMovesSnoc(p: Program, m: Move, target: BlockId)
    ensures KeptMoves(p + [m], target) == KeptMoves(p, target) + (if Drops(target, m) then [] else [m])
  {
    if |p| == 0 {
      assert (p + [m])[1..] == [];
    } else {
      assert (p + [m])[1..] == p[1..] + [m];
      assert (p + [m])[0] == p[0];
      KeptMovesSnoc(p[1..], m, target);
    }
  }

  /** `remove_all_child`: fails exactly when a `Swap` or `Merge` names a
      strict descendant of `target`; otherwise drops every cut and colour
      move on a strict descendant and keeps the rest in order. */
  method RemoveAllChild(p: Program, target: BlockId) returns (r: Option<Program>)
    ensures r.None? <==> AnyBlocks(target, p)
    ensures r.Some? ==> r.value == KeptMoves(p, target)
  {
    var next: Program := [];
    var i := 0;
    while i < |p|
      invariant 0 <= i <= |p|
      invariant next == KeptMoves(p[..i], target)
      invariant forall j :: 0 <= j < i ==> !Blocks(target, p[j])
    {
      var m := p[i];
      assert p[..i + 1] == p[..i] + [m];
      KeptMovesSnoc(p[..i], m, target);
      match m {
      case PCut(id, _) =>
        if IsChild(target, id) {
          i := i + 1;
          continue;
        }
      case LCut(id, _, _) =>
        if IsChild(target, id) {
          i := i + 1;
          continue;
        }
      case Color(id, _) =>
        if IsChild(target, id) {
          i := i + 1;
          continue;
        }
      case Swap(a, b) =>
        if IsChild(target, a) || IsChild(target, b) {
          return None;
        }
      case Merge(a, b) =>
        if IsChild(target, a) || IsChild(target, b) {
          return None;
        }
      }
      next := next + [m];
      i := i + 1;
    }
    assert p[..|p|] == p;
    return Some(next);
  }

  /** The kept moves are a subsequence of the input. */
  lemma {:induction false} KeptMovesSubsequence(p: Program, target: BlockId)
    ensures IsSubsequence(KeptMoves(p, target), p)
  {
    if |p| > 0 {
      KeptMovesSubsequence(p[1..], target);
      assert p == [p[0]] + p[1..];
      SubsequenceCons(p[0], KeptMoves(p[1..], target), p[1..]);
    }
  }

  /** A move survives exactly when it occurs in the input and is not a cut
      or colour strictly below the target; in particular moves on the target
      itself and on unrelated blocks are kept. */
  lemma {:induction false} KeptMovesMembership(p: Program, target: BlockId, m: Move)
    ensures m in KeptMoves(p, target) <==> m in p && !Drops(target, m)
  {
    if |p| > 0 {
      KeptMovesMembership(p[1..], target, m);
      assert p == [p[0]] + p[1..];
    }
  }

  /** Removing again changes nothing: the output has no blocking move and
      nothing left to drop. */
  lemma {:induction false} RemoveAllChildIdempotent(p: Program, target: BlockId)
    requires !AnyBlocks(target, p)
    ensures !AnyBlocks(target, KeptMoves(p, target))
    ensures KeptMoves(KeptMoves(p, target), target) == KeptMoves(p, target)
  {
    var k := KeptMoves(p, target);
    forall i | 0 <= i < |k|
      ensures !Blocks(target, k[i]) && !Drops(target, k[i])
    {
      KeptMovesMembership(p, target, k[i]);
      var j :| 0 <= j < |p| && p[j] == k[i];
    }
    KeptMovesNoDrops(k, target);
  }

  /** With nothing to drop, the input is kept whole. */
  lemma {:induction false} KeptMovesNoDrops(p: Program, target: BlockId)
    requires forall i :: 0 <= i < |p| ==> !Drops(target, p[i])
    ensures KeptMoves(p, target) == p
  {
    if |p| > 0 {
      assert forall i :: 0 <= i < |p[1..]| ==> !Drops(target, p[1..][i]) by {
        forall i | 0 <= i < |p[1..]| ensures !Drops(target, p[1..][i]) {
          assert p[1..][i] == p[i + 1];
        }
      }
      KeptMovesNoDrops(p[1..], target);
      assert p == [p[0]] + p[1..];
    }
  }

  // ---------------------------------------------------------------------
  // Neighbour tweaks

  /** Shifting a point cut by (dx, dy); a zero component is rejected. */
  function TweakPCut(m: Move, dx: int, dy: int): (r: Option<Move>)
    requires m.PCut?
    ensures r.None? <==> dx == 0 || dy == 0
    ensures r.Some? ==> r.value.PCut? && r.value.block == m.block
    ensures r.Some? ==> r.value.point.x != m.point.x && r.value.point.y != m.point.y
    ensures r.Some? ==> r.value.point.x - m.point.x == dx && r.value.point.y - m.point.y == dy
  {
    if dx == 0 || dy == 0 then None
    else Some(PCut(m.block, Point(m.point.x + dx, m.point.y + dy)))
  }

  /** Shifting a line cut by d; d = 0 is rejected. */
  function TweakLCut(m: Move, d: int): (r: Option<Move>)
    requires m.LCut?
    ensures r.None? <==> d == 0
    ensures r.Some? ==> r.value.LCut? && r.value.block == m.block && r.value.orientation == m.orientation
    ensures r.Some? ==> r.value.line != m.line && r.value.line - m.line == d
  {
    if d == 0 then None
    else Some(LCut(m.block, m.orientation, m.line + d))
  }

  // ---------------------------------------------------------------------
  // Acceptance and best tracking

  datatype Algorithm = HillClimbing | Annealing

  /** Whether the candidate replaces the current program. `randomAccepts`
      is the outcome of the annealing draw against exp(-delta / T). */
  function Accept(alg: Algorithm, newScore: int, currentScore: int, randomAccepts: bool): (r: bool)
    ensures newScore < currentScore ==> r
    ensures alg == HillClimbing ==> (r <==> newScore < currentScore)
    ensures alg == Annealing ==> (r <==> newScore < currentScore || randomAccepts)
  {
    match alg
    case HillClimbing => newScore < currentScore
    case Annealing => if newScore < currentScore then true else randomAccepts
  }

  /** One iteration of the search loop: either no usable candidate (no
      neighbour, or it failed to simulate), or a candidate with its
      estimated score, the score recomputed after acceptance, and the
      random draw. */
  datatype Step =
    | NoCandidate
    | Candidate(program: Program, newScore: int, rescored: int, randomAccepts: bool)

  /** The current program and score after one iteration: unchanged once
      the current program is empty (the loop has stopped), unchanged without
      a candidate or when it is refused, the candidate and its recomputed
      score when it is accepted. */
  function StepState(alg: Algorithm, current: (Program, int), step: Step): (Program, int)
  {
    if |current.0| == 0 then current
    else
      match step
      case NoCandidate => current
      case Candidate(program, newScore, rescored, randomAccepts) =>
        if Accept(alg, newScore, current.1, randomAccepts) then (program, rescored) else current
  }

  /** The current program and score before iteration `i`. */
  ghost function StateBefore(alg: Algorithm, initialProgram: Program, initialScore: int, steps: seq<Step>, i: nat): (Program, int)
    requires i <= |steps|
  {
    if i == 0 then (initialProgram, initialScore)
    else StepState(alg, StateBefore(alg, initialProgram, initialScore, steps, i - 1), steps[i - 1])
  }

  /** Iteration `i` ran and accepted its candidate. */
  ghost predicate AcceptedAt(alg: Algorithm, initialProgram: Program, initialScore: int, steps: seq<Step>, i: nat)
    requires i < |steps|
  {
    var current := StateBefore(alg, initialProgram, initialScore, steps, i);
    && |current.0| > 0
    && steps[i].Candidate?
    && Accept(alg, steps[i].newScore, current.1, steps[i].randomAccepts)
  }

  /** Once the current program is empty the loop has stopped: nothing
      changes and nothing more is accepted. */
  lemma {:induction false} StoppedStaysStopped(alg: Algorithm, initialProgram: Program, initialScore: int,
                                               steps: seq<Step>, i: nat, j: nat)
    requires i <= j <= |steps|
    requires |StateBefore(alg, initialProgram, initialScore, steps, i).0| == 0
    ensures StateBefore(alg, initialProgram, initialScore, steps, j) == StateBefore(alg, initialProgram, initialScore, steps, i)
    ensures j < |steps| ==> !AcceptedAt(alg, initialProgram, initialScore, steps, j)
    decreases j - i
  {
    if i < j {
      StoppedStaysStopped(alg, initialProgram, initialScore, steps, i, j - 1);
    }
  }

  /** The best-so-far bookkeeping of `RefineAi::solve`. The returned score
      is the least of the initial score and the estimated scores of the
      accepted candidates; the returned program is the initial one when no
      accepted candidate beats the initial score, and otherwise the first
      accepted candidate that reaches the least score. */
  method Solve(alg: Algorithm, initialProgram: Program, initialScore: int, steps: seq<Step>)
    returns (bestProgram: Program, bestScore: int)
    ensures bestScore <= initialScore
    ensures forall i :: 0 <= i < |steps| && AcceptedAt(alg, initialProgram, initialScore, steps, i) ==>
              bestScore <= steps[i].newScore
    ensures (bestProgram == initialProgram && bestScore == initialScore)
            || exists i :: 0 <= i < |steps| && AcceptedAt(alg, initialProgram, initialScore, steps, i)
                 && steps[i].program == bestProgram && steps[i].newScore == bestScore < initialScore
                 && forall j :: 0 <= j < i && AcceptedAt(alg, initialProgram, initialScore, steps, j) ==>
                      bestScore < steps[j].newScore
  {
    var prevProgram := initialProgram;
    var currentScore := initialScore;
    bestProgram := initialProgram;
    bestScore := initialScore;
    var i := 0;
    while i < |steps|
      invariant 0 <= i <= |steps|
      invariant (prevProgram, currentScore) == StateBefore(alg, initialProgram, initialScore, steps, i)
      invariant bestScore <= initialScore
      invariant forall j :: 0 <= j < i && AcceptedAt(alg, initialProgram, initialScore, steps, j) ==>
                  bestScore <= steps[j].newScore
      invariant (bestProgram == initialProgram && bestScore == initialScore)
                || exists j :: 0 <= j < i && AcceptedAt(alg, initialProgram, initialScore, steps, j)
                     && steps[j].program == bestProgram && steps[j].newScore == bestScore < initialScore
                     && forall j' :: 0 <= j' < j && AcceptedAt(alg, initialProgram, initialScore, steps, j') ==>
                          bestScore < steps[j'].newScore
    {
      if |prevProgram| == 0 {
        forall j | i <= j < |steps|
          ensures !AcceptedAt(alg, initialProgram, initialScore, steps, j)
        {
          StoppedStaysStopped(alg, initialProgram, initialScore, steps, i, j);
        }
        break;
      }
      assert StateBefore(alg, initialProgram, initialScore, steps, i + 1)
             == StepState(alg, (prevProgram, currentScore), steps[i]);
      match steps[i] {
      case NoCandidate =>
      case Candidate(program, newScore, rescored, randomAccepts) =>
        if Accept(alg, newScore, currentScore, randomAccepts) {
          assert AcceptedAt(alg, initialProgram, initialScore, steps, i);
          prevProgram := program;
          currentScore := rescored;
          if newScore < bestScore {
            bestScore := newScore;
            bestProgram := prevProgram;
          }
        }
      }
      i := i + 1;
    }
  }

  /** The best score is replaced only by a strictly smaller candidate score. */
  function UpdateBest(bestProgram: Program, bestScore: int, program: Program, newScore: int): (r: (Program, int))
    ensures r.1 <= bestScore && r.1 <= newScore
    ensures r.1 < bestScore <==> newScore < bestScore
    ensures r.1 == bestScore ==> r.0 == bestProgram
    ensures r.1 < bestScore ==> r == (program, newScore)
  {
    if newScore < bestScore then (program, newScore) else (bestProgram, bestScore)
  }
}

=== FILE: run_schema.dfy ===
/** The validation schema of a run submission (`schema/run.ts`): `args` is
    a non-empty string free of the characters a shell would treat specially
    and that the worker passes through verbatim, and `target` lists problem
    numbers: comma-separated tokens, each a positive decimal without a
    leading zero or two such numbers joined by '-'. */
module RunSchema {

  import opened Strings

  /** The characters `args` may not contain: `"`, `'`, `;` and `*`. */
  predicate IsForbiddenArgChar(c: char)
  {
    c == '"' || c == '\'' || c == ';' || c == '*'
  }

  /** `args`: at least one character, none of them forbidden. */
  predicate ArgsValid(args: string)
  {
    |args| >= 1 && forall k :: 0 <= k < |args| ==> !IsForbiddenArgChar(args[k])
  }

  /** `[1-9][0-9]*`. */
  predicate IsPositiveNumeral(s: string)
  {
    |s| >= 1 && AllDigits(s) && s[0] != '0'
  }

  /** A numeral, or two numerals around a '-'. A numeral holds no '-', so
      the only split to try is at the first one. */
  predicate IsTargetToken(t: string)
  {
    || IsPositiveNumeral(t)
    || ('-' in t && IsPositiveNumeral(t[..IndexOf(t, '-')]) && IsPositiveNumeral(t[IndexOf(t, '-') + 1..]))
  }

  /** `target`: the whole string is one or more tokens separated by single
      commas. No token contains a comma, so these are exactly the pieces
      between the commas. */
  predicate TargetValid(target: string)
  {
    var tokens := Split(target, ',');
    forall k :: 0 <= k < |tokens| ==> IsTargetToken(tokens[k])
  }

  /** A range token is two numerals joined by '-', and nothing else. */
  lemma RangeTokenShape(t: string)
    requires IsTargetToken(t) && '-' in t
    ensures var k := IndexOf(t, '-');
            && t == t[..k] + "-" + t[k + 1..]
            && IsPositiveNumeral(t[..k]) && IsPositiveNumeral(t[k + 1..])
  {
    var k := IndexOf(t, '-');
    assert t == t[..k] + "-" + t[k + 1..];
    assert !IsPositiveNumeral(t) by {
      assert !IsDigit(t[k]);
    }
  }

  lemma SplitOne(s: string, sep: char)
    requires sep !in s
    ensures Split(s, sep) == [s]
  {
  }

  /** Targets the grammar refuses: nothing at all, a zero, a leading zero,
      and a space between numbers. */
  lemma TargetRejections()
    ensures !TargetValid("")
    ensures !TargetValid("0")
    ensures !TargetValid("01")
    ensures !TargetValid("1 2")
  {
    SplitOne("", ',');
    SplitOne("0", ',');
    SplitOne("01", ',');
    SplitOne("1 2", ',');
    assert !IsDigit("1 2"[1]);
  }

  /** Targets the grammar accepts: a descending range and a two-digit
      number. */
  lemma TargetAcceptances()
    ensures TargetValid("5-3")
    ensures TargetValid("12")
  {
    SplitOne("5-3", ',');
    assert IndexOf("5-3", '-') == 1;
    assert "5-3"[..1] == "5" && "5-3"[2..] == "3";
    SplitOne("12", ',');
  }

  /** A trailing comma leaves an empty last token, which is rejected. */
  lemma TrailingCommaRejected(target: string)
    ensures !TargetValid(target + ",")
  {
    SplitAppend(target, ',', "");
    assert target + "," == target + [','] + "";
    SplitOne("", ',');
    var tokens := Split(target + ",", ',');
    assert tokens[|tokens| - 1] == "";
  }

  /** Two valid targets joined by a comma form a valid target. */
  lemma TargetConcat(a: string, b: string)
    requires TargetValid(a) && TargetValid(b)
    ensures TargetValid(a + "," + b)
  {
    var pa := Split(a, ',');
    var pb := Split(b, ',');
    assert a + "," + b == a + [','] + b;
    SplitAppend(a, ',', b);
    assert Split(a + "," + b, ',') == pa + pb;
    TokensAppend(pa, pb);
  }

  lemma TokensAppend(pa: seq<string>, pb: seq<string>)
    requires forall k :: 0 <= k < |pa| ==> IsTargetToken(pa[k])
    requires forall k :: 0 <= k < |pb| ==> IsTargetToken(pb[k])
    ensures forall k :: 0 <= k < |pa + pb| ==> IsTargetToken((pa + pb)[k])
  {
    forall k | 0 <= k < |pa + pb|
      ensures IsTargetToken((pa + pb)[k])
    {
      if k >= |pa| {
        assert (pa + pb)[k] == pb[k - |pa|];
      }
    }
  }
}

=== FILE: runs_api.dfy ===
/** The submission endpoint (`pages/api/runs.ts`): a POST whose body passes
    the run schema starts a run, unless some run was started less than five
    minutes ago. The run index, the clock and the generated uuid are inputs,
    and whether `putRun` throws is a flag; the outcome records the response
    and the call made to `putRun`, if any. */
module RunsApi {

  import opened Wrappers
  import opened Js
  import opened Items
  import opened RunSchema
  import opened PutRun
  import opened Readers

  /** Five minutes, in seconds. */
  const MIN_INTERVAL := 60 * 5

  /** The body fields, `None` when absent or not a string. */
  datatype Request = Request(httpMethod: string, args: Option<string>, target: Option<string>)

  /** The messages of the failure responses, by meaning. */
  datatype Refusal = UnsupportedMethod | InvalidParameters | TooFrequent | RegistrationFailed

  datatype Body = Submitted | Refused(reason: Refusal)

  datatype Response = Response(status: nat, body: Body)

  /** The handler either answers, after calling `putRun` with the given
      effects or not at all, or throws when reading the run list fails. */
  datatype Outcome = Answered(response: Response, started: Option<Effects>) | Threw(error: string)

  /** `schema.safeParse(req.body).success`. */
  predicate SchemaAccepts(req: Request)
  {
    req.args.Some? && req.target.Some? && ArgsValid(req.args.value) && TargetValid(req.target.value)
  }

  /** `last > current - 60 * 5` with `current` the clock in seconds as a
      fraction; false when `last` is NaN. */
  predicate TooSoon(last: JsNum, nowMs: nat)
  {
    last.Num? && (last.value as real) > (nowMs as real) / 1000.0 - (MIN_INTERVAL as real)
  }

  function Times(runs: seq<RunSummary>): (ts: seq<JsNum>)
    ensures |ts| == |runs| && forall k :: 0 <= k < |runs| ==> ts[k] == runs[k].time
  {
    seq(|runs|, k requires 0 <= k < |runs| => runs[k].time)
  }

  function Handle(req: Request, runIndex: Option<seq<Item>>, nowMs: nat, uuid: string,
                  putRunThrows: bool): Outcome
  {
    if req.httpMethod != "POST" then Answered(Response(405, Refused(UnsupportedMethod)), None)
    else if !SchemaAccepts(req) then Answered(Response(400, Refused(InvalidParameters)), None)
    else
      match FetchRunList(runIndex)
      case Failure(e) => Threw(e)
      case Success(runs) =>
        if TooSoon(MaxFromZero(Times(runs)), nowMs) then Answered(Response(400, Refused(TooFrequent)), None)
        else
          var effects := PutRun.PutRun(uuid, req.args.value, req.target.value, nowMs);
          if putRunThrows then Answered(Response(200, Refused(RegistrationFailed)), Some(effects))
          else Answered(Response(200, Submitted), Some(effects))
  }

  // ---------------------------------------------------------------------
  // The rate limit

  /** In whole numbers: a run started at second `t` blocks submissions
      until the clock reads `t` seconds plus five minutes. */
  lemma TooSoonExact(t: int, nowMs: nat)
    ensures TooSoon(Num(t), nowMs) <==> 1000 * t > nowMs - 1000 * MIN_INTERVAL
  {
    var lhs := t as real;
    var rhs := (nowMs as real) / 1000.0 - (MIN_INTERVAL as real);
    assert rhs * 1000.0 == (nowMs - 1000 * MIN_INTERVAL) as real;
    assert lhs > rhs <==> lhs * 1000.0 > rhs * 1000.0;
  }

  /** The boundary: one millisecond short of five minutes is refused, five
      minutes to the millisecond is allowed. */
  lemma TooSoonBoundary(t: nat)
    ensures TooSoon(Num(t), 1000 * t + 1000 * MIN_INTERVAL - 1)
    ensures !TooSoon(Num(t), 1000 * t + 1000 * MIN_INTERVAL)
  {
    TooSoonExact(t, 1000 * t + 1000 * MIN_INTERVAL - 1);
    TooSoonExact(t, 1000 * t + 1000 * MIN_INTERVAL);
  }

  /** The latest start is too recent exactly when some run's start is, or
      when the clock is within five minutes of the epoch (the maximum starts
      from 0), as long as every listed time is a number. */
  lemma TooSoonSome(times: seq<JsNum>, nowMs: nat)
    requires NaN !in times
    ensures TooSoon(MaxFromZero(times), nowMs) <==>
              TooSoon(Num(0), nowMs) || exists k :: 0 <= k < |times| && TooSoon(times[k], nowMs)
  {
    var m := MaxFromZero(times);
    TooSoonExact(m.value, nowMs);
    TooSoonExact(0, nowMs);
    if m.value > 0 {
      var k :| 0 <= k < |times| && times[k].value == m.value;
      assert times[k] == m;
    }
    forall k | 0 <= k < |times|
      ensures TooSoon(times[k], nowMs) ==> TooSoon(m, nowMs)
    {
      assert times[k] != NaN;
      TooSoonExact(times[k].value, nowMs);
    }
  }

  /** A listed time that is not a number makes the maximum NaN, and the
      comparison with NaN lets every submission through. */
  lemma NaNTimeLiftsLimit(times: seq<JsNum>, nowMs: nat)
    requires NaN in times
    ensures !TooSoon(MaxFromZero(times), nowMs)
  {
  }

  // ---------------------------------------------------------------------
  // What the handler does

  /** When a submission may start a run: a POST, a body the schema accepts,
      a clock at least five minutes past the epoch, and no listed run
      started within the last five minutes. */
  predicate MaySubmit(req: Request, times: seq<JsNum>, nowMs: nat)
  {
    && req.httpMethod == "POST"
    && SchemaAccepts(req)
    && !TooSoon(Num(0), nowMs)
    && forall k :: 0 <= k < |times| ==> !TooSoon(times[k], nowMs)
  }

  /** `putRun` is called exactly for a submission that may start a run,
      or when some listed time is NaN (which lifts the limit); it is then
      called with the submitted fields, the fresh uuid and the clock. */
  lemma HandleStartsRun(req: Request, runIndex: Option<seq<Item>>, nowMs: nat, uuid: string,
                        putRunThrows: bool)
    requires FetchRunList(runIndex).Success?
    ensures var o := Handle(req, runIndex, nowMs, uuid, putRunThrows);
            var times := Times(FetchRunList(runIndex).value);
            && o.Answered?
            && (o.started.Some? <==>
                  (MaySubmit(req, times, nowMs)
                   || (req.httpMethod == "POST" && SchemaAccepts(req) && NaN in times)))
            && (o.started.Some? ==>
                  o.started.value == PutRun.PutRun(uuid, req.args.value, req.target.value, nowMs))
  {
    var times := Times(FetchRunList(runIndex).value);
    if NaN !in times {
      TooSoonSome(times, nowMs);
    }
  }

  /** The answer to a submission, by what went wrong first. */
  lemma HandleResponses(req: Request, runIndex: Option<seq<Item>>, nowMs: nat, uuid: string,
                        putRunThrows: bool)
    ensures var o := Handle(req, runIndex, nowMs, uuid, putRunThrows);
            && (req.httpMethod != "POST" ==> o == Answered(Response(405, Refused(UnsupportedMethod)), None))
            && (req.httpMethod == "POST" && !SchemaAccepts(req) ==>
                  o == Answered(Response(400, Refused(InvalidParameters)), None))
            && (o.Threw? <==> req.httpMethod == "POST" && SchemaAccepts(req) && FetchRunList(runIndex).Failure?)
            && (o.Answered? && o.response.status == 200 ==> o.started.Some?)
            && (o.Answered? && o.started.Some? ==>
                  (o.response.body == Submitted <==> !putRunThrows) && o.response.status == 200)
  {
  }

  /** A run just registered blocks every other submission for five minutes
      from the start of its second, as long as the listed times are
      numbers; the index lists it as `fetchRunList` reads it back. */
  lemma RecentRunBlocks(req: Request, before: seq<Item>, after: seq<Item>, uuid: string,
                        args: string, target: string, startMs: nat, nowMs: nat, uuid2: string,
                        putRunThrows: bool)
    requires '#' !in uuid
    requires FetchRunList(Some(before + [RunHeader(uuid, args, target, startMs)] + after)).Success?
    requires NaN !in Times(FetchRunList(Some(before + [RunHeader(uuid, args, target, startMs)] + after)).value)
    requires nowMs < 1000 * EpochSeconds(startMs) + 1000 * MIN_INTERVAL
    ensures var o := Handle(req, Some(before + [RunHeader(uuid, args, target, startMs)] + after),
                            nowMs, uuid2, putRunThrows);
            o.Answered? && o.started.None?
  {
    var h := RunHeader(uuid, args, target, startMs);
    var index := before + [h] + after;
    var runs := FetchRunList(Some(index)).value;
    assert index[|before|] == h;
    NewRunSummary(uuid, args, target, startMs);
    var times := Times(runs);
    assert times[|before|] == Num(EpochSeconds(startMs));
    ListedTimeBlocks(times, |before|, EpochSeconds(startMs), nowMs);
    TooSoonStartsNothing(req, Some(index), nowMs, uuid2, putRunThrows);
  }

  /** While the latest start is too recent, no run is started. */
  lemma TooSoonStartsNothing(req: Request, runIndex: Option<seq<Item>>, nowMs: nat, uuid: string,
                             putRunThrows: bool)
    requires FetchRunList(runIndex).Success?
    requires TooSoon(MaxFromZero(Times(FetchRunList(runIndex).value)), nowMs)
    ensures var o := Handle(req, runIndex, nowMs, uuid, putRunThrows);
            o.Answered? && o.started.None?
  {
  }

  /** One listed start within five minutes of the clock makes the latest
      start too recent, as long as every listed time is a number. */
  lemma ListedTimeBlocks(times: seq<JsNum>, k: nat, t: int, nowMs: nat)
    requires NaN !in times && k < |times| && times[k] == Num(t)
    requires nowMs < 1000 * t + 1000 * MIN_INTERVAL
    ensures TooSoon(MaxFromZero(times), nowMs)
  {
    TooSoonExact(t, nowMs);
    TooSoonSome(times, nowMs);
  }
}

=== FILE: simulator.dfy ===
/** The block-state machine of `simulator.rs`: a canvas state maps block ids
    to rectangles, and each move either fails (leaving the state as it was)
    or produces the next state. Cuts split a block into numbered children,
    `Color` repaints, `Swap` exchanges positions and `Merge` fuses two
    adjacent blocks under a fresh top-level id. */
module Simulator {

  import opened Wrappers
  import opened Isl

  datatype BlockState = Active | Deleted | Merged
  {
    predicate IsActive() {
      this == Active
    }
  }

  /** A rectangle with its bottom-left corner `p`, its extent `size`, its
      colour and its life-cycle state. */
  datatype SimpleBlock = SimpleBlock(p: Point, size: Point, color: Rgba, state: BlockState)

  /** `SimpleBlock::new`: a fresh block is active. */
  function NewBlock(p: Point, size: Point, color: Rgba): (b: SimpleBlock)
    ensures b.state.IsActive()
    ensures b.p == p && b.size == size && b.color == color
  {
    SimpleBlock(p, size, color, Active)
  }

  function Area(b: SimpleBlock): int
  {
    b.size.x * b.size.y
  }

  /** Cell (x, y) lies inside the block's rectangle. */
  predicate Covers(b: SimpleBlock, x: int, y: int)
  {
    b.p.x <= x < b.p.x + b.size.x && b.p.y <= y < b.p.y + b.size.y
  }

  predicate WellFormed(b: SimpleBlock)
  {
    b.size.x >= 0 && b.size.y >= 0
  }

  datatype State = State(blocks: map<BlockId, SimpleBlock>, nextGlobalId: nat, costCoeffVersion: nat)

  /** `State::initial_state`: one white block [0] covering the w x h canvas. */
  function InitialState(w: int, h: int, costCoeffVersion: nat): (s: State)
    ensures s.blocks.Keys == {[0]}
    ensures s.blocks[[0]] == NewBlock(Point(0, 0), Point(w, h), WHITE)
    ensures s.nextGlobalId == 1 && s.costCoeffVersion == costCoeffVersion
  {
    State(map[[0] := NewBlock(Point(0, 0), Point(w, h), WHITE)], 1, costCoeffVersion)
  }

  /** `State::block_state`: a state holding only block `id` (the source
      indexes the map, so the block must exist). */
  function StateOfBlock(s: State, id: BlockId, costCoeffVersion: nat): (r: State)
    requires id in s.blocks
    ensures r.blocks.Keys == {id} && r.blocks[id] == s.blocks[id]
    ensures r.nextGlobalId == s.nextGlobalId && r.costCoeffVersion == costCoeffVersion
  {
    State(map[id := s.blocks[id]], s.nextGlobalId, costCoeffVersion)
  }

  // ---------------------------------------------------------------------
  // merge_block

  /** The pair in the order `merge_block` uses: it swaps them when the first
      lies to the right of or above the second. */
  function OrderPair(b1: SimpleBlock, b2: SimpleBlock): (SimpleBlock, SimpleBlock)
  {
    if b1.p.x > b2.p.x || b1.p.y > b2.p.y then (b2, b1) else (b1, b2)
  }

  /** The condition under which the source's `merge_block` succeeds: once
      ordered, the blocks are stacked (same x, same width, touching edges) or
      they have the same height and touching x-ranges. The second case never
      compares the two blocks' y. */
  predicate MergeableAsWritten(b1: SimpleBlock, b2: SimpleBlock)
  {
    var (f, g) := OrderPair(b1, b2);
    if f.p.x == g.p.x then f.size.x == g.size.x && f.p.y + f.size.y == g.p.y
    else f.size.y == g.size.y && f.p.x + f.size.x == g.p.x
  }

  /** `merge_block` exactly as the source writes it, which is what
      `simulate` calls. Like the corrected version below, the block it
      builds sits at the first block's corner, is active, carries
      `INVALID_COLOR` and has the two areas' sum as its area. */
  function MergeBlockAsWritten(b1: SimpleBlock, b2: SimpleBlock): (r: Option<SimpleBlock>)
    ensures r.Some? <==> MergeableAsWritten(b1, b2)
    ensures r.Some? ==> r.value.p == OrderPair(b1, b2).0.p
    ensures r.Some? ==> r.value.color == INVALID_COLOR && r.value.state.IsActive()
    ensures r.Some? ==> Area(r.value) == Area(b1) + Area(b2)
  {
    var (f, g) := OrderPair(b1, b2);
    if f.p.x == g.p.x then
      if f.size.x != g.size.x || f.p.y + f.size.y != g.p.y then None
      else
        var m := NewBlock(f.p, Point(f.size.x, f.size.y + g.size.y), INVALID_COLOR);
        assert Area(m) == f.size.x * f.size.y + f.size.x * g.size.y;
        Some(m)
    else
      if f.size.y != g.size.y || f.p.x + f.size.x != g.p.x then None
      else
        var m := NewBlock(f.p, Point(f.size.x + g.size.x, f.size.y), INVALID_COLOR);
        assert Area(m) == f.size.x * f.size.y + g.size.x * f.size.y;
        Some(m)
  }

  /** The two blocks, once ordered, share a full edge: stacked (same x, same
      width, the first's top edge is the second's bottom) or side by side
      (same y, same height, the first's right edge is the second's left). */
  predicate Mergeable(b1: SimpleBlock, b2: SimpleBlock)
  {
    var (f, g) := OrderPair(b1, b2);
    if f.p.x == g.p.x then f.size.x == g.size.x && f.p.y + f.size.y == g.p.y
    else f.p.y == g.p.y && f.size.y == g.size.y && f.p.x + f.size.x == g.p.x
  }

  /** `merge_block` with the side-by-side case also requiring equal y. The
      merged block sits at the first block's corner, is active, carries
      `INVALID_COLOR` and has the two areas' sum as its area. */
  function MergeBlock(b1: SimpleBlock, b2: SimpleBlock): (r: Option<SimpleBlock>)
    ensures r.Some? <==> Mergeable(b1, b2)
    ensures r.Some? ==> r.value.p == OrderPair(b1, b2).0.p
    ensures r.Some? ==> r.value.color == INVALID_COLOR && r.value.state.IsActive()
    ensures r.Some? ==> Area(r.value) == Area(b1) + Area(b2)
  {
    var (f, g) := OrderPair(b1, b2);
    if f.p.x == g.p.x then
      if f.size.x != g.size.x || f.p.y + f.size.y != g.p.y then None
      else
        var m := NewBlock(f.p, Point(f.size.x, f.size.y + g.size.y), INVALID_COLOR);
        assert Area(m) == f.size.x * f.size.y + f.size.x * g.size.y;
        Some(m)
    else
      if f.p.y != g.p.y || f.size.y != g.size.y || f.p.x + f.size.x != g.p.x then None
      else
        var m := NewBlock(f.p, Point(f.size.x + g.size.x, f.size.y), INVALID_COLOR);
        assert Area(m) == f.size.x * f.size.y + g.size.x * f.size.y;
        Some(m)
  }

  /** The merged block covers exactly the cells of the two inputs. */
  lemma MergeBlockCoversUnion(b1: SimpleBlock, b2: SimpleBlock, x: int, y: int)
    requires WellFormed(b1) && WellFormed(b2)
    requires MergeBlock(b1, b2).Some?
    ensures Covers(MergeBlock(b1, b2).value, x, y) <==> Covers(b1, x, y) || Covers(b2, x, y)
  {
  }

  /** The source's version accepts two equally tall blocks whose x-ranges
      touch although one sits above the other, and the block it builds covers
      cells that belong to neither input. */
  lemma MergeBlockAsWrittenCounterexample()
    ensures var b1 := NewBlock(Point(0, 0), Point(2, 3), WHITE);
            var b2 := NewBlock(Point(2, 5), Point(2, 3), WHITE);
            && MergeBlockAsWritten(b1, b2).Some?
            && MergeBlock(b1, b2).None?
            && Covers(MergeBlockAsWritten(b1, b2).value, 3, 1)
            && !Covers(b1, 3, 1) && !Covers(b2, 3, 1)
  {
  }

  /** Whenever the corrected version merges, the source's does the same;
      the two differ exactly on pairs that touch only along x. */
  lemma MergeBlockAgreesWhenAdjacent(b1: SimpleBlock, b2: SimpleBlock)
    ensures Mergeable(b1, b2) ==> MergeableAsWritten(b1, b2)
    ensures MergeBlock(b1, b2).Some? ==> MergeBlockAsWritten(b1, b2) == MergeBlock(b1, b2)
    ensures MergeableAsWritten(b1, b2) && !Mergeable(b1, b2) ==>
              OrderPair(b1, b2).0.p.x != OrderPair(b1, b2).1.p.x
              && OrderPair(b1, b2).0.p.y != OrderPair(b1, b2).1.p.y
  {
  }

  // ---------------------------------------------------------------------
  // simulate

  /** The four children of a point cut at offset `o`, numbered 0..3:
      bottom-left, bottom-right, top-right, top-left. */
  function PCutChildren(b: SimpleBlock, o: Point): (cs: seq<SimpleBlock>)
    ensures |cs| == 4
  {
    var p := b.p;
    var w := b.size.x;
    var h := b.size.y;
    [ NewBlock(Point(p.x, p.y), Point(o.x, o.y), b.color),
      NewBlock(Point(p.x + o.x, p.y), Point(w - o.x, o.y), b.color),
      NewBlock(Point(p.x + o.x, p.y + o.y), Point(w - o.x, h - o.y), b.color),
      NewBlock(Point(p.x, p.y + o.y), Point(o.x, h - o.y), b.color) ]
  }

  /** The two children of a line cut at offset `offset`: 0 is the lower (or
      left) part, 1 the upper (or right) part. */
  function LCutChildren(b: SimpleBlock, orientation: Orientation, offset: int): (cs: seq<SimpleBlock>)
    ensures |cs| == 2
  {
    var p := b.p;
    match orientation
    case Horizontal =>
      [ NewBlock(p, Point(b.size.x, offset), b.color),
        NewBlock(Point(p.x, p.y + offset), Point(b.size.x, b.size.y - offset), b.color) ]
    case Vertical =>
      [ NewBlock(p, Point(offset, b.size.y), b.color),
        NewBlock(Point(p.x + offset, p.y), Point(b.size.x - offset, b.size.y), b.color) ]
  }

  /** Distance of the cut line from the block's corner along the cut axis. */
  function LineOffset(b: SimpleBlock, orientation: Orientation, line: int): int
  {
    match orientation
    case Horizontal => line - b.p.y
    case Vertical => line - b.p.x
  }

  /** Extent of the block along the axis a line cut of this orientation splits. */
  function Extent(b: SimpleBlock, orientation: Orientation): int
  {
    match orientation
    case Horizontal => b.size.y
    case Vertical => b.size.x
  }

  /** When a move succeeds: every id it names exists, and a cut lies strictly
      inside its block, a swap exchanges equal sizes, a merge joins two blocks
      that the source's `merge_block` accepts (`MergeableAsWritten`). */
  predicate CanApply(s: State, m: Move)
  {
    match m
    case PCut(id, pt) =>
      id in s.blocks
      && s.blocks[id].p.x < pt.x < s.blocks[id].p.x + s.blocks[id].size.x
      && s.blocks[id].p.y < pt.y < s.blocks[id].p.y + s.blocks[id].size.y
    case LCut(id, o, line) =>
      id in s.blocks && 0 < LineOffset(s.blocks[id], o, line) < Extent(s.blocks[id], o)
    case Color(id, _) => id in s.blocks
    case Swap(a, b) => a in s.blocks && b in s.blocks && s.blocks[a].size == s.blocks[b].size
    case Merge(a, b) => a in s.blocks && b in s.blocks && MergeableAsWritten(s.blocks[a], s.blocks[b])
  }

  /** `simulate`: `None` on every failure, before anything changes. */
  function Simulate(s: State, m: Move): (r: Option<State>)
    ensures r.None? <==> !CanApply(s, m)
  {
    match m
    case PCut(id, point) =>
      if id !in s.blocks then None
      else
        var b := s.blocks[id];
        var o := Point(point.x - b.p.x, point.y - b.p.y);
        if o.x <= 0 || o.x >= b.size.x || o.y <= 0 || o.y >= b.size.y then None
        else
          var cs := PCutChildren(b, o);
          Some(s.(blocks := s.blocks[id + [0] := cs[0]][id + [1] := cs[1]][id + [2] := cs[2]][id + [3] := cs[3]]
                                    [id := b.(state := Deleted)]))
    case LCut(id, orientation, line) =>
      if id !in s.blocks then None
      else
        var b := s.blocks[id];
        var offset := LineOffset(b, orientation, line);
        if offset <= 0 || Extent(b, orientation) <= offset then None
        else
          var cs := LCutChildren(b, orientation, offset);
          Some(s.(blocks := s.blocks[id + [0] := cs[0]][id + [1] := cs[1]][id := b.(state := Deleted)]))
    case Color(id, color) =>
      if id !in s.blocks then None
      else Some(s.(blocks := s.blocks[id := s.blocks[id].(color := color)]))
    case Swap(a, b) =>
      if a !in s.blocks || b !in s.blocks then None
      else
        var block1 := s.blocks[a];
        var block2 := s.blocks[b];
        if block1.size != block2.size then None
        else Some(s.(blocks := s.blocks[a := block1.(p := block2.p)][b := block2.(p := block1.p)]))
    case Merge(a, b) =>
      if a !in s.blocks || b !in s.blocks then None
      else
        var block1 := s.blocks[a];
        var block2 := s.blocks[b];
        match MergeBlockAsWritten(block1, block2)
        case None => None
        case Some(next) =>
          var blocks := s.blocks[[s.nextGlobalId] := next];
          Some(State(blocks[a := block1.(state := Merged)][b := block2.(state := Merged)],
                     s.nextGlobalId + 1, s.costCoeffVersion))
  }

  // ---------------------------------------------------------------------
  // Effects of the individual moves

  /** A block id differs from each of its children, and children with
      different indices differ. */
  lemma ChildIdsDistinct(id: BlockId, i: nat, j: nat)
    ensures id + [i] != id
    ensures i != j ==> id + [i] != id + [j]
  {
    assert |id + [i]| != |id|;
    assert (id + [i])[|id|] == i && (id + [j])[|id|] == j;
  }

  /** A successful point cut marks the parent deleted and adds its four
      children `id+[0..3]` (bottom-left, bottom-right, top-right, top-left),
      active and in the parent's colour. They tile the parent: every cell of
      the parent lies in exactly one child, so their areas add up to its
      area. Nothing else changes. */
  lemma PCutEffect(s: State, id: BlockId, pt: Point)
    requires CanApply(s, PCut(id, pt))
    ensures var b := s.blocks[id];
            var r := Simulate(s, PCut(id, pt)).value;
            var cs := PCutChildren(b, Point(pt.x - b.p.x, pt.y - b.p.y));
            && r.nextGlobalId == s.nextGlobalId
            && r.blocks.Keys == s.blocks.Keys + {id, id + [0], id + [1], id + [2], id + [3]}
            && r.blocks[id] == b.(state := Deleted)
            && (forall i :: 0 <= i < 4 ==> r.blocks[id + [i]] == cs[i])
            && (forall i :: 0 <= i < 4 ==> cs[i].color == b.color && cs[i].state.IsActive())
            && cs[0].p == b.p && cs[2].p == pt
            && Area(cs[0]) + Area(cs[1]) + Area(cs[2]) + Area(cs[3]) == Area(b)
            && (forall x, y :: Covers(b, x, y) <==>
                  Covers(cs[0], x, y) || Covers(cs[1], x, y) || Covers(cs[2], x, y) || Covers(cs[3], x, y))
            && (forall x, y, i, j :: 0 <= i < j < 4 && Covers(cs[i], x, y) ==> !Covers(cs[j], x, y))
            && (forall k :: k in s.blocks && k !in {id, id + [0], id + [1], id + [2], id + [3]}
                  ==> r.blocks[k] == s.blocks[k])
  {
    var b := s.blocks[id];
    var o := Point(pt.x - b.p.x, pt.y - b.p.y);
    var cs := PCutChildren(b, o);
    var r := Simulate(s, PCut(id, pt)).value;
    ChildIdsDistinct(id, 0, 1); ChildIdsDistinct(id, 0, 2); ChildIdsDistinct(id, 0, 3);
    ChildIdsDistinct(id, 1, 2); ChildIdsDistinct(id, 1, 3); ChildIdsDistinct(id, 2, 3);
    ChildIdsDistinct(id, 3, 0);
    assert r.blocks == s.blocks[id + [0] := cs[0]][id + [1] := cs[1]][id + [2] := cs[2]][id + [3] := cs[3]]
                               [id := b.(state := Deleted)];
    var w := b.size.x;
    var h := b.size.y;
    calc {
      Area(cs[0]) + Area(cs[1]) + Area(cs[2]) + Area(cs[3]);
      o.x * o.y + (w - o.x) * o.y + (w - o.x) * (h - o.y) + o.x * (h - o.y);
      { assert (w - o.x) * (h - o.y) + o.x * (h - o.y) == w * (h - o.y);
        assert o.x * o.y + (w - o.x) * o.y == w * o.y; }
      w * o.y + w * (h - o.y);
      w * h;
    }
  }

  /** A successful point cut puts the four children at `id + [i]` and
      changes nothing outside `id`'s subtree. */
  lemma PCutFrame(s: State, id: BlockId, pt: Point)
    requires CanApply(s, PCut(id, pt))
    ensures var b := s.blocks[id];
            var r := Simulate(s, PCut(id, pt)).value;
            var cs := PCutChildren(b, Point(pt.x - b.p.x, pt.y - b.p.y));
            && (forall i :: 0 <= i < 4 ==> id + [i] in r.blocks && r.blocks[id + [i]] == cs[i])
            && SameOutside(s, r, id)
  {
    PCutEffect(s, id, pt);
    UnderChild(id, 0); UnderChild(id, 1); UnderChild(id, 2); UnderChild(id, 3);
  }

  /** A successful line cut marks the parent deleted and adds `id+[0]` (the
      lower or left part) and `id+[1]` (the upper or right part), active and
      in the parent's colour, which tile the parent. Nothing else changes. */
  lemma LCutEffect(s: State, id: BlockId, o: Orientation, line: int)
    requires CanApply(s, LCut(id, o, line))
    ensures var b := s.blocks[id];
            var r := Simulate(s, LCut(id, o, line)).value;
            var cs := LCutChildren(b, o, LineOffset(b, o, line));
            && r.nextGlobalId == s.nextGlobalId
            && r.blocks.Keys == s.blocks.Keys + {id, id + [0], id + [1]}
            && r.blocks[id] == b.(state := Deleted)
            && r.blocks[id + [0]] == cs[0] && r.blocks[id + [1]] == cs[1]
            && (forall i :: 0 <= i < 2 ==> cs[i].color == b.color && cs[i].state.IsActive())
            && cs[0].p == b.p
            && Area(cs[0]) + Area(cs[1]) == Area(b)
            && (forall x, y :: Covers(b, x, y) <==> Covers(cs[0], x, y) || Covers(cs[1], x, y))
            && (forall x, y :: !(Covers(cs[0], x, y) && Covers(cs[1], x, y)))
            && (forall k :: k in s.blocks && k !in {id, id + [0], id + [1]} ==> r.blocks[k] == s.blocks[k])
  {
    var b := s.blocks[id];
    var off := LineOffset(b, o, line);
    var cs := LCutChildren(b, o, off);
    ChildIdsDistinct(id, 0, 1);
    ChildIdsDistinct(id, 1, 0);
    match o
    case Horizontal =>
      assert Area(cs[0]) + Area(cs[1]) == b.size.x * off + b.size.x * (b.size.y - off);
    case Vertical =>
      assert Area(cs[0]) + Area(cs[1]) == off * b.size.y + (b.size.x - off) * b.size.y;
  }

  /** `Color` changes only the colour of the named block: its position, size
      and state, and every other block, stay as they were. */
  lemma ColorEffect(s: State, id: BlockId, c: Rgba)
    requires id in s.blocks
    ensures var r := Simulate(s, Color(id, c));
            && r.Some?
            && r.value.blocks.Keys == s.blocks.Keys
            && r.value.nextGlobalId == s.nextGlobalId
            && r.value.blocks[id].color == c
            && r.value.blocks[id].p == s.blocks[id].p
            && r.value.blocks[id].size == s.blocks[id].size
            && r.value.blocks[id].state == s.blocks[id].state
            && forall k :: k in s.blocks && k != id ==> r.value.blocks[k] == s.blocks[k]
  {
  }

  /** A successful `Swap` exchanges exactly the two positions; ids, sizes,
      colours and states stay with their blocks and nothing else changes. */
  lemma SwapEffect(s: State, a: BlockId, b: BlockId)
    requires CanApply(s, Swap(a, b))
    ensures var r := Simulate(s, Swap(a, b)).value;
            && r.blocks.Keys == s.blocks.Keys
            && r.nextGlobalId == s.nextGlobalId
            && r.blocks[a].p == s.blocks[b].p && r.blocks[b].p == s.blocks[a].p
            && r.blocks[a].size == s.blocks[a].size && r.blocks[b].size == s.blocks[b].size
            && r.blocks[a].color == s.blocks[a].color && r.blocks[b].color == s.blocks[b].color
            && r.blocks[a].state == s.blocks[a].state && r.blocks[b].state == s.blocks[b].state
            && forall k :: k in s.blocks && k != a && k != b ==> r.blocks[k] == s.blocks[k]
  {
  }

  /** The top-level ids are below the global counter, so `[nextGlobalId]` is
      unused; the initial state and problem set-ups loaded with ids
      0..n-1 and counter n have this property. */
  predicate FreshGlobalId(s: State)
  {
    forall k :: k in s.blocks && |k| == 1 ==> k[0] < s.nextGlobalId
  }

  /** A successful `Merge` of two distinct blocks stores the merged block
      under the fresh id `[nextGlobalId]`, bumps the counter by one and marks
      both inputs merged; every other block is unchanged. */
  lemma MergeEffect(s: State, a: BlockId, b: BlockId)
    requires CanApply(s, Merge(a, b)) && a != b && FreshGlobalId(s)
    ensures var r := Simulate(s, Merge(a, b)).value;
            var g := [s.nextGlobalId];
            && r.nextGlobalId == s.nextGlobalId + 1
            && r.blocks.Keys == s.blocks.Keys + {g}
            && g !in s.blocks
            && r.blocks[g] == MergeBlockAsWritten(s.blocks[a], s.blocks[b]).value
            && r.blocks[a] == s.blocks[a].(state := Merged)
            && r.blocks[b] == s.blocks[b].(state := Merged)
            && FreshGlobalId(r)
            && forall k :: k in s.blocks && k != a && k != b ==> r.blocks[k] == s.blocks[k]
  {
  }

  // ---------------------------------------------------------------------
  // Programs

  /** Reference semantics of a program: apply the moves in order and fail
      as soon as one move fails. */
  function Execute(s: State, prog: Program): Option<State>
    decreases |prog|
  {
    if |prog| == 0 then Some(s)
    else
      match Simulate(s, prog[0])
      case None => None
      case Some(s') => Execute(s', prog[1..])
  }

  lemma {:induction false} ExecuteAppend(s: State, p: Program, q: Program)
    ensures Execute(s, p + q) == (match Execute(s, p) case None => None case Some(t) => Execute(t, q))
    decreases |p|
  {
    if |p| > 0 {
      assert (p + q)[1..] == p[1..] + q;
      assert (p + q)[0] == p[0];
      match Simulate(s, p[0])
      case None =>
      case Some(s') => ExecuteAppend(s', p[1..], q);
    } else {
      assert p + q == q;
    }
  }

  /** Running p and then q from where p stopped is running p + q. */
  lemma ExecuteThen(s: State, p: Program, q: Program, t: State, u: State)
    requires Execute(s, p) == Some(t) && Execute(t, q) == Some(u)
    ensures Execute(s, p + q) == Some(u)
  {
    ExecuteAppend(s, p, q);
  }

  /** Running the first n+1 moves is running the first move, then n more. */
  lemma ExecutePrefixCons(s: State, s': State, prog: Program, n: nat)
    requires n < |prog| && Simulate(s, prog[0]) == Some(s')
    ensures Execute(s, prog[..n + 1]) == Execute(s', prog[1..][..n])
  {
    assert prog[..n + 1][0] == prog[0];
    assert prog[..n + 1][1..] == prog[1..][..n];
  }

  // ---------------------------------------------------------------------
  // Frames: moves confined to a subtree of block ids

  /** t agrees with s on every block outside `id`'s subtree, and on the
      global counter. */
  predicate SameOutside(s: State, t: State, id: BlockId)
  {
    && t.nextGlobalId == s.nextGlobalId
    && (forall key :: key in t.blocks && !Under(id, key) ==> key in s.blocks)
    && (forall key :: key in s.blocks && !Under(id, key) ==> key in t.blocks && t.blocks[key] == s.blocks[key])
  }

  lemma UnderChild(id: BlockId, i: nat)
    ensures Under(id, id + [i]) && Under(id, id)
  {
    assert (id + [i])[..|id|] == id;
  }

  /** A subtree of child i lies in the parent's subtree and misses every
      sibling. */
  lemma UnderSibling(id: BlockId, i: nat, key: BlockId)
    requires Under(id + [i], key)
    ensures Under(id, key)
    ensures forall j: nat :: j != i ==> !Under(id + [j], key)
  {
    assert key[..|id|] == key[..|id| + 1][..|id|];
    assert key[|id|] == key[..|id| + 1][|id|] == i;
  }

  lemma SiblingNotUnder(id: BlockId, i: nat, j: nat)
    requires i != j
    ensures !Under(id + [i], id + [j])
  {
    assert (id + [j])[..|id| + 1] == id + [j];
    assert (id + [j])[|id|] == j && (id + [i])[|id|] == i;
  }

  lemma SameOutsideTrans(s: State, t: State, u: State, id: BlockId, i: nat)
    requires SameOutside(s, t, id + [i]) && SameOutside(t, u, id)
    ensures SameOutside(s, u, id)
  {
    forall key | !Under(id, key)
      ensures !Under(id + [i], key)
    {
      if Under(id + [i], key) {
        UnderSibling(id, i, key);
      }
    }
  }

  lemma UnderExtend(id: BlockId, suffix: seq<nat>)
    ensures Under(id, id + suffix)
  {
    assert (id + suffix)[..|id|] == id;
  }

  lemma UnderTrans(a: BlockId, b: BlockId, key: BlockId)
    requires Under(a, b) && Under(b, key)
    ensures Under(a, key)
  {
    assert key[..|b|][..|a|] == key[..|a|];
  }

  /** Two changes confined to the same subtree compose. */
  lemma SameOutsideCompose(s: State, t: State, u: State, id: BlockId)
    requires SameOutside(s, t, id) && SameOutside(t, u, id)
    ensures SameOutside(s, u, id)
  {
  }

  /** A change confined to a subtree is confined to any enclosing one. */
  lemma SameOutsideWiden(s: State, t: State, a: BlockId, b: BlockId)
    requires Under(a, b) && SameOutside(s, t, b)
    ensures SameOutside(s, t, a)
  {
    forall key | Under(b, key)
      ensures Under(a, key)
    {
      UnderTrans(a, b, key);
    }
  }

  lemma ExecuteOne(s: State, m: Move)
    ensures Execute(s, [m]) == Simulate(s, m)
  {
    assert [m][1..] == [];
  }

  /** What `program_exec_error` reports: the 1-based line, the move, and the
      named block for a single-block move when it exists. */
  datatype ExecError = ExecError(lineNumber: nat, mv: Move, block: Option<SimpleBlock>)

  function ProgramExecError(lineNumber: nat, mv: Move, s: State): ExecError
  {
    var block := if mv.IsSingleBlock() && mv.block in s.blocks then Some(s.blocks[mv.block]) else None;
    ExecError(lineNumber, mv, block)
  }

  /** The caller's state after `simulate_partial` and the error it returned. */
  datatype Partial = Partial(state: State, error: Option<ExecError>)

  /** `simulate_partial` starting at line `line`: moves are applied in order;
      at the first failing move it stops, reporting that move's line with all
      earlier moves applied. */
  function SimulatePartialFrom(s: State, prog: Program, line: nat): (r: Partial)
    requires line >= 1
    ensures r.error.None? <==> Execute(s, prog).Some?
    ensures r.error.None? ==> Execute(s, prog) == Some(r.state)
    ensures r.error.Some? ==>
              var n := r.error.value.lineNumber - line;
              && 0 <= n < |prog|
              && r.error.value.mv == prog[n]
              && Execute(s, prog[..n]) == Some(r.state)
              && Simulate(r.state, prog[n]).None?
              && r.error.value == ProgramExecError(n + line, prog[n], r.state)
    decreases |prog|
  {
    if |prog| == 0 then Partial(s, None)
    else
      match Simulate(s, prog[0])
      case None =>
        assert prog[..0] == [];
        Partial(s, Some(ProgramExecError(line, prog[0], s)))
      case Some(s') =>
        var r := SimulatePartialFrom(s', prog[1..], line + 1);
        assert r.error.Some? ==> Execute(s, prog[..r.error.value.lineNumber - line]) == Some(r.state) by {
          if r.error.Some? {
            ExecutePrefixCons(s, s', prog, r.error.value.lineNumber - (line + 1));
          }
        }
        r
  }

  function SimulatePartial(s: State, prog: Program): Partial
  {
    SimulatePartialFrom(s, prog, 1)
  }

  /** `simulate_all`: the final state, or the first failing line's error. */
  function SimulateAll(prog: Program, s: State): (r: Result<State, ExecError>)
    ensures r.Success? <==> Execute(s, prog).Some?
    ensures r.Success? ==> Execute(s, prog) == Some(r.value)
    ensures r.Failure? ==> 1 <= r.error.lineNumber <= |prog|
                           && r.error.mv == prog[r.error.lineNumber - 1]
  {
    var partial := SimulatePartial(s, prog);
    if partial.error.None? then Success(partial.state) else Failure(partial.error.value)
  }
}

=== FILE: strings.dfy ===
/** Text helpers shared by the serialiser, the key scheme and the parsers:
    separator splitting with the semantics of Rust's `str::split` and
    JavaScript's `String.prototype.split` (one more piece than there are
    separators, empty pieces kept), prefix tests, and canonical decimal
    rendering of integers as done by Rust's `to_string` and JavaScript's
    template literals. */
module Strings {

  /** Index of the first occurrence of `c` in `s`. */
  function IndexOf(s: string, c: char): (k: nat)
    requires c in s
    ensures k < |s| && s[k] == c
    ensures c !in s[..k]
  {
    if s[0] == c then 0
    else
      var k' := IndexOf(s[1..], c);
      assert s[..k' + 1] == [s[0]] + s[1..][..k'];
      k' + 1
  }

  /** Glues pieces back together with one separator between neighbours. */
  function Join(parts: seq<string>, sep: char): string
  {
    if |parts| == 0 then ""
    else if |parts| == 1 then parts[0]
    else parts[0] + [sep] + Join(parts[1..], sep)
  }

  /** The pieces of `s` between occurrences of `sep`, left to right.
      There is always at least one piece, no piece contains `sep`,
      and joining the pieces with `sep` gives `s` back. */
  function Split(s: string, sep: char): (parts: seq<string>)
    ensures |parts| >= 1
    ensures forall i :: 0 <= i < |parts| ==> sep !in parts[i]
    ensures Join(parts, sep) == s
    decreases |s|
  {
    if sep !in s then [s]
    else
      var k := IndexOf(s, sep);
      var rest := Split(s[k + 1..], sep);
      var parts := [s[..k]] + rest;
      assert parts[1..] == rest;
      assert s == s[..k] + [sep] + s[k + 1..];
      parts
  }

  /** Splitting undoes joining whenever no piece contains the separator. */
  lemma {:induction false} SplitJoin(parts: seq<string>, sep: char)
    requires |parts| >= 1
    requires forall i :: 0 <= i < |parts| ==> sep !in parts[i]
    ensures Split(Join(parts, sep), sep) == parts
  {
    if |parts| > 1 {
      var s := Join(parts, sep);
      var p0 := parts[0];
      var tail := Join(parts[1..], sep);
      assert s == p0 + [sep] + tail;
      assert sep in s by { assert s[|p0|] == sep; }
      var k := IndexOf(s, sep);
      assert s[..k] == p0;
      assert s[k + 1..] == tail;
      SplitJoin(parts[1..], sep);
      assert Split(s, sep) == [p0] + Split(tail, sep);
    }
  }

  /** A first piece free of the separator is split off as it is. */
  lemma SplitAfterHead(head: string, sep: char, tail: string)
    requires sep !in head
    ensures Split(head + [sep] + tail, sep) == [head] + Split(tail, sep)
  {
    var s := head + [sep] + tail;
    assert s[|head|] == sep;
    var k := IndexOf(s, sep);
    assert s[..|head|] == head;
    assert k == |head|;
    assert s[..k] == head;
    assert s[k + 1..] == tail;
  }

  /** Two separator-free pieces around one separator split into those two. */
  lemma SplitAtSeparator(a: string, sep: char, b: string)
    requires sep !in a && sep !in b
    ensures Split(a + [sep] + b, sep) == [a, b]
  {
    SplitAfterHead(a, sep, b);
  }

  /** Splitting distributes over a join at one separator. */
  lemma {:induction false} SplitAppend(a: string, sep: char, b: string)
    ensures Split(a + [sep] + b, sep) == Split(a, sep) + Split(b, sep)
    decreases |a|
  {
    if sep in a {
      var k := IndexOf(a, sep);
      var h := a[..k];
      var rest := a[k + 1..];
      var t := rest + [sep] + b;
      assert a == h + [sep] + rest;
      assert a + [sep] + b == h + [sep] + t by {
        Reassociate(h, [sep], rest, [sep] + b);
      }
      SplitAfterHead(h, sep, t);
      SplitAfterHead(h, sep, rest);
      SplitAppend(rest, sep, b);
    } else {
      SplitAfterHead(a, sep, b);
    }
  }

  lemma Reassociate(w: string, x: string, y: string, z: string)
    ensures (w + x + y) + z == w + x + (y + z)
  {
  }

  predicate StartsWith(s: string, prefix: string)
  {
    |prefix| <= |s| && s[..|prefix|] == prefix
  }

  // ---------------------------------------------------------------------
  // Decimal digits

  predicate IsDigit(c: char)
  {
    '0' <= c <= '9'
  }

  predicate AllDigits(s: string)
  {
    forall i :: 0 <= i < |s| ==> IsDigit(s[i])
  }

  function DigitChar(d: nat): (c: char)
    requires d < 10
    ensures IsDigit(c)
  {
    (('0' as int) + d) as char
  }

  function DigitValue(c: char): (d: nat)
    requires IsDigit(c)
    ensures d < 10
  {
    (c as int) - ('0' as int)
  }

  /** Value of a string of decimal digits read most-significant first. */
  function DigitsValue(s: string): nat
    requires AllDigits(s)
  {
    if |s| == 0 then 0
    else DigitsValue(s[..|s| - 1]) * 10 + DigitValue(s[|s| - 1])
  }

  /** A non-empty digit string without a leading zero ("0" itself allowed). */
  predicate IsCanonicalNat(s: string)
  {
    |s| >= 1 && AllDigits(s) && (|s| > 1 ==> s[0] != '0')
  }

  /** Decimal rendering of a natural number, as `u32::to_string` prints it. */
  function NatToString(n: nat): (r: string)
    ensures IsCanonicalNat(r)
    ensures DigitsValue(r) == n
  {
    if n < 10 then [DigitChar(n)]
    else
      var high := NatToString(n / 10);
      var r := high + [DigitChar(n % 10)];
      assert r[..|r| - 1] == high;
      assert |high| == 1 ==> DigitValue(high[0]) == n / 10 by {
        if |high| == 1 {
          assert high[..0] == [];
        }
      }
      r
  }

  /** A digit string that starts with a non-zero digit has a positive value. */
  lemma {:induction false} LeadingNonZeroPositive(s: string)
    requires |s| >= 1 && AllDigits(s) && s[0] != '0'
    ensures DigitsValue(s) >= 1
  {
    if |s| > 1 {
      LeadingNonZeroPositive(s[..|s| - 1]);
    } else {
      assert s[..0] == [];
    }
  }

  /** Rendering the value of a canonical digit string gives the string back,
      so `NatToString` is a bijection onto canonical digit strings. */
  lemma {:induction false} NatToStringOfValue(s: string)
    requires IsCanonicalNat(s)
    ensures NatToString(DigitsValue(s)) == s
  {
    var n := |s|;
    if n == 1 {
      assert s[..0] == [];
      assert DigitChar(DigitValue(s[0])) == s[0];
    } else {
      var high := s[..n - 1];
      assert IsCanonicalNat(high);
      LeadingNonZeroPositive(high);
      NatToStringOfValue(high);
      var v := DigitsValue(s);
      assert v / 10 == DigitsValue(high) && v % 10 == DigitValue(s[n - 1]);
      assert DigitChar(DigitValue(s[n - 1])) == s[n - 1];
      assert s == high + [s[n - 1]];
    }
  }

  /** Two naturals render alike only when they are equal. */
  lemma NatToStringInjective(m: nat, n: nat)
    requires NatToString(m) == NatToString(n)
    ensures m == n
  {
  }

  /** Decimal rendering of a signed integer, with a leading '-' when negative. */
  function IntToString(i: int): (r: string)
    ensures |r| >= 1
    ensures i < 0 <==> r[0] == '-'
    ensures i < 0 ==> r[1..] == NatToString(-i)
    ensures i >= 0 ==> r == NatToString(i)
  {
    if i < 0 then "-" + NatToString(-i) else NatToString(i)
  }
}

=== FILE: swap_ai.dfy ===
/** `SwapAI` (`ai/swap.rs`): a greedy search over which initial block's
    colour sits at which position. Each round evaluates every swap of two
    equally sized blocks and applies the one that lowers similarity plus
    move cost the most, until no swap helps or 10000 rounds have passed.
    The similarity of block i painted with block j's colour and the cost of
    a swap at block i are integer inputs. */
module SwapAi {

  import opened Isl
  import opened Simulator

  const I64_MAX: int := 0x7fff_ffff_ffff_ffff
  const MAX_ROUNDS: nat := 10000

  /** The blocks in the order the source iterates the state's map, with
      distinct ids; `sim[i][j]` is block i's similarity when painted with
      block j's initial colour, `cost[i]` the cost of a swap at block i. */
  predicate WellShaped(blocks: seq<(BlockId, SimpleBlock)>, sim: seq<seq<int>>, cost: seq<int>)
  {
    && |sim| == |blocks| && |cost| == |blocks|
    && (forall i :: 0 <= i < |sim| ==> |sim[i]| == |blocks|)
    && (forall i, j :: 0 <= i < j < |blocks| ==> blocks[i].0 != blocks[j].0)
  }

  predicate IsPermutation(o: seq<nat>, n: nat)
  {
    && |o| == n
    && (forall i :: 0 <= i < n ==> o[i] < n)
    && (forall i, j :: 0 <= i < j < n ==> o[i] != o[j])
  }

  function Identity(n: nat): (o: seq<nat>)
    ensures IsPermutation(o, n) && forall i :: 0 <= i < n ==> o[i] == i
  {
    seq(n, i => i)
  }

  /** `color_origin.swap(i, j)`. */
  function SwapAt(o: seq<nat>, i: nat, j: nat): (r: seq<nat>)
    requires i < |o| && j < |o|
    ensures |r| == |o| && r[i] == o[j] && r[j] == o[i]
    ensures forall k :: 0 <= k < |o| && k != i && k != j ==> r[k] == o[k]
  {
    o[i := o[j]][j := o[i]]
  }

  lemma SwapKeepsPermutation(o: seq<nat>, n: nat, i: nat, j: nat)
    requires IsPermutation(o, n) && i < n && j < n
    ensures IsPermutation(SwapAt(o, i, j), n)
  {
    var r := SwapAt(o, i, j);
    forall a, b | 0 <= a < b < n
      ensures r[a] != r[b]
    {
      var a' := if a == i then j else if a == j then i else a;
      var b' := if b == i then j else if b == j then i else b;
      assert r[a] == o[a'] && r[b] == o[b'];
    }
  }

  /** Total similarity of the first k positions under the assignment `o`. */
  function Total(sim: seq<seq<int>>, o: seq<nat>, k: nat): int
    requires k <= |o| <= |sim|
    requires forall t :: 0 <= t < |o| ==> o[t] < |sim[t]|
  {
    if k == 0 then 0 else Total(sim, o, k - 1) + sim[k - 1][o[k - 1]]
  }

  predicate IsCandidate(blocks: seq<(BlockId, SimpleBlock)>, i: nat, j: nat)
  {
    i < j < |blocks| && blocks[i].1.size == blocks[j].1.size
  }

  /** `cost_delta` of swapping the colours at positions i and j. */
  function Delta(blocks: seq<(BlockId, SimpleBlock)>, sim: seq<seq<int>>, cost: seq<int>, o: seq<nat>, i: nat, j: nat): int
    requires WellShaped(blocks, sim, cost) && IsPermutation(o, |blocks|)
    requires i < |blocks| && j < |blocks|
  {
    var before := sim[i][o[i]] + sim[j][o[j]];
    var after := sim[i][o[j]] + sim[j][o[i]];
    after + cost[i] - before
  }

  /** Swapping two entries changes the total by exactly their two terms. */
  lemma {:induction false} SwapTotal(sim: seq<seq<int>>, o: seq<nat>, i: nat, j: nat, k: nat)
    requires i < j < |o| <= |sim| && k <= |o|
    requires forall t :: 0 <= t < |o| ==> o[t] < |sim[t]| && o[t] < |sim[i]| && o[t] < |sim[j]|
    ensures Total(sim, SwapAt(o, i, j), k)
            == Total(sim, o, k)
               + (if i < k then sim[i][o[j]] - sim[i][o[i]] else 0)
               + (if j < k then sim[j][o[i]] - sim[j][o[j]] else 0)
  {
    if k > 0 {
      SwapTotal(sim, o, i, j, k - 1);
    }
  }

  /** (i', j') is visited before (i, j) by the nested loops. */
  predicate PairBefore(i': nat, j': nat, i: nat, j: nat)
  {
    i' < i || (i' == i && j' < j)
  }

  /** One round's scan. When some candidate's delta is below `I64_MAX`, the
      result is the least delta and the first candidate, in loop order, that
      attains it; otherwise the initial `(I64_MAX, (0, 0))` is kept. */
  method BestPair(blocks: seq<(BlockId, SimpleBlock)>, sim: seq<seq<int>>, cost: seq<int>, o: seq<nat>)
    returns (minDelta: int, best: (nat, nat))
    requires WellShaped(blocks, sim, cost) && IsPermutation(o, |blocks|)
    ensures minDelta <= I64_MAX
    ensures forall i, j :: IsCandidate(blocks, i, j) ==> minDelta <= Delta(blocks, sim, cost, o, i, j) || I64_MAX <= Delta(blocks, sim, cost, o, i, j)
    ensures minDelta < I64_MAX ==>
              && IsCandidate(blocks, best.0, best.1)
              && minDelta == Delta(blocks, sim, cost, o, best.0, best.1)
              && forall i, j :: IsCandidate(blocks, i, j) && PairBefore(i, j, best.0, best.1)
                   ==> minDelta < Delta(blocks, sim, cost, o, i, j)
    ensures minDelta == I64_MAX ==> best == (0, 0)
  {
    minDelta := I64_MAX;
    best := (0, 0);
    var n := |blocks|;
    var i := 0;
    while i < n
      invariant 0 <= i <= n
      invariant minDelta <= I64_MAX
      invariant minDelta == I64_MAX ==> best == (0, 0)
      invariant forall a: nat, b: nat :: IsCandidate(blocks, a, b) && a < i ==>
                  minDelta <= Delta(blocks, sim, cost, o, a, b) || I64_MAX <= Delta(blocks, sim, cost, o, a, b)
      invariant minDelta < I64_MAX ==>
                  && IsCandidate(blocks, best.0, best.1) && best.0 < i
                  && minDelta == Delta(blocks, sim, cost, o, best.0, best.1)
                  && forall a, b :: IsCandidate(blocks, a, b) && PairBefore(a, b, best.0, best.1)
                       ==> minDelta < Delta(blocks, sim, cost, o, a, b)
    {
      var j := i + 1;
      while j < n
        invariant i + 1 <= j <= n || (j == i + 1 && j > n)
        invariant minDelta <= I64_MAX
        invariant minDelta == I64_MAX ==> best == (0, 0)
        invariant forall a: nat, b: nat :: IsCandidate(blocks, a, b) && (a < i || (a == i && b < j)) ==>
                    minDelta <= Delta(blocks, sim, cost, o, a, b) || I64_MAX <= Delta(blocks, sim, cost, o, a, b)
        invariant minDelta < I64_MAX ==>
                    && IsCandidate(blocks, best.0, best.1) && PairBefore(best.0, best.1, i, j)
                    && minDelta == Delta(blocks, sim, cost, o, best.0, best.1)
                    && forall a, b :: IsCandidate(blocks, a, b) && PairBefore(a, b, best.0, best.1)
                         ==> minDelta < Delta(blocks, sim, cost, o, a, b)
      {
        if blocks[i].1.size == blocks[j].1.size {
          var before := sim[i][o[i]] + sim[j][o[j]];
          var after := sim[i][o[j]] + sim[j][o[i]];
          var costDelta := after + cost[i] - before;
          if costDelta < minDelta {
            minDelta := costDelta;
            best := (i, j);
          }
        }
        j := j + 1;
      }
      i := i + 1;
    }
  }

  /** Sum of the swap costs of the applied pairs. */
  function PairCost(cost: seq<int>, pairs: seq<(nat, nat)>): int
    requires forall k :: 0 <= k < |pairs| ==> pairs[k].0 < |cost|
  {
    if |pairs| == 0 then 0 else PairCost(cost, pairs[..|pairs| - 1]) + cost[pairs[|pairs| - 1].0]
  }

  /** Colour assignment after applying the pairs in order to the identity. */
  function Apply(o: seq<nat>, pairs: seq<(nat, nat)>): (r: seq<nat>)
    requires forall k :: 0 <= k < |pairs| ==> pairs[k].0 < |o| && pairs[k].1 < |o|
    ensures |r| == |o|
  {
    if |pairs| == 0 then o else
      var r := Apply(o, pairs[..|pairs| - 1]);
      SwapAt(r, pairs[|pairs| - 1].0, pairs[|pairs| - 1].1)
  }

  /** What holds after each round: every applied pair is a candidate, and
      the assignment is the permutation the pairs produce, whose total plus
      the swap costs is at least one below the identity's per swap. */
  predicate Progress(blocks: seq<(BlockId, SimpleBlock)>, sim: seq<seq<int>>, cost: seq<int>,
                     origin: seq<nat>, pairs: seq<(nat, nat)>)
  {
    && WellShaped(blocks, sim, cost)
    && IsPermutation(origin, |blocks|)
    && (forall k :: 0 <= k < |pairs| ==> IsCandidate(blocks, pairs[k].0, pairs[k].1))
    && (forall k :: 0 <= k < |pairs| ==> pairs[k].0 < |blocks| && pairs[k].1 < |blocks|)
    && origin == Apply(Identity(|blocks|), pairs)
    && Total(sim, origin, |blocks|) + PairCost(cost, pairs) + |pairs| <= Total(sim, Identity(|blocks|), |blocks|)
  }

  /** What one round's choice satisfies under the assignment `o`: (i, j) is
      a candidate with negative delta, no candidate has a smaller delta
      below `I64_MAX`, and every candidate visited before it has a strictly
      larger delta. */
  ghost predicate GreedyChoice(blocks: seq<(BlockId, SimpleBlock)>, sim: seq<seq<int>>, cost: seq<int>,
                         o: seq<nat>, i: nat, j: nat)
    requires WellShaped(blocks, sim, cost) && IsPermutation(o, |blocks|)
  {
    && IsCandidate(blocks, i, j)
    && Delta(blocks, sim, cost, o, i, j) < 0
    && (forall a, b :: IsCandidate(blocks, a, b) ==>
          Delta(blocks, sim, cost, o, i, j) <= Delta(blocks, sim, cost, o, a, b)
          || I64_MAX <= Delta(blocks, sim, cost, o, a, b))
    && (forall a, b :: IsCandidate(blocks, a, b) && PairBefore(a, b, i, j) ==>
          Delta(blocks, sim, cost, o, i, j) < Delta(blocks, sim, cost, o, a, b))
  }

  /** `pair` is the greedy choice under the assignment that the pairs
      `before` produce from the identity. */
  ghost predicate ChosenAfter(blocks: seq<(BlockId, SimpleBlock)>, sim: seq<seq<int>>, cost: seq<int>,
                              before: seq<(nat, nat)>, pair: (nat, nat))
  {
    && WellShaped(blocks, sim, cost)
    && (forall k :: 0 <= k < |before| ==> before[k].0 < |blocks| && before[k].1 < |blocks|)
    && IsPermutation(Apply(Identity(|blocks|), before), |blocks|)
    && GreedyChoice(blocks, sim, cost, Apply(Identity(|blocks|), before), pair.0, pair.1)
  }

  /** Every applied pair was the round's greedy choice under the assignment
      produced by the pairs before it. */
  ghost predicate Greedy(blocks: seq<(BlockId, SimpleBlock)>, sim: seq<seq<int>>, cost: seq<int>,
                         pairs: seq<(nat, nat)>)
  {
    forall k :: 0 <= k < |pairs| ==> ChosenAfter(blocks, sim, cost, pairs[..k], pairs[k])
  }

  /** Appending the greedy choice for the current assignment keeps every
      earlier round's choice and records the new one. */
  lemma GreedyStep(blocks: seq<(BlockId, SimpleBlock)>, sim: seq<seq<int>>, cost: seq<int>,
                   origin: seq<nat>, pairs: seq<(nat, nat)>, i: nat, j: nat)
    requires Greedy(blocks, sim, cost, pairs)
    requires Progress(blocks, sim, cost, origin, pairs)
    requires GreedyChoice(blocks, sim, cost, origin, i, j)
    ensures Greedy(blocks, sim, cost, pairs + [(i, j)])
  {
    var pairs' := pairs + [(i, j)];
    assert ChosenAfter(blocks, sim, cost, pairs, (i, j));
    forall k | 0 <= k < |pairs'|
      ensures ChosenAfter(blocks, sim, cost, pairs'[..k], pairs'[k])
    {
      if k < |pairs| {
        assert pairs'[..k] == pairs[..k] && pairs'[k] == pairs[k];
      } else {
        assert pairs'[..k] == pairs && pairs'[k] == (i, j);
      }
    }
  }

  /** `SwapAI::solve`. Returns the program, the final colour assignment and
      the index pairs swapped. Every swap names two distinct blocks of equal
      size; the assignment stays a permutation, obtained by applying the
      swaps in order; each swap is the round's greedy choice, the first
      candidate in loop order with the least delta, and that delta is
      negative, so similarity plus accumulated cost falls by at least one
      per swap; and unless the round limit was reached no remaining swap
      improves the total. */
  method Solve(blocks: seq<(BlockId, SimpleBlock)>, sim: seq<seq<int>>, cost: seq<int>)
    returns (program: Program, origin: seq<nat>, pairs: seq<(nat, nat)>)
    requires WellShaped(blocks, sim, cost)
    ensures |program| == |pairs| <= MAX_ROUNDS
    ensures forall k :: 0 <= k < |pairs| ==>
              && IsCandidate(blocks, pairs[k].0, pairs[k].1)
              && program[k] == Swap(blocks[pairs[k].0].0, blocks[pairs[k].1].0)
              && program[k].a != program[k].b
    ensures IsPermutation(origin, |blocks|)
    ensures (forall k :: 0 <= k < |pairs| ==> pairs[k].0 < |blocks| && pairs[k].1 < |blocks|)
            && origin == Apply(Identity(|blocks|), pairs)
    ensures Total(sim, origin, |blocks|) + PairCost(cost, pairs) + |pairs|
            <= Total(sim, Identity(|blocks|), |blocks|)
    ensures Greedy(blocks, sim, cost, pairs)
    ensures |pairs| < MAX_ROUNDS ==>
              forall i, j :: IsCandidate(blocks, i, j) ==> Delta(blocks, sim, cost, origin, i, j) >= 0
  {
    var n := |blocks|;
    origin := Identity(n);
    program := [];
    pairs := [];
    var updated := true;
    var iterCount := 0;
    while updated && iterCount < MAX_ROUNDS
      invariant |program| == |pairs| <= iterCount <= MAX_ROUNDS
      invariant !updated ==> |pairs| < iterCount
      invariant updated ==> |pairs| == iterCount
      invariant Progress(blocks, sim, cost, origin, pairs)
      invariant SwapsNamePairs(blocks, pairs, program)
      invariant Greedy(blocks, sim, cost, pairs)
      invariant !updated ==>
                  forall i, j :: IsCandidate(blocks, i, j) ==> Delta(blocks, sim, cost, origin, i, j) >= 0
      decreases MAX_ROUNDS - iterCount
    {
      iterCount := iterCount + 1;
      updated := false;
      var minDelta, best := BestPair(blocks, sim, cost, origin);
      if minDelta < 0 {
        updated := true;
        var (i, j) := best;
        GreedyStep(blocks, sim, cost, origin, pairs, i, j);
        SwapStep(blocks, sim, cost, origin, pairs, i, j);
        SwapsNamePairsStep(blocks, sim, cost, pairs, program, i, j);
        origin := SwapAt(origin, i, j);
        program := program + [Swap(blocks[i].0, blocks[j].0)];
        pairs := pairs + [(i, j)];
      } else {
        NoImprovingSwap(blocks, sim, cost, origin, minDelta);
      }
    }
  }

  /** The program's k-th swap exchanges the blocks of the k-th pair, which
      are distinct. */
  predicate SwapsNamePairs(blocks: seq<(BlockId, SimpleBlock)>, pairs: seq<(nat, nat)>, program: Program)
  {
    && |program| == |pairs|
    && forall k :: 0 <= k < |pairs| ==>
         && pairs[k].0 < |blocks| && pairs[k].1 < |blocks|
         && program[k] == Swap(blocks[pairs[k].0].0, blocks[pairs[k].1].0)
         && program[k].a != program[k].b
  }

  lemma SwapsNamePairsStep(blocks: seq<(BlockId, SimpleBlock)>, sim: seq<seq<int>>, cost: seq<int>,
                           pairs: seq<(nat, nat)>, program: Program, i: nat, j: nat)
    requires WellShaped(blocks, sim, cost) && IsCandidate(blocks, i, j)
    requires SwapsNamePairs(blocks, pairs, program)
    ensures SwapsNamePairs(blocks, pairs + [(i, j)], program + [Swap(blocks[i].0, blocks[j].0)])
  {
    assert blocks[i].0 != blocks[j].0;
  }

  /** A scan whose least delta is not negative leaves no improving swap. */
  lemma NoImprovingSwap(blocks: seq<(BlockId, SimpleBlock)>, sim: seq<seq<int>>, cost: seq<int>,
                        o: seq<nat>, minDelta: int)
    requires WellShaped(blocks, sim, cost) && IsPermutation(o, |blocks|) && 0 <= minDelta
    requires forall i, j :: IsCandidate(blocks, i, j) ==>
               minDelta <= Delta(blocks, sim, cost, o, i, j) || I64_MAX <= Delta(blocks, sim, cost, o, i, j)
    ensures forall i, j :: IsCandidate(blocks, i, j) ==> Delta(blocks, sim, cost, o, i, j) >= 0
  {
  }

  /** Applying an improving swap keeps the progress invariant. */
  lemma SwapStep(blocks: seq<(BlockId, SimpleBlock)>, sim: seq<seq<int>>, cost: seq<int>,
                 origin: seq<nat>, pairs: seq<(nat, nat)>, i: nat, j: nat)
    requires Progress(blocks, sim, cost, origin, pairs) && IsCandidate(blocks, i, j)
    requires Delta(blocks, sim, cost, origin, i, j) < 0
    ensures Progress(blocks, sim, cost, SwapAt(origin, i, j), pairs + [(i, j)])
  {
    var n := |blocks|;
    SwapKeepsPermutation(origin, n, i, j);
    SwapStepApply(origin, pairs, i, j, n);
    SwapStepTotal(blocks, sim, cost, origin, pairs, i, j);
  }
  lemma SwapStepApply(origin: seq<nat>, pairs: seq<(nat, nat)>, i: nat, j: nat, n: nat)
    requires i < n && j < n
    requires forall k :: 0 <= k < |pairs| ==> pairs[k].0 < n && pairs[k].1 < n
    requires origin == Apply(Identity(n), pairs)
    ensures SwapAt(origin, i, j) == Apply(Identity(n), pairs + [(i, j)])
  {
    var pairs' := pairs + [(i, j)];
    assert pairs'[..|pairs'| - 1] == pairs;
  }

  lemma SwapStepTotal(blocks: seq<(BlockId, SimpleBlock)>, sim: seq<seq<int>>, cost: seq<int>,
                      origin: seq<nat>, pairs: seq<(nat, nat)>, i: nat, j: nat)
    requires WellShaped(blocks, sim, cost) && IsPermutation(origin, |blocks|) && IsCandidate(blocks, i, j)
    requires forall k :: 0 <= k < |pairs| ==> pairs[k].0 < |blocks|
    requires Delta(blocks, sim, cost, origin, i, j) < 0
    ensures Total(sim, SwapAt(origin, i, j), |blocks|) + PairCost(cost, pairs + [(i, j)]) + 1
            <= Total(sim, origin, |blocks|) + PairCost(cost, pairs)
  {
    var pairs' := pairs + [(i, j)];
    SwapTotal(sim, origin, i, j, |blocks|);
    assert pairs'[..|pairs'| - 1] == pairs;
    assert PairCost(cost, pairs') == PairCost(cost, pairs) + cost[i];
  }
}

=== FILE: wrappers.dfy ===
/** Failure-carrying datatypes shared by every module of the model.
    `Option` models Rust's `Option` (and a missing map entry); `Result`
    models Rust's `Result` and a thrown exception in the TypeScript code. */
module Wrappers {

  datatype Option<+T> = None | Some(value: T) {

    predicate IsFailure() {
      None?
    }

    function PropagateFailure<U>(): Option<U>
      requires None?
    {
      None
    }

    function Extract(): T
      requires Some?
    {
      value
    }
  }

  datatype Result<+R, +E> = Success(value: R) | Failure(error: E) {

    predicate IsFailure() {
      Failure?
    }

    function PropagateFailure<U>(): Result<U, E>
      requires Failure?
    {
      Failure(error)
    }

    function Extract(): R
      requires Success?
    {
      value
    }
  }
}
